=== FILE: README.md ===
# Scenaria core, modelled in Dafny

Scenaria is a small tool for describing software architectures as text.
A program declares agents (`actor 'Web Server' as web;`), stores
(`store 'Users DB' as db;`), and data flows from an agent into a store
(`web --> db;`) or from a store to an agent (`web <-- db;`), with `//` line
comments.  The tool parses the program, turns it into a system model, and
derives a layout graph from the model: one node per actor and per channel,
one edge per data flow, and two edges per channel.  A painter draws the
laid-out graph.  The graph can be saved into a URL as a compressed,
base64-encoded state.  A scenario stepper walks the steps of a scenario and
highlights each step's channel in turn.

This project models that core as pure functions over immutable data and
proves what each part promises:

| module | what it models |
|---|---|
| `Results`, `Seqs`, `SystemModel`, `JsObjects` | Option/Result, a stable filter, the system model's records, and JavaScript objects as the state codec sees them |
| `Grammar`, `GrammarProperties` | the Scenaria PEG as a recogniser over the remaining input, with the syntactic rules' space skipping; round trips from rendered programs back to their elements |
| `Lang`, `LangProperties` | the semantic actions: symbol tables for agents and stores, data-flow validation, and assembly of the model |
| `IR` | the IR classes and the block's comment-free statement list |
| `CanonicalModel` | the conversion of an IR program into the system model |
| `DiagramModel` | the ids of the two edges of a channel, and how a channel id is recovered from an edge id |
| `DiagDraw`, `LegacyDiagDraw` | derivation of the layout graph: the current version and the older one kept in `src/DiagDraw.js` |
| `Geometry`, `DiagramPainter` | arrowhead geometry, edge-end direction, edge lookup by source and target, and the painter's registry from ids to drawn elements |
| `State` | the key tables, graph compression and decompression, and the state record's encode/decode |
| `Scenario` | the scenario executer and stepper, with the diagram controller's calls recorded as a trace of events |

Source paths below are relative to the repository root.  The tool reads
the state string through zlib, base64 and JSON.  Here those are the
parameters `deflate` and `inflate` of `State.Encode` and
`State.FromBase64`.  The diagram controller is a flag saying whether one was
supplied.  Its calls are returned as a sequence of `Event`s.

In `src/state/State.js` the table of compressed keys spells one key
`ednPoint`.  A section's `endPoint` therefore has no short name.  Both
directions look the key up the same way, so it is written and read under the
key `undefined`, and the round trip still holds.  The model keeps this
behaviour (`State.FreshKeysDistinct`).

## Model

| member | source | states |
|---|---|---|
| Grammar.SkipSpaces | src/lang/scenaria.ohm.js:13-17 | syntactic rules skip leading spaces: the result is a suffix of the input, everything skipped is a space, and the result does not start with one |
| Grammar.IdentCharsLength | src/lang/scenaria.ohm.js:58-60 | `identChar*` takes the longest run of identifier characters: all counted characters are identifier characters, and the next one is not |
| Grammar.ParseIdent | src/lang/scenaria.ohm.js:62 | `ident` consumes a non-empty part of the input and leaves a suffix of it |
| Grammar.TextCharsLength | src/lang/scenaria.ohm.js:54-55 | `textCharacter*` covers text characters only, and the captured run ends with a letter or digit |
| Grammar.ParseTextLiteral | src/lang/scenaria.ohm.js:55 | a text literal consumes input and leaves a strict suffix |
| Grammar.LineLength | src/lang/scenaria.ohm.js:64 | `(~"\n" any)*` stops exactly at the first newline or at the end |
| Grammar.ParseComment | src/lang/scenaria.ohm.js:64 | a comment consumes input and leaves a strict suffix |
| Grammar.ParseDeclaration | src/lang/scenaria.ohm.js:29-30 | `ActorDef`/`StoreDef` consume input and leave a strict suffix |
| Grammar.ParseFlow | src/lang/scenaria.ohm.js:39-40 | `DataFlowWrite`/`DataFlowRead` consume input and leave a strict suffix |
| Grammar.ParseStatement | src/lang/scenaria.ohm.js:27 | a statement is never a comment, and it consumes input |
| Grammar.ParseProgramElement | src/lang/scenaria.ohm.js:15-16 | an element (a statement with its `;`, or a comment) consumes input |
| Grammar.ParseMoreElements | src/lang/scenaria.ohm.js:17 | the `(~";" ProgramElement)*` repetition leaves a suffix of its input |
| Grammar.ParseProgramElements | src/lang/scenaria.ohm.js:17 | `ProgramElements` leaves a suffix of its input |
| Grammar.ParseProgram | src/lang/scenaria.ohm.js:13-17 | the whole text matches `Program` exactly when only spaces follow the recognised elements, and then the result is those elements; `Lang.Parse`, `RenderRoundTrip` and `MissingTerminatorRejected` build on it |
| GrammarProperties.SkipSpacesIdempotent | src/lang/scenaria.ohm.js:13-17 | skipping spaces twice is the same as skipping them once |
| GrammarProperties.ReservedWordsAreTheKeywords | src/lang/scenaria.ohm.js:3-8 | the alternatives of `reserved_word` are exactly the keyword table's literals, and each keyword rule matches its own name |
| GrammarProperties.IdentifierIff | src/lang/scenaria.ohm.js:58-62 | `ident` accepts (id, rest) if and only if id is a maximal run starting with `_` or a letter that does not begin with a reserved word |
| GrammarProperties.ReservedPrefixRejected | src/lang/scenaria.ohm.js:19-23 | input that begins with a reserved word is not an identifier |
| GrammarProperties.AssetRejected | src/lang/scenaria.ohm.js:62 | the negative lookahead rejects `asset` because it begins with `as`, even though `asset` is not itself a keyword |
| GrammarProperties.TextLiteralAccepted | src/lang/scenaria.ohm.js:54-55 | a quoted caption with any spaces around it is accepted, and the captured text is the caption without those spaces |
| GrammarProperties.PunctuationRejected | src/lang/scenaria.ohm.js:54-55 | a character that is neither alphanumeric, a space nor the closing quote makes the literal fail |
| GrammarProperties.TextLiteralShape | src/lang/scenaria.ohm.js:54-55 | every accepted literal is a quote, text characters and a quote, and the captured text consists of text characters only |
| GrammarProperties.CommentIff | src/lang/scenaria.ohm.js:64 | `comment` accepts (text, rest) if and only if the input is `//`, then text with no newline, then either the end or a newline |
| GrammarProperties.DeclarationRoundTrip | src/lang/scenaria.ohm.js:29-30 | the text `actor 'c' as id` or `store 'c' as id` parses back to its caption and id |
| GrammarProperties.FlowRoundTrip | src/lang/scenaria.ohm.js:39-40 | the text `a --> s` or `a <-- s` parses back to its two identifiers |
| GrammarProperties.StatementRoundTrip | src/lang/scenaria.ohm.js:27-40 | every well-formed statement's text parses back to that statement |
| GrammarProperties.ElementRoundTrip | src/lang/scenaria.ohm.js:15-16 | every well-formed element (a statement with `;`, or a comment) parses back to itself |
| GrammarProperties.RenderRoundTrip | src/lang/scenaria.ohm.js:13-17 | a program rendered from well-formed elements, one per line, parses back to exactly those elements |
| GrammarProperties.MissingTerminatorRejected | src/lang/scenaria.ohm.js:15-17 | a statement without its `;` is not a program |
| Lang.Declare | src/lang/Lang.js:83-93 | a declaration only ever adds ids to the tables, and each table keeps holding actors of its own kind |
| Lang.EvalElement | src/lang/Lang.js:83-109 | evaluating one element gives its model value; a data flow fails with its own error exactly when its agent or its store is not declared |
| Lang.DeclareAll | src/lang/Lang.js:68-73 | evaluating the elements in order only ever adds ids to the tables |
| Lang.EvalElements | src/lang/Lang.js:68-73 | a successful evaluation yields one value per element and the tables after all declarations |
| Lang.ProgramOf | src/lang/Lang.js:43-57 | the model's actors are exactly the actor values, its data flows exactly the flow values, and the other fields are empty |
| Lang.ProgramOfCounts | src/lang/Lang.js:46-47 | the actors and flows together are no more than the values |
| Lang.Parse | src/lang/Lang.js:132-138 | input that does not match the grammar gives a syntax error and leaves the tables unchanged |
| LangProperties.DeclaredKeys | src/lang/Lang.js:83-93 | after evaluation, an id is a known agent (store) exactly when it was one before or some prior element declared it |
| LangProperties.ValidIffKnown | src/lang/Lang.js:32-39 | a data flow is valid exactly when its agent was declared as an agent and its store as a store |
| LangProperties.LastDeclarationWins | src/lang/Lang.js:83-87 | redeclaring an id replaces the earlier actor, and the last declaration is the one kept |
| LangProperties.KeepsAgent | src/lang/Lang.js:83-87 | elements that do not redeclare an id leave its agent entry untouched |
| LangProperties.EvalOkIffValid | src/lang/Lang.js:95-109 | evaluation succeeds exactly when every data flow is valid against the declarations before it |
| LangProperties.EvalSucceedsIff | src/lang/Lang.js:32-39 | evaluation succeeds exactly when every flow's agent and store are declared earlier in the program |
| LangProperties.EvalValues | src/lang/Lang.js:68-109 | on success the i-th value is the i-th element's model value: actor, store, write flow, read flow or comment text |
| LangProperties.EvalFailure | src/lang/Lang.js:95-101 | on failure there is a first invalid flow; everything before it is valid, the error is that flow's, and the tables are those in force just before it |
| LangProperties.ForwardReferenceFails | src/lang/Lang.js:95-101 | a flow written before its actor and store are declared is rejected |
| LangProperties.DeclaredFlowAccepted | src/lang/Lang.js:103-109 | a read flow after both declarations is accepted |
| LangProperties.EvalConcat | src/lang/Lang.js:68-73 | evaluating a + b is evaluating a, then b against the tables a left |
| LangProperties.ProgramOfConcat | src/lang/Lang.js:43-57 | the model of a + b lists a's actors and flows, then b's |
| LangProperties.CommentDropped | src/lang/Lang.js:79-81 | a comment contributes nothing to the model |
| LangProperties.ActorKept | src/lang/Lang.js:43-57 | an actor value becomes the next actor of the model, in order |
| LangProperties.FlowKept | src/lang/Lang.js:43-57 | a flow value becomes the next data flow of the model, in order |
| LangProperties.ParseSucceeds | src/lang/Lang.js:42-57 | a program whose flows all refer to earlier declarations parses to the model of its elements' values: the actors and the data flows, each in program order |
| LangProperties.ParseFails | src/lang/Lang.js:94-110 | a program with a flow whose agent or store is not declared before it fails with the first such flow's error, keeping the declarations before it |
| IR.TextOrEmpty | src/lang/IR.js:6 | missing text becomes the empty string; given text is kept |
| IR.NewComment | src/lang/IR.js:2-10 | a comment keeps its text, or holds "" when none is given |
| IR.NewTextLiteral | src/lang/IR.js:12-21 | a text literal keeps its text, or holds "" when none is given |
| IR.NewBlock | src/lang/IR.js:47-52 | a block holds the given statements, or none when none are given |
| IR.Statements | src/lang/IR.js:54-57 | the statements are exactly the block's non-comment contents, in order |
| IR.StatementsConcat | src/lang/IR.js:54-57 | filtering a concatenation concatenates the filtered parts |
| IR.StatementsIdempotent | src/lang/IR.js:54-57 | filtering comments out twice changes nothing |
| IR.StatementsWithoutComments | src/lang/IR.js:54-57 | a block without comments is its own statement list |
| IR.CommentInvisible | src/lang/IR.js:54-57 | inserting a comment anywhere does not change the statements |
| CanonicalModel.AgentEntries | src/lang/CanonicalModel.js:14-19 | the agent entries are exactly the actor declarations, as agents |
| CanonicalModel.StoreEntries | src/lang/CanonicalModel.js:21-26 | the store entries are exactly the store declarations, as stores |
| CanonicalModel.WriteEntries | src/lang/CanonicalModel.js:29-34 | every write entry runs from some write statement's agent to its store |
| CanonicalModel.ReadEntries | src/lang/CanonicalModel.js:35-40 | every read entry runs from some read statement's store to its agent |
| CanonicalModel.ToCanonicalModel | src/lang/CanonicalModel.js:10-49 | a missing program is an error; otherwise the actors are exactly the agent entries followed by the store entries, and the data flows exactly the write entries followed by the read entries |
| CanonicalModel.ActorsStablyPartitioned | src/lang/CanonicalModel.js:14-27 | the actors are the declarations stably partitioned into agents then stores, with nothing lost or added |
| CanonicalModel.EntriesConcat | src/lang/CanonicalModel.js:14-41 | each of the four groups of a + b is a's group followed by b's |
| CanonicalModel.InterleavingIrrelevant | src/lang/CanonicalModel.js:14-27 | swapping an adjacent store and actor declaration gives the same model |
| CanonicalModel.SingleEntries | src/lang/CanonicalModel.js:14-41 | one statement contributes exactly its own entry to its own group |
| CanonicalModel.OtherStatementsIgnored | src/lang/CanonicalModel.js:14-49 | comments and statements without a canonical form do not change the model |
| DiagramModel.IndexOf | src/diagram/DiagramModel.js:22 | `indexOf` gives the first occurrence of the pattern, or -1 exactly when there is none |
| DiagramModel.Split | src/diagram/DiagramModel.js:23 | `split` returns the whole string as its only piece exactly when the separator is absent; otherwise its first piece is the prefix before the first separator |
| DiagramModel.SplitRest | src/diagram/DiagramModel.js:23 | after the first piece, `split` continues on the text after the first separator |
| DiagramModel.SplitJoin | src/diagram/DiagramModel.js:23 | joining the pieces of a split with its separator gives back the string |
| DiagramModel.IncomingChannelEdgeId | src/diagram/DiagramModel.js:7-10 | the incoming edge id is the channel's source id, `>>`, then the channel id |
| DiagramModel.OutgoingChannelEdgeId | src/diagram/DiagramModel.js:12-15 | the outgoing edge id is the channel id, `<<`, then the target id |
| DiagramModel.ChannelIdFromEdgeId | src/diagram/DiagramModel.js:17-31 | a `>>` after the first character gives the text after the first `>>` up to the next `>>` or the end; otherwise a `<<` after the first character gives the part before it; otherwise "" |
| DiagramModel.IncomingRoundTrip | src/diagram/DiagramModel.js:7-31 | the channel id is recovered from the incoming edge id |
| DiagramModel.OutgoingRoundTrip | src/diagram/DiagramModel.js:12-31 | the channel id is recovered from the outgoing edge id |
| DiagramModel.LeadingDelimiterDecodesEmpty | src/diagram/DiagramModel.js:19-30 | a delimiter at position 0 is treated as absent, so the edge id decodes to "" |
| DiagramModel.IndexOfChar | src/diagram/DiagDraw.js:89 | `indexOf` of a single character is negative exactly when the character does not occur |
| DiagDraw.ActorWidth | src/diagram/DiagDraw.js:73-77 | an actor node is ten units per caption character plus two margins wide |
| DiagDraw.ChannelEdges | src/diagram/DiagDraw.js:57-61 | each channel contributes two edges |
| DiagDraw.EdgesFor | src/diagram/DiagDraw.js:56-70 | the channel edges come first, two per channel, followed by one edge per data flow in order |
| DiagDraw.GraphEdgesFor | src/diagram/DiagDraw.js:56-70 | channel k's edges run from its source into the channel node and from the channel node to its target; flow j's edge runs from its source to its target with the data-flow type |
| DiagDraw.EdgesForChannel | src/diagram/DiagDraw.js:57-61 | edges 2k and 2k+1 are channel k's incoming and outgoing edges |
| DiagDraw.GraphNodesFor | src/diagram/DiagDraw.js:72-85 | one node per actor, sized from its caption, then one round node per channel, under the channel's id |
| DiagDraw.GraphNodeRepresentsAnActor | src/diagram/DiagDraw.js:87-90 | a node is an actor exactly when its id is non-empty and has no `-` |
| DiagDraw.LayoutGraphFor | src/diagram/DiagDraw.js:22-41 | the graph is named after the model, or is called `graph` when the model is unnamed, and holds exactly the derived nodes and edges |
| DiagDraw.NodeKindsRecognised | src/diagram/DiagDraw.js:73-90 | with plain actor ids and dashed channel ids, the actor test tells actor nodes from channel nodes |
| DiagDraw.EdgesConnectNodes | src/diagram/DiagDraw.js:56-85 | when every flow and channel endpoint is a declared actor, every edge's source and target is a node of the graph |
| LegacyDiagDraw.LegacyChannelId | src/DiagDraw.js:11-14 | the older channel id is the source id, `-`, then the target id |
| LegacyDiagDraw.LegacyLayout | src/DiagDraw.js:23-61 | the older layout is named after the model, or `graph` when it is unnamed, and has one node per actor and channel, each carrying its actor or channel, and one edge per flow after the channel edges |
| LegacyDiagDraw.LegacyChannelEdges | src/DiagDraw.js:39-43 | the older channel edges join the source to the channel and the channel to the target |
| LegacyDiagDraw.LegacyIsActor | src/DiagDraw.js:75 | the older actor test is exactly "no `-` in the id" |
| LegacyDiagDraw.ActorTestsAgree | src/DiagDraw.js:75 | the older and current actor tests differ only on the empty id |
| LegacyDiagDraw.LegacyNodeKindsRecognised | src/DiagDraw.js:26-37 | with dash-free actor ids the older test tells actors from channels |
| LegacyDiagDraw.ArrowHeadDirectionFrom | src/DiagDraw.js:103-120 | a direction other than N lies behind the end of an axis-parallel section; diagonal and zero-length sections default to N |
| LegacyDiagDraw.DirectionsAgree | src/DiagDraw.js:103-120 | on axis-parallel, non-degenerate sections the older direction equals the painter's |
| LegacyDiagDraw.ZeroLengthSectionsDisagree | src/DiagDraw.js:103-120 | on a zero-length section the older code says N where the painter says S |
| LegacyDiagDraw.LegacyArrowHead | src/DiagDraw.js:122-163 | the older arrowhead has its tip at the point and its base centre 15 units behind it |
| LegacyDiagDraw.DataFlowHead | src/DiagDraw.js:90-95 | a flow's head sits at the end of its last section, and there is none without sections |
| Geometry.Back | src/diagram/DiagramPainter.js:302-306 | the backward unit vector of each direction: length one, pointing against the direction, and vertical exactly for north and south |
| Geometry.EndDirection | src/diagram/DiagramPainter.js:288-306 | an axis-parallel segment ends in the direction it travels; diagonal segments have none |
| Geometry.ArrowHead | src/diagram/DiagramPainter.js:105-144 | the tip is at the point, and the two base corners lie `height` behind it and half the width to either side |
| Geometry.ArrowHeadSymmetric | src/diagram/DiagramPainter.js:105-144 | the base corners are mirror images about the arrow's axis |
| DiagramPainter.DetermineEdgeEndDirection | src/diagram/DiagramPainter.js:288-306 | the end direction is taken from the last bend, or from the start when there are no bends |
| DiagramPainter.DataFlowArrowHead | src/diagram/DiagramPainter.js:105-148 | a flow's arrowhead tips at the end of its last section, pointing along the first section's end direction |
| DiagramPainter.AsyncArrowHead | src/diagram/DiagramPainter.js:248-286 | the async arrowhead tips at the section's end, with a base only when there is an end direction |
| DiagramPainter.AsyncIsHalfArrow | src/diagram/DiagramPainter.js:248-286 | the async head is one half of the full arrowhead on the same section |
| DiagramPainter.FindEdgesByTarget | src/diagram/DiagramPainter.js:219-222 | exactly the edges that target the node |
| DiagramPainter.FindEdgesBySource | src/diagram/DiagramPainter.js:229-232 | exactly the edges that leave the node |
| DiagramPainter.ChannelIncomingEdge | src/diagram/DiagramPainter.js:200-205 | succeeds exactly when one edge targets the channel and returns it; otherwise it reports how many there were |
| DiagramPainter.ChannelOutgoingEdge | src/diagram/DiagramPainter.js:207-212 | succeeds exactly when one edge leaves the channel and returns it; otherwise it reports how many there were |
| DiagramPainter.Remember | src/diagram/DiagramPainter.js:308-316 | an empty id or a missing element is an error; otherwise the element is appended under its id and nothing else changes |
| DiagramPainter.RememberAllSucceeds | src/diagram/DiagramPainter.js:308-316 | a run of registrations succeeds exactly when every id is non-empty and every element is present |
| DiagramPainter.RememberAllCollects | src/diagram/DiagramPainter.js:308-316 | after the run, each id holds its earlier elements followed by its new ones in order |
| DiagramPainter.DrawEdge | src/diagram/DiagramPainter.js:80-92 | a flow edge files its line and head under its id; a channel edge files its line under the channel id recovered from its edge id; every other id's list is unchanged; the only failure is the invalid-id error for an empty key |
| DiagramPainter.ChannelLinesFiledUnderChannel | src/diagram/DiagramPainter.js:80-92 | both lines of a channel end up under that channel's id |
| DiagramPainter.DrawEdgeAsWritten | src/diagram/DiagramPainter.js:80-92 | as written, flow edges are filed exactly as by `DrawEdge`, and a channel edge leaves the index unchanged |
| DiagramPainter.ChannelLinesNeverFiled | src/diagram/DiagramPainter.js:88-91 | as written, a channel edge leaves the registry unchanged |
| DiagramPainter.ReqResLabel | src/diagram/DiagramPainter.js:170-192 | the request/response glyph follows the direction from the incoming edge's end to the outgoing edge's start, offset by axis; "R" by default |
| DiagramPainter.ReqResDecoration | src/diagram/DiagramPainter.js:161-198 | fails with the lookup's error when a channel lacks exactly one incoming or outgoing edge; otherwise labels it |
| JsObjects.Put | src/state/State.js:68-71 | assigning a key sets its value; a new key goes to the end of the key order and an existing key keeps its place |
| JsObjects.Field | src/state/State.js:100-104 | reading a key gives its value, or `undefined` when the object does not have it |
| JsObjects.FieldPut | src/state/State.js:100-104 | reading after an assignment sees the assigned value for that key and the old value for every other key |
| State.BaseKeysGood | src/state/State.js:28-50 | every base key has a non-empty short name that maps back to it |
| State.BaseNamesInverse | src/state/State.js:28-50 | the long name of each base key's short name is that key |
| State.AddAnnotations | src/state/State.js:52 | annotation keys map to themselves, other keys keep their short names, and no other key is added |
| State.CompressedKeys | src/state/State.js:28-52 | the compressed table is the base table plus the annotation keys as their own short names |
| State.UncompressedUpTo | src/state/State.js:54-61 | every entry of the reverse map built from the first n keys sends a short name back to a key that has it, every such short name is present, and the build cannot fail unless some key is the empty string |
| State.UncompressedKeys | src/state/State.js:54-61 | every short name of the table is in the reverse map and is sent back to a key that has it; without an empty key the build succeeds |
| State.ReverseOfShortName | src/state/State.js:54-61 | when short names are distinct, the reverse of a key's short name is that key |
| State.EmptyKeyCannotBeReversed | src/state/State.js:52-61 | building the reverse map throws exactly when an annotation key is the empty string |
| State.FreshAnnotationsGood | src/state/State.js:52 | annotation keys that clash with no base key keep the table injective and non-empty |
| State.FreshAnnotationsLoad | src/state/State.js:52-61 | with such annotation keys, both tables are built without error and invert each other |
| State.LoadKeys | src/state/State.js:28-61 | building the tables fails exactly on an empty annotation key; otherwise the reverse inverts the compressed table |
| State.CompressChildField | src/state/State.js:66-74 | a compressed child holds each known key's value under its short name |
| State.DecompressChild | src/state/State.js:99-108 | fails exactly when a short name has no long name; otherwise writes every long name and nothing else |
| State.DecompressChildField | src/state/State.js:101-106 | each long name receives the value stored under its short name |
| State.ChildRoundTrip | src/state/State.js:66-108 | decompressing a compressed child restores the value of every key the table knows |
| State.ChildFieldRoundTrip | src/state/State.js:66-108 | each known key's value survives the child round trip |
| State.CompressSectionKeeps | src/state/State.js:82-89 | a compressed section holds id, start, end and bends under their short names, and nothing else |
| State.SectionRoundTrip | src/state/State.js:82-126 | decompressing a compressed section restores its id, start, end and bends |
| State.SectionOtherDropped | src/state/State.js:119-126 | other section properties do not survive the round trip |
| State.AsObject | src/state/State.js:98 | reading properties of `null` or `undefined` throws; an object is read as itself |
| State.MapArray | src/state/State.js:112 | `.map` on a non-array throws; on an array it maps every item, failing at the first failure |
| State.SectionsRoundTrip | src/state/State.js:82-126 | every section of an edge survives the round trip, in order |
| State.DecodeEdge | src/state/State.js:112-128 | an edge decodes to its four renamed properties and its decoded sections, and fails without a sections array |
| State.EdgeRoundTrip | src/state/State.js:76-128 | decoding a compressed edge restores its id, sources, targets, type and sections |
| State.CompressGraph | src/state/State.js:63-93 | the compressed graph holds the compressed children and edges under their short names |
| State.DecodeChild | src/state/State.js:99-108 | decoding a child fails on `null` or `undefined` and otherwise decompresses it |
| State.DecompressGraph | src/state/State.js:95-132 | the graph decodes exactly when its children and edges are arrays whose items all decode |
| State.ChildrenRoundTrip | src/state/State.js:66-108 | every child survives the round trip, in order |
| State.EdgesRoundTrip | src/state/State.js:76-128 | every edge survives the round trip, in order |
| State.GraphRoundTrip | src/state/State.js:63-132 | decompressing a compressed graph restores its children and its edges |
| State.FreshKeysDistinct | src/state/State.js:28-52 | with fresh annotation keys, the short names used for sections, edges and the graph are distinct |
| State.EncodeState | src/state/State.js:5-17 | the state record holds the code under `c` and the compressed graph under `g` |
| State.DecodeState | src/state/State.js:19-26 | a record without a truthy `g` is rejected; otherwise the graph is decompressed and the code kept |
| State.NewState | src/state/State.js:136-143 | a state needs a graph and a truthy code, and then holds both |
| State.Encode | src/state/State.js:145-153 | the encoded string is the deflated state record |
| State.FromBase64 | src/state/State.js:155-161 | an empty string or a string that does not inflate is rejected; otherwise the decoded graph and code are returned |
| State.DecodeEncode | src/state/State.js:5-26 | decoding an encoded record gives back the graph and the code |
| State.StateRoundTrip | src/state/State.js:145-161 | when inflate inverts deflate, a state with a truthy code survives `encode` followed by `fromBase64` |
| Scenario.NewExecuter | src/ScenarioExecuter.js:9-14 | an executer needs a controller and starts before the first step |
| Scenario.HighlightColor | src/ScenarioExecuter.js:1-2 | requests and responses have their own colours, and other step types have none |
| Scenario.Render | src/ScenarioExecuter.js:35-47 | a step highlights its channel exactly when it is a request or a response, first and in that step type's colour, and shows its message, last, exactly when it has one; nothing else is emitted |
| Scenario.Unrender | src/ScenarioExecuter.js:29-33 | erasing a step un-highlights its channel and removes its message |
| Scenario.MessageText | src/ScenarioExecuter.js:23 | the user sees the step's message, or `--` when it has none |
| Scenario.RunStep | src/ScenarioExecuter.js:18-26 | running a step that does not exist fails with its index; otherwise the user sees its text and then the step is rendered |
| Scenario.NewStepper | src/ScenarioStepper.js:6-14 | a stepper needs a controller, a scenario and a positive index, checked in that order, and starts before the first step |
| Scenario.ErasePrevious | src/ScenarioStepper.js:41-46 | the last step run, if there is one, is erased; otherwise nothing happens |
| Scenario.Run | src/ScenarioStepper.js:35-39 | the previous step is erased first; the target runs and becomes the last step, or the run fails and the cursor stays |
| Scenario.NextTarget | src/ScenarioStepper.js:21-23 | the next step is one past the last, clamped at the final step |
| Scenario.PrevTarget | src/ScenarioStepper.js:29-31 | the previous step is one before the last, clamped at the first step |
| Scenario.NextStep | src/ScenarioStepper.js:19-25 | `nextStep` succeeds exactly when the scenario has steps, erasing the previous step and running the next one; with no steps it fails for step -1 |
| Scenario.PrevStep | src/ScenarioStepper.js:27-33 | `prevStep` before any step fails at index -2; otherwise it erases the previous step and runs the one before |
| Scenario.NextThenPrev | src/ScenarioStepper.js:19-33 | `prevStep` undoes `nextStep` away from the last step |
| Scenario.PrevThenNext | src/ScenarioStepper.js:19-33 | `nextStep` undoes `prevStep` away from the first step |
| Scenario.ForwardFromStart | src/ScenarioStepper.js:19-25 | n calls of `nextStep` from the start reach step min(n, steps) - 1 |
| Scenario.ForwardWithin | src/ScenarioStepper.js:19-25 | each `nextStep` advances the cursor by one until the final step |
| Scenario.ForwardClamped | src/ScenarioStepper.js:19-25 | repeated `nextStep` stays on the final step once it is reached |
| Scenario.ForwardEmpty | src/ScenarioStepper.js:19-25 | on a scenario without steps `nextStep` never moves the cursor |

## Left out

- Letters are ASCII only. The grammar's `letter` and `alnum` in src/lang/scenaria.ohm.js:54-60 are Unicode classes.
- `UserDef`, `SyncCall`, `AsynchCall` and `Scenario` (src/lang/scenaria.ohm.js:31-52) have no semantic actions in src/lang/Lang.js. The source matches them and then throws for the missing action. The model rejects them as a syntax error, so both fail.
- Lang.Parse: for a program holding one of those four statements, the model returns the syntax error with the symbol tables unchanged. The source evaluates the statements before it first (src/lang/Lang.js:68-73). So by the time it throws, the earlier declarations have already been added to the tables. If an earlier flow names an undeclared actor or store, the source throws that flow's error instead of the missing-action error.
- The Ohm engine, its match-result objects and its error messages are not modelled; the recogniser returns `None` where a match fails.
- Prototype keys and the numeric-key ordering of JavaScript objects are not modelled; keys keep insertion order.
- zlib, base64 and JSON text are the parameters `deflate` and `inflate`. That includes `JSON.stringify` dropping `undefined` values.
- `console.log` output in src/state/State.js is not modelled.
- The annotation keys of src/SystemModel.js are a parameter of `State.LoadKeys`.
- ELK layout and SVG drawing are not modelled. Laid-out edges and sections are inputs, and drawn elements are an opaque type.
- src/ScenarioRunner.js, src/AppMain.js, src/DiagramController.js, src/diagram/DiagramController.js, src/diagram/SVGEventHandler.js and src/Editor.js are not part of this model.
- Caption widths count Unicode scalar values, where JavaScript's `length` counts UTF-16 code units. A character outside the Basic Multilingual Plane counts 1 here and 2 in the source. Neither counts rendered glyphs.
- Edges without sections are not modelled; the painter's helpers take the first and last section as given.
- An arrowhead whose direction is unknown is modelled as a head with no base. The source computes coordinates from `undefined`.
- State.AsObject: primitives and arrays are read as objects with no own properties.
- NaN is not a number value here, so its truthiness is not modelled.
- Own properties that hold `undefined` are the same as absent ones.
- State.DecompressGraph: graph-level properties other than `children` and `edges` are not carried through, which matches what the source rebuilds.
- A scenario index that is not a number is not modelled; the index is an integer.
- The diagram controller is a flag, and its calls are returned as a trace of events.
- Scenario.MessageText: an absent step message and the empty message are the same.
- State.CompressChild has no contract of its own. What it stores is stated by `State.CompressChildField` and `State.ChildRoundTrip`.
- The exports that src/SystemModel.js does not define (`DATA_FLOW_TYPE`, `ANNOTATION_KEY`, `channelID`, `flowID`, `CHANNEL_TYPE.ASYNC`) are parameters or enumerations in the model.
- The test files target a newer API than the source and are not mirrored.

## Findings

| source | as written | input that shows it | evidently intended | confidence | as-written member | corrected member |
|---|---|---|---|---|---|---|
| src/diagram/DiagramPainter.js:88-91 | `drawEdge` compares the edge type with `EDGE_TYPE.CHANNEL`, but src/SystemModel.js:2-4 defines only `DATA_FLOW`, so the comparison is with `undefined` and channel lines are never filed | a channel edge built at src/diagram/DiagDraw.js:59-60, whose type is `"channel"` | file the channel edge's line under the channel id recovered from the edge id | not executed | DiagramPainter.DrawEdgeAsWritten, DiagramPainter.ChannelLinesNeverFiled | DiagramPainter.DrawEdge, DiagramPainter.ChannelLinesFiledUnderChannel |

=== FILE: canonical_model.dfy ===
/**
 * `toCanonicalModel`: the conversion of an IR program into the system
 * model.  Actor declarations come first, then store declarations; write
 * flows come first, then read flows; within each group source order is
 * kept.
 */
module CanonicalModel {
  import opened Results
  import opened SystemModel
  import opened Seqs
  import IR

  datatype CanonicalError = InvalidProgram

  /** The model entries of the actor declarations, in source order. */
  function AgentEntries(stmts: seq<IR.Statement>): (r: seq<Actor>)
    ensures forall i :: 0 <= i < |r| ==> r[i].kind == Agent
    ensures forall a :: a in r <==> IR.ActorStatement(a.id, a.caption) in stmts && a.kind == Agent
    decreases |stmts|
  {
    if stmts == [] then []
    else
      var rest := AgentEntries(stmts[1..]);
      match stmts[0]
      case ActorStatement(id, caption) => [Actor(Agent, id, caption)] + rest
      case _ => rest
  }

  /** The model entries of the store declarations, in source order. */
  function StoreEntries(stmts: seq<IR.Statement>): (r: seq<Actor>)
    ensures forall i :: 0 <= i < |r| ==> r[i].kind == Store
    ensures forall a :: a in r <==> IR.StoreStatement(a.id, a.caption) in stmts && a.kind == Store
    decreases |stmts|
  {
    if stmts == [] then []
    else
      var rest := StoreEntries(stmts[1..]);
      match stmts[0]
      case StoreStatement(id, caption) => [Actor(Store, id, caption)] + rest
      case _ => rest
  }

  /** The write flows, from the agent's id to the store's id, in source order. */
  function WriteEntries(stmts: seq<IR.Statement>): (r: seq<DataFlow>)
    ensures forall i :: 0 <= i < |r| ==> r[i].kind == Write
    ensures forall f :: f in r ==>
      (exists i :: 0 <= i < |stmts| && stmts[i].Write? && f == DataFlow(Write, stmts[i].agent.id, stmts[i].store.id))
    decreases |stmts|
  {
    if stmts == [] then []
    else
      var rest := WriteEntries(stmts[1..]);
      match stmts[0]
      case Write(agent, store) => [DataFlow(Write, agent.id, store.id)] + rest
      case _ => rest
  }

  /** The read flows, from the store's id to the agent's id, in source order. */
  function ReadEntries(stmts: seq<IR.Statement>): (r: seq<DataFlow>)
    ensures forall i :: 0 <= i < |r| ==> r[i].kind == Read
    ensures forall f :: f in r ==>
      (exists i :: 0 <= i < |stmts| && stmts[i].Read? && f == DataFlow(Read, stmts[i].store.id, stmts[i].agent.id))
    decreases |stmts|
  {
    if stmts == [] then []
    else
      var rest := ReadEntries(stmts[1..]);
      match stmts[0]
      case Read(agent, store) => [DataFlow(Read, store.id, agent.id)] + rest
      case _ => rest
  }

  /** `toCanonicalModel`: a missing program throws; otherwise the four groups are laid out in order. */
  function ToCanonicalModel(program: Option<IR.Block>): (r: Result<Model, CanonicalError>)
    ensures program.None? <==> r.Err?
    ensures r.Ok? ==> r.value.name == "" && r.value.channels == [] && r.value.scenarios == []
    ensures r.Ok? ==> var stmts := IR.Statements(program.value);
      && r.value.actors == AgentEntries(stmts) + StoreEntries(stmts)
      && r.value.dataFlows == WriteEntries(stmts) + ReadEntries(stmts)
    ensures r.Ok? ==> forall i :: 0 <= i < |r.value.actors| ==>
      (r.value.actors[i].kind == Agent <==> i < |AgentEntries(IR.Statements(program.value))|)
    ensures r.Ok? ==> forall i :: 0 <= i < |r.value.dataFlows| ==>
      (r.value.dataFlows[i].kind == Write <==> i < |WriteEntries(IR.Statements(program.value))|)
  {
    match program
    case None => Err(InvalidProgram)
    case Some(p) =>
      var stmts := IR.Statements(p);
      var agents := AgentEntries(stmts);
      var stores := StoreEntries(stmts);
      var writes := WriteEntries(stmts);
      var readFlows := ReadEntries(stmts);
      var m := Model("", agents + stores, [], writes + readFlows, []);
      assert forall i :: |agents| <= i < |m.actors| ==> m.actors[i] == stores[i - |agents|];
      assert forall i :: |writes| <= i < |m.dataFlows| ==> m.dataFlows[i] == readFlows[i - |writes|];
      Ok(m)
  }

  // ----- properties

  /** Each statement's actor entries in source order, agents and stores interleaved as written. */
  function InOrderActors(stmts: seq<IR.Statement>): seq<Actor>
    decreases |stmts|
  {
    if stmts == [] then []
    else
      var rest := InOrderActors(stmts[1..]);
      match stmts[0]
      case ActorStatement(id, caption) => [Actor(Agent, id, caption)] + rest
      case StoreStatement(id, caption) => [Actor(Store, id, caption)] + rest
      case _ => rest
  }

  predicate IsAgentEntry(a: Actor) { a.kind == Agent }

  predicate IsStoreEntry(a: Actor) { a.kind == Store }

  /**
   * The canonical actors are the in-order entries stably partitioned:
   * the agents in source order, then the stores in source order, and
   * nothing lost or added.
   */
  lemma {:induction false} ActorsStablyPartitioned(stmts: seq<IR.Statement>)
    ensures AgentEntries(stmts) == Filter(IsAgentEntry, InOrderActors(stmts))
    ensures StoreEntries(stmts) == Filter(IsStoreEntry, InOrderActors(stmts))
    ensures multiset(AgentEntries(stmts) + StoreEntries(stmts)) == multiset(InOrderActors(stmts))
    decreases |stmts|
  {
    if stmts != [] {
      ActorsStablyPartitioned(stmts[1..]);
    }
  }

  /** Concatenating statement lists concatenates every group. */
  lemma EntriesConcat(a: seq<IR.Statement>, b: seq<IR.Statement>)
    ensures AgentEntries(a + b) == AgentEntries(a) + AgentEntries(b)
    ensures StoreEntries(a + b) == StoreEntries(a) + StoreEntries(b)
    ensures WriteEntries(a + b) == WriteEntries(a) + WriteEntries(b)
    ensures ReadEntries(a + b) == ReadEntries(a) + ReadEntries(b)
  {
    AgentsConcat(a, b);
    StoresConcat(a, b);
    WritesConcat(a, b);
    ReadsConcat(a, b);
  }

  lemma {:induction false} AgentsConcat(a: seq<IR.Statement>, b: seq<IR.Statement>)
    ensures AgentEntries(a + b) == AgentEntries(a) + AgentEntries(b)
    decreases |a|
  {
    if a == [] {
      assert a + b == b;
    } else {
      assert (a + b)[0] == a[0] && (a + b)[1..] == a[1..] + b;
      AgentsConcat(a[1..], b);
    }
  }

  lemma {:induction false} StoresConcat(a: seq<IR.Statement>, b: seq<IR.Statement>)
    ensures StoreEntries(a + b) == StoreEntries(a) + StoreEntries(b)
    decreases |a|
  {
    if a == [] {
      assert a + b == b;
    } else {
      assert (a + b)[0] == a[0] && (a + b)[1..] == a[1..] + b;
      StoresConcat(a[1..], b);
    }
  }

  lemma {:induction false} WritesConcat(a: seq<IR.Statement>, b: seq<IR.Statement>)
    ensures WriteEntries(a + b) == WriteEntries(a) + WriteEntries(b)
    decreases |a|
  {
    if a == [] {
      assert a + b == b;
    } else {
      assert (a + b)[0] == a[0] && (a + b)[1..] == a[1..] + b;
      WritesConcat(a[1..], b);
    }
  }

  lemma {:induction false} ReadsConcat(a: seq<IR.Statement>, b: seq<IR.Statement>)
    ensures ReadEntries(a + b) == ReadEntries(a) + ReadEntries(b)
    decreases |a|
  {
    if a == [] {
      assert a + b == b;
    } else {
      assert (a + b)[0] == a[0] && (a + b)[1..] == a[1..] + b;
      ReadsConcat(a[1..], b);
    }
  }

  /** Where a store declaration stands relative to an actor declaration does not matter. */
  lemma InterleavingIrrelevant(before: seq<IR.Statement>, actor: IR.Statement, store: IR.Statement, after: seq<IR.Statement>)
    requires actor.ActorStatement? && store.StoreStatement?
    ensures ToCanonicalModel(Some(IR.Block(before + [store, actor] + after)))
         == ToCanonicalModel(Some(IR.Block(before + [actor, store] + after)))
  {
    var x := before + [store, actor] + after;
    var y := before + [actor, store] + after;
    IR.StatementsConcat(before + [store, actor], after);
    IR.StatementsConcat(before, [store, actor]);
    IR.StatementsConcat(before + [actor, store], after);
    IR.StatementsConcat(before, [actor, store]);
    var sb := IR.Statements(IR.Block(before));
    var sa := IR.Statements(IR.Block(after));
    PairStatements(actor, store);
    EntriesConcat(sb + [store, actor], sa);
    EntriesConcat(sb, [store, actor]);
    EntriesConcat(sb + [actor, store], sa);
    EntriesConcat(sb, [actor, store]);
    PairEntries(actor, store);
  }

  lemma PairStatements(actor: IR.Statement, store: IR.Statement)
    requires actor.ActorStatement? && store.StoreStatement?
    ensures IR.Statements(IR.Block([store, actor])) == [store, actor]
    ensures IR.Statements(IR.Block([actor, store])) == [actor, store]
  {
    IR.StatementsWithoutComments(IR.Block([store, actor]));
    IR.StatementsWithoutComments(IR.Block([actor, store]));
  }

  lemma PairEntries(actor: IR.Statement, store: IR.Statement)
    requires actor.ActorStatement? && store.StoreStatement?
    ensures AgentEntries([store, actor]) == AgentEntries([actor, store]) == [Actor(Agent, actor.id, actor.caption)]
    ensures StoreEntries([store, actor]) == StoreEntries([actor, store]) == [Actor(Store, store.id, store.caption)]
    ensures WriteEntries([store, actor]) == WriteEntries([actor, store]) == []
    ensures ReadEntries([store, actor]) == ReadEntries([actor, store]) == []
  {
    assert [store, actor] == [store] + [actor] && [actor, store] == [actor] + [store];
    EntriesConcat([store], [actor]);
    EntriesConcat([actor], [store]);
    SingleEntries(store);
    SingleEntries(actor);
  }

  /** The entries a single statement contributes. */
  lemma SingleEntries(st: IR.Statement)
    ensures AgentEntries([st]) == if st.ActorStatement? then [Actor(Agent, st.id, st.caption)] else []
    ensures StoreEntries([st]) == if st.StoreStatement? then [Actor(Store, st.id, st.caption)] else []
    ensures WriteEntries([st]) == if st.Write? then [DataFlow(Write, st.agent.id, st.store.id)] else []
    ensures ReadEntries([st]) == if st.Read? then [DataFlow(Read, st.store.id, st.agent.id)] else []
  {
    assert [st][1..] == [];
  }

  /** Statements of any other kind, and comments, contribute nothing to the model. */
  lemma OtherStatementsIgnored(stmts: seq<IR.Statement>, other: IR.Statement)
    requires other.Other? || other.CommentStatement?
    ensures ToCanonicalModel(Some(IR.Block(stmts + [other]))) == ToCanonicalModel(Some(IR.Block(stmts)))
  {
    IR.StatementsConcat(stmts, [other]);
    var s := IR.Statements(IR.Block(stmts));
    var o := IR.Statements(IR.Block([other]));
    FilterSingleton(IR.IsNotComment, other);
    assert o == [] || o == [other];
    EntriesConcat(s, o);
    SingleEntries(other);
    assert AgentEntries(o) == [] && StoreEntries(o) == [] && WriteEntries(o) == [] && ReadEntries(o) == [];
    assert AgentEntries(s + o) == AgentEntries(s);
    assert StoreEntries(s + o) == StoreEntries(s);
    assert WriteEntries(s + o) == WriteEntries(s);
    assert ReadEntries(s + o) == ReadEntries(s);
  }
}

=== FILE: diag_draw.dfy ===
/**
 * The layout graph handed to the layout engine: one node per actor and per
 * channel, two edges per channel (into and out of the channel node) and one
 * edge per data flow.  The engine itself is not modelled; this is the graph
 * record built before it is called.
 */
module DiagDraw {
  import opened SystemModel
  import opened DiagramModel

  const MarginHeight := 10
  const TextHeight := 30
  const CharWidth := 10
  const MarginWidth := 20
  const ChannelRadius := 20

  /** The height of every actor node. */
  const ActorHeight := MarginHeight * 2 + TextHeight

  /** The width of an actor node: room for the caption plus a margin on both sides. */
  function ActorWidth(caption: string): (w: int)
    ensures w == 10 * |caption| + 40
  {
    CharWidth * |caption| + 2 * MarginWidth
  }

  /** What a node was copied from: the actor entry, or the channel entry. */
  datatype NodeOrigin = FromActor(actor: Actor) | FromChannel(channel: Channel)

  /** A layout node: the copied entry's fields with an id and a size. */
  datatype GraphNode = GraphNode(id: string, width: int, height: int, origin: NodeOrigin)

  /** The type of a layout edge: `"channel"`, or the data-flow edge type. */
  datatype EdgeKind = ChannelEdge | DataFlowEdge

  datatype GraphEdge = GraphEdge(id: string, sources: seq<string>, targets: seq<string>, kind: EdgeKind)

  /** The graph record given to the layout engine. */
  datatype LayoutGraph = LayoutGraph(id: string, children: seq<GraphNode>, edges: seq<GraphEdge>)

  /**
   * How a layout routine names its edges.  Both layout routines build the
   * same list of edges and differ only in these names.
   */
  datatype EdgeNaming = EdgeNaming(
    ids: IdScheme,
    incoming: Channel -> string,
    outgoing: Channel -> string,
    flow: DataFlow -> string)

  /** The naming of the diagram package: delimited channel edge ids and `flowID`. */
  function CurrentNaming(ids: IdScheme): EdgeNaming {
    EdgeNaming(
      ids,
      (c: Channel) => IncomingChannelEdgeId(ids, c),
      (c: Channel) => OutgoingChannelEdgeId(ids, c),
      (f: DataFlow) => ids.flowId(f.kind, f.from, f.to))
  }

  /** The edge from a channel's source actor into the channel node. */
  function IncomingEdge(n: EdgeNaming, c: Channel): GraphEdge {
    GraphEdge(n.incoming(c), [c.from], [n.ids.channelId(c)], ChannelEdge)
  }

  /** The edge from the channel node to the channel's target actor. */
  function OutgoingEdge(n: EdgeNaming, c: Channel): GraphEdge {
    GraphEdge(n.outgoing(c), [n.ids.channelId(c)], [c.to], ChannelEdge)
  }

  /** The edge that draws one data flow. */
  function FlowEdge(n: EdgeNaming, f: DataFlow): GraphEdge {
    GraphEdge(n.flow(f), [f.from], [f.to], DataFlowEdge)
  }

  /** The `flatMap` over the channels: each channel's incoming edge, then its outgoing edge. */
  function ChannelEdges(n: EdgeNaming, chs: seq<Channel>): (r: seq<GraphEdge>)
    ensures |r| == 2 * |chs|
    decreases |chs|
  {
    if chs == [] then []
    else [IncomingEdge(n, chs[0]), OutgoingEdge(n, chs[0])] + ChannelEdges(n, chs[1..])
  }

  /** The edge at position `e` of the channel edges: even positions go into a channel node, odd ones leave it. */
  function ChannelEdgeAt(n: EdgeNaming, chs: seq<Channel>, e: nat): GraphEdge
    requires e < 2 * |chs|
  {
    if e % 2 == 0 then IncomingEdge(n, chs[e / 2]) else OutgoingEdge(n, chs[e / 2])
  }

  /** Position `e` of the channel edges holds the edge `ChannelEdgeAt` names. */
  lemma {:induction false} ChannelEdgesAt(n: EdgeNaming, chs: seq<Channel>, e: nat)
    requires e < 2 * |chs|
    ensures ChannelEdges(n, chs)[e] == ChannelEdgeAt(n, chs, e)
    decreases e
  {
    if e >= 2 {
      ChannelEdgesAt(n, chs[1..], e - 2);
      assert (e - 2) % 2 == e % 2 && (e - 2) / 2 == e / 2 - 1;
    }
  }

  lemma ChannelEdgesEverywhere(n: EdgeNaming, chs: seq<Channel>)
    ensures forall e :: 0 <= e < 2 * |chs| ==> ChannelEdges(n, chs)[e] == ChannelEdgeAt(n, chs, e)
  {
    forall e | 0 <= e < 2 * |chs|
      ensures ChannelEdges(n, chs)[e] == ChannelEdgeAt(n, chs, e)
    {
      ChannelEdgesAt(n, chs, e);
    }
  }

  /** The edge list of a layout: the channel edges in channel order, then one edge per data flow. */
  function EdgesFor(n: EdgeNaming, m: Model): (r: seq<GraphEdge>)
    ensures |r| == 2 * |m.channels| + |m.dataFlows|
    ensures forall e :: 0 <= e < 2 * |m.channels| ==> r[e] == ChannelEdgeAt(n, m.channels, e)
    ensures forall e :: 2 * |m.channels| <= e < |r| ==> r[e] == FlowEdge(n, m.dataFlows[e - 2 * |m.channels|])
  {
    ChannelEdgesEverywhere(n, m.channels);
    ChannelEdges(n, m.channels) + seq(|m.dataFlows|, j requires 0 <= j < |m.dataFlows| => FlowEdge(n, m.dataFlows[j]))
  }

  /**
   * `graphEdgesFor`: for the `k`-th channel, edge `2k` runs from the source
   * actor into the channel node under the incoming edge id and edge `2k + 1`
   * from the channel node to the target actor under the outgoing edge id;
   * then the data flows follow, each under its `flowID`.
   */
  function GraphEdgesFor(ids: IdScheme, m: Model): (r: seq<GraphEdge>)
    ensures |r| == 2 * |m.channels| + |m.dataFlows|
    ensures forall k :: 0 <= k < |m.channels| ==>
      var c := m.channels[k];
      r[2 * k] == GraphEdge(IncomingChannelEdgeId(ids, c), [c.from], [ids.channelId(c)], ChannelEdge)
    ensures forall k :: 0 <= k < |m.channels| ==>
      var c := m.channels[k];
      r[2 * k + 1] == GraphEdge(OutgoingChannelEdgeId(ids, c), [ids.channelId(c)], [c.to], ChannelEdge)
    ensures forall j :: 0 <= j < |m.dataFlows| ==>
      var f := m.dataFlows[j];
      r[2 * |m.channels| + j] == GraphEdge(ids.flowId(f.kind, f.from, f.to), [f.from], [f.to], DataFlowEdge)
  {
    CurrentEdgesNamed(ids, m);
    EdgesFor(CurrentNaming(ids), m)
  }

  lemma CurrentEdgesNamed(ids: IdScheme, m: Model)
    ensures var r := EdgesFor(CurrentNaming(ids), m);
      forall k :: 0 <= k < |m.channels| ==>
        var c := m.channels[k];
        && r[2 * k] == GraphEdge(IncomingChannelEdgeId(ids, c), [c.from], [ids.channelId(c)], ChannelEdge)
        && r[2 * k + 1] == GraphEdge(OutgoingChannelEdgeId(ids, c), [ids.channelId(c)], [c.to], ChannelEdge)
    ensures var r := EdgesFor(CurrentNaming(ids), m);
      forall j :: 0 <= j < |m.dataFlows| ==>
        var f := m.dataFlows[j];
        r[2 * |m.channels| + j] == GraphEdge(ids.flowId(f.kind, f.from, f.to), [f.from], [f.to], DataFlowEdge)
  {
    forall k | 0 <= k < |m.channels| {
      CurrentChannelEdges(ids, m, k);
    }
  }

  lemma CurrentChannelEdges(ids: IdScheme, m: Model, k: nat)
    requires k < |m.channels|
    ensures var r := EdgesFor(CurrentNaming(ids), m);
      var c := m.channels[k];
      && r[2 * k] == GraphEdge(IncomingChannelEdgeId(ids, c), [c.from], [ids.channelId(c)], ChannelEdge)
      && r[2 * k + 1] == GraphEdge(OutgoingChannelEdgeId(ids, c), [ids.channelId(c)], [c.to], ChannelEdge)
  {
    EdgesForChannel(CurrentNaming(ids), m, k);
  }

  /** The `k`-th channel's edges sit at positions `2k` and `2k + 1` of the edge list. */
  lemma EdgesForChannel(n: EdgeNaming, m: Model, k: nat)
    requires k < |m.channels|
    ensures EdgesFor(n, m)[2 * k] == IncomingEdge(n, m.channels[k])
    ensures EdgesFor(n, m)[2 * k + 1] == OutgoingEdge(n, m.channels[k])
  {
    assert EdgesFor(n, m)[2 * k] == ChannelEdgeAt(n, m.channels, 2 * k);
    assert EdgesFor(n, m)[2 * k + 1] == ChannelEdgeAt(n, m.channels, 2 * k + 1);
  }

  /** The node of one actor. */
  function ActorNode(a: Actor): GraphNode {
    GraphNode(a.id, ActorWidth(a.caption), ActorHeight, FromActor(a))
  }

  /** The node of one channel, named by its channel id. */
  function ChannelNode(ids: IdScheme, c: Channel): GraphNode {
    GraphNode(ids.channelId(c), ChannelRadius, ChannelRadius, FromChannel(c))
  }

  /** `graphNodesFor`: the actor nodes in actor order, then the channel nodes in channel order. */
  function GraphNodesFor(ids: IdScheme, m: Model): (r: seq<GraphNode>)
    ensures |r| == |m.actors| + |m.channels|
    ensures forall i :: 0 <= i < |m.actors| ==>
      r[i].id == m.actors[i].id && r[i].height == 50 && r[i].width == 10 * |m.actors[i].caption| + 40
      && r[i].origin == FromActor(m.actors[i])
    ensures forall k :: 0 <= k < |m.channels| ==>
      var n := r[|m.actors| + k];
      n.id == ids.channelId(m.channels[k]) && n.width == 20 && n.height == 20
      && n.origin == FromChannel(m.channels[k])
  {
    seq(|m.actors|, i requires 0 <= i < |m.actors| => ActorNode(m.actors[i]))
    + seq(|m.channels|, k requires 0 <= k < |m.channels| => ChannelNode(ids, m.channels[k]))
  }

  /** `graphNodeRepresentsAnActor`: a non-empty id without a dash names an actor. */
  function GraphNodeRepresentsAnActor(id: string): (r: bool)
    ensures r <==> id != "" && '-' !in id
  {
    IndexOfChar(id, '-');
    id != "" && IndexOf(id, "-") < 0
  }

  /** The graph record of `layoutModel`: named after the model, or `"graph"` for an unnamed one. */
  function LayoutGraphFor(ids: IdScheme, m: Model): (g: LayoutGraph)
    ensures g.id != ""
    ensures m.name != "" ==> g.id == m.name
    ensures m.name == "" ==> g.id == "graph"
    ensures g.children == GraphNodesFor(ids, m) && g.edges == GraphEdgesFor(ids, m)
  {
    LayoutGraph(if m.name != "" then m.name else "graph", GraphNodesFor(ids, m), GraphEdgesFor(ids, m))
  }

  // ----- properties

  /** Every actor id is usable as a node name: non-empty and without a dash. */
  predicate ActorIdsPlain(m: Model) {
    forall i :: 0 <= i < |m.actors| ==> GraphNodeRepresentsAnActor(m.actors[i].id)
  }

  /** Every channel id contains a dash. */
  predicate ChannelIdsDashed(ids: IdScheme, m: Model) {
    forall k :: 0 <= k < |m.channels| ==> '-' in ids.channelId(m.channels[k])
  }

  /**
   * When actor ids carry no dash and channel ids do, the drawing step tells
   * the two kinds of node apart correctly: a node is drawn as an actor
   * exactly when it was made from an actor.
   */
  lemma NodeKindsRecognised(ids: IdScheme, m: Model)
    requires ActorIdsPlain(m) && ChannelIdsDashed(ids, m)
    ensures var nodes := GraphNodesFor(ids, m);
      forall i :: 0 <= i < |nodes| ==> (GraphNodeRepresentsAnActor(nodes[i].id) <==> nodes[i].origin.FromActor?)
  {
    var nodes := GraphNodesFor(ids, m);
    forall i | |m.actors| <= i < |nodes|
      ensures !GraphNodeRepresentsAnActor(nodes[i].id)
    {
      var c := m.channels[i - |m.actors|];
      assert nodes[i].id == ids.channelId(c);
      assert '-' in ids.channelId(c);
    }
  }

  /** Every channel and data-flow endpoint is the id of an actor of the model. */
  predicate EndpointsDeclared(m: Model) {
    && (forall k :: 0 <= k < |m.channels| ==> HasActor(m, m.channels[k].from) && HasActor(m, m.channels[k].to))
    && (forall j :: 0 <= j < |m.dataFlows| ==> HasActor(m, m.dataFlows[j].from) && HasActor(m, m.dataFlows[j].to))
  }

  predicate HasActor(m: Model, id: string) {
    exists i :: 0 <= i < |m.actors| && m.actors[i].id == id
  }

  /** Some node of the list carries this id. */
  predicate HasNode(nodes: seq<GraphNode>, id: string) {
    exists i :: 0 <= i < |nodes| && nodes[i].id == id
  }

  /** Every source and every target of the edge names a node. */
  predicate Connects(nodes: seq<GraphNode>, e: GraphEdge) {
    && (forall s :: s in e.sources ==> HasNode(nodes, s))
    && (forall t :: t in e.targets ==> HasNode(nodes, t))
  }

  /**
   * In a model whose channels and data flows connect declared actors, every
   * source and every target of every layout edge is the id of a layout node,
   * whatever names the edges are given.
   */
  lemma EdgesConnectNodes(n: EdgeNaming, m: Model)
    requires EndpointsDeclared(m)
    ensures var nodes := GraphNodesFor(n.ids, m);
      var edges := EdgesFor(n, m);
      forall e :: 0 <= e < |edges| ==> Connects(nodes, edges[e])
  {
    var edges := EdgesFor(n, m);
    forall e | 0 <= e < |edges|
      ensures Connects(GraphNodesFor(n.ids, m), edges[e])
    {
      EdgeConnects(n, m, e);
    }
  }

  lemma EdgeConnects(n: EdgeNaming, m: Model, e: nat)
    requires EndpointsDeclared(m) && e < |EdgesFor(n, m)|
    ensures Connects(GraphNodesFor(n.ids, m), EdgesFor(n, m)[e])
  {
    if e < 2 * |m.channels| {
      ChannelEdgesConnect(n, m, e / 2);
    } else {
      FlowEdgeConnects(n, m, e - 2 * |m.channels|);
    }
  }

  lemma ChannelEdgesConnect(n: EdgeNaming, m: Model, k: nat)
    requires EndpointsDeclared(m) && k < |m.channels|
    ensures Connects(GraphNodesFor(n.ids, m), IncomingEdge(n, m.channels[k]))
    ensures Connects(GraphNodesFor(n.ids, m), OutgoingEdge(n, m.channels[k]))
  {
    var c := m.channels[k];
    ActorIsNode(n.ids, m, c.from);
    ActorIsNode(n.ids, m, c.to);
    ChannelIsNode(n.ids, m, k);
  }

  lemma FlowEdgeConnects(n: EdgeNaming, m: Model, j: nat)
    requires EndpointsDeclared(m) && j < |m.dataFlows|
    ensures Connects(GraphNodesFor(n.ids, m), FlowEdge(n, m.dataFlows[j]))
  {
    var f := m.dataFlows[j];
    ActorIsNode(n.ids, m, f.from);
    ActorIsNode(n.ids, m, f.to);
  }

  lemma ActorIsNode(ids: IdScheme, m: Model, id: string)
    requires HasActor(m, id)
    ensures HasNode(GraphNodesFor(ids, m), id)
  {
    var i :| 0 <= i < |m.actors| && m.actors[i].id == id;
    assert GraphNodesFor(ids, m)[i].id == id;
  }

  lemma ChannelIsNode(ids: IdScheme, m: Model, k: nat)
    requires k < |m.channels|
    ensures HasNode(GraphNodesFor(ids, m), ids.channelId(m.channels[k]))
  {
    assert GraphNodesFor(ids, m)[|m.actors| + k].id == ids.channelId(m.channels[k]);
  }
}

=== FILE: diagram_model.dfy ===
/**
 * The ids of the two layout edges that connect a channel to its endpoints,
 * and the recovery of the channel id from such an edge id.  The string
 * searches follow JavaScript's `String.prototype.indexOf` and `split`.
 */
module DiagramModel {
  import opened SystemModel

  const IncomingDelim := ">>"
  const OutgoingDelim := "<<"

  // ----- JavaScript string searching

  /** `pat` occurs in `s` starting at position `j`. */
  predicate OccursAt(s: string, pat: string, j: int) {
    0 <= j && j + |pat| <= |s| && s[j..j + |pat|] == pat
  }

  /** The first occurrence of `pat` at or after `k`, or -1. */
  function IndexOfFrom(s: string, pat: string, k: nat): (r: int)
    requires k <= |s|
    ensures r == -1 || (k <= r && OccursAt(s, pat, r))
    ensures forall j :: k <= j < (if r == -1 then |s| + 1 else r) ==> !OccursAt(s, pat, j)
    decreases |s| - k
  {
    if OccursAt(s, pat, k) then k
    else if k == |s| then -1
    else IndexOfFrom(s, pat, k + 1)
  }

  /** `s.indexOf(pat)`: the position of the first occurrence, -1 when there is none. */
  function IndexOf(s: string, pat: string): (r: int)
    ensures r == -1 <==> forall j :: !OccursAt(s, pat, j)
    ensures r != -1 ==> OccursAt(s, pat, r) && forall j :: 0 <= j < r ==> !OccursAt(s, pat, j)
  {
    IndexOfFrom(s, pat, 0)
  }

  /** Joining pieces with a separator, the inverse of `Split`. */
  function Join(pieces: seq<string>, sep: string): string
    decreases |pieces|
  {
    if pieces == [] then ""
    else if |pieces| == 1 then pieces[0]
    else pieces[0] + sep + Join(pieces[1..], sep)
  }

  /** `s.split(sep)` for a non-empty separator: the pieces between occurrences, left to right. */
  function Split(s: string, sep: string): (r: seq<string>)
    requires sep != ""
    ensures |r| >= 1 && r[0] <= s && IndexOf(r[0], sep) == -1
    ensures |r| == 1 <==> IndexOf(s, sep) == -1
    ensures IndexOf(s, sep) == -1 ==> r == [s]
    ensures IndexOf(s, sep) != -1 ==> r[0] == s[..IndexOf(s, sep)]
    decreases |s|
  {
    var i := IndexOf(s, sep);
    if i == -1 then [s]
    else
      PrefixBeforeFirst(s, sep, i);
      [s[..i]] + Split(s[i + |sep|..], sep)
  }

  /** After the first piece, the split continues on the text after the first separator. */
  lemma SplitRest(s: string, sep: string)
    requires sep != "" && IndexOf(s, sep) != -1
    ensures Split(s, sep)[1..] == Split(s[IndexOf(s, sep) + |sep|..], sep)
  {
  }

  /** Joining the pieces of a split with the separator gives back the original text. */
  lemma {:induction false} SplitJoin(s: string, sep: string)
    requires sep != ""
    ensures Join(Split(s, sep), sep) == s
    decreases |s|
  {
    var i := IndexOf(s, sep);
    if i != -1 {
      SplitJoin(s[i + |sep|..], sep);
      SplitJoinStep(s, sep, i);
    }
  }

  /** One step of `SplitJoin`: if the text after the first separator round-trips, so does the whole. */
  lemma SplitJoinStep(s: string, sep: string, i: int)
    requires sep != "" && i == IndexOf(s, sep) && i != -1
    requires Join(Split(s[i + |sep|..], sep), sep) == s[i + |sep|..]
    ensures Join(Split(s, sep), sep) == s
  {
    SplitRest(s, sep);
    JoinAroundFirst(s, sep, i, Split(s, sep), Split(s[i + |sep|..], sep));
  }

  /** Putting the first piece, the separator and the joined rest back together. */
  lemma JoinAroundFirst(s: string, sep: string, i: nat, pieces: seq<string>, more: seq<string>)
    requires i + |sep| <= |s| && s[i..i + |sep|] == sep
    requires |pieces| >= 2 && pieces[0] == s[..i] && pieces[1..] == more
    requires Join(more, sep) == s[i + |sep|..]
    ensures Join(pieces, sep) == s
  {
    JoinOfPieces(pieces, s[..i], more, sep);
    SliceAround(s, i, |sep|);
  }

  lemma JoinOfPieces(pieces: seq<string>, x: string, ys: seq<string>, sep: string)
    requires |pieces| >= 2 && pieces[0] == x && pieces[1..] == ys
    ensures Join(pieces, sep) == x + sep + Join(ys, sep)
  {
  }

  lemma JoinCons(x: string, ys: seq<string>, sep: string)
    requires |ys| >= 1
    ensures Join([x] + ys, sep) == x + sep + Join(ys, sep)
  {
    assert ([x] + ys)[1..] == ys;
  }

  lemma SliceAround(s: string, i: int, n: nat)
    requires 0 <= i && i + n <= |s|
    ensures s == s[..i] + s[i..i + n] + s[i + n..]
  {
  }

  /** The text before the first occurrence of a pattern does not contain it. */
  lemma PrefixBeforeFirst(s: string, pat: string, i: int)
    requires pat != "" && i == IndexOf(s, pat) && i != -1
    ensures IndexOf(s[..i], pat) == -1
  {
    forall j | OccursAt(s[..i], pat, j)
      ensures false
    {
      assert s[..i][j..j + |pat|] == s[j..j + |pat|];
      assert OccursAt(s, pat, j);
    }
  }

  // ----- the channel edge ids

  /** `incomingChannelEdgeID`: the edge from the channel's source actor into the channel node. */
  function IncomingChannelEdgeId(ids: IdScheme, c: Channel): (r: string)
    ensures c.from <= r && r[|c.from|..] == IncomingDelim + ids.channelId(c)
  {
    c.from + IncomingDelim + ids.channelId(c)
  }

  /** `outgoingChannelEdgeID`: the edge from the channel node to the channel's target actor. */
  function OutgoingChannelEdgeId(ids: IdScheme, c: Channel): (r: string)
    ensures ids.channelId(c) <= r && r[|ids.channelId(c)|..] == OutgoingDelim + c.to
  {
    ids.channelId(c) + OutgoingDelim + c.to
  }

  /**
   * `channelIDFromEdgeID`.  An incoming delimiter that is not at the very
   * start wins: the result is the second piece of the split, the text after
   * its first occurrence up to the next one or the end.  Otherwise an
   * outgoing delimiter that is not at the very start gives the text before
   * it.  Otherwise the result is empty.
   */
  function ChannelIdFromEdgeId(e: string): (r: string)
    ensures IndexOf(e, IncomingDelim) > 0 ==>
      var tail := e[IndexOf(e, IncomingDelim) + |IncomingDelim|..];
      r == if IndexOf(tail, IncomingDelim) == -1 then tail else tail[..IndexOf(tail, IncomingDelim)]
    ensures IndexOf(e, IncomingDelim) <= 0 && IndexOf(e, OutgoingDelim) > 0 ==>
      r == e[..IndexOf(e, OutgoingDelim)] && IndexOf(r, OutgoingDelim) == -1
    ensures IndexOf(e, IncomingDelim) <= 0 && IndexOf(e, OutgoingDelim) <= 0 ==> r == ""
  {
    if IndexOf(e, IncomingDelim) > 0 then
      var pieces := Split(e, IncomingDelim);
      assert pieces[1..] == Split(e[IndexOf(e, IncomingDelim) + |IncomingDelim|..], IncomingDelim);
      pieces[1]
    else if IndexOf(e, OutgoingDelim) > 0 then Split(e, OutgoingDelim)[0]
    else ""
  }

  // ----- properties

  /** Neither angle bracket appears in `s`. */
  predicate NoAngles(s: string) {
    forall i :: 0 <= i < |s| ==> s[i] != '<' && s[i] != '>'
  }

  /** A pattern whose first character is missing from `s` does not occur in it. */
  lemma AbsentPattern(s: string, pat: string)
    requires pat != "" && forall i :: 0 <= i < |s| ==> s[i] != pat[0]
    ensures IndexOf(s, pat) == -1
  {
    forall j | 0 <= j < |s|
      ensures !OccursAt(s, pat, j)
    {
      if j + |pat| <= |s| {
        assert s[j..j + |pat|][0] == s[j];
      }
    }
  }

  /** Searching for a single character finds it exactly when it is there. */
  lemma IndexOfChar(s: string, c: char)
    ensures IndexOf(s, [c]) < 0 <==> c !in s
  {
    if c in s {
      var i :| 0 <= i < |s| && s[i] == c;
      assert s[i..i + 1] == [c];
      assert OccursAt(s, [c], i);
    } else {
      AbsentPattern(s, [c]);
    }
  }

  /** A pattern placed right after a text that lacks its first character is found right there. */
  lemma FoundAfter(a: string, pat: string, b: string)
    requires pat != "" && forall i :: 0 <= i < |a| ==> a[i] != pat[0]
    ensures IndexOf(a + pat + b, pat) == |a|
  {
    var s := a + pat + b;
    assert s[|a|..|a| + |pat|] == pat;
    assert OccursAt(s, pat, |a|);
    forall j | 0 <= j < |a|
      ensures !OccursAt(s, pat, j)
    {
      assert s[j..j + |pat|][0] == s[j] == a[j];
    }
  }

  /** Splitting `a + sep + b` where neither part contains the separator's first character. */
  lemma SplitPair(a: string, sep: string, b: string)
    requires sep != ""
    requires forall i :: 0 <= i < |a| ==> a[i] != sep[0]
    requires forall i :: 0 <= i < |b| ==> b[i] != sep[0]
    ensures Split(a + sep + b, sep) == [a, b]
  {
    var s := a + sep + b;
    FoundAfter(a, sep, b);
    assert s[..|a|] == a && s[|a| + |sep|..] == b;
    AbsentPattern(b, sep);
  }

  /**
   * Round trip through the incoming edge id: when the source actor id is
   * non-empty and neither it nor the channel id contains an angle bracket,
   * the channel id is recovered.
   */
  lemma IncomingRoundTrip(ids: IdScheme, c: Channel)
    requires c.from != "" && NoAngles(c.from) && NoAngles(ids.channelId(c))
    ensures ChannelIdFromEdgeId(IncomingChannelEdgeId(ids, c)) == ids.channelId(c)
  {
    var cid := ids.channelId(c);
    FoundAfter(c.from, IncomingDelim, cid);
    SplitPair(c.from, IncomingDelim, cid);
  }

  /**
   * Round trip through the outgoing edge id: when the channel id is
   * non-empty and neither it nor the target actor id contains an angle
   * bracket, the channel id is recovered.
   */
  lemma OutgoingRoundTrip(ids: IdScheme, c: Channel)
    requires ids.channelId(c) != "" && NoAngles(ids.channelId(c)) && NoAngles(c.to)
    ensures ChannelIdFromEdgeId(OutgoingChannelEdgeId(ids, c)) == ids.channelId(c)
  {
    var cid := ids.channelId(c);
    NoIncomingInOutgoing(cid, c.to);
    FoundAfter(cid, OutgoingDelim, c.to);
    SplitPair(cid, OutgoingDelim, c.to);
  }

  lemma NoIncomingInOutgoing(cid: string, to: string)
    requires NoAngles(cid) && NoAngles(to)
    ensures IndexOf(cid + OutgoingDelim + to, IncomingDelim) == -1
  {
    AbsentPattern(cid + OutgoingDelim + to, IncomingDelim);
  }

  /**
   * A delimiter at position 0 counts as absent: when it is the only angle
   * bracket text in the id, the id decodes to the empty string.
   */
  lemma LeadingDelimiterDecodesEmpty(rest: string)
    requires NoAngles(rest)
    ensures ChannelIdFromEdgeId(IncomingDelim + rest) == ""
    ensures ChannelIdFromEdgeId(OutgoingDelim + rest) == ""
  {
    FoundAfter("", IncomingDelim, rest);
    assert "" + IncomingDelim + rest == IncomingDelim + rest;
    AbsentPattern(IncomingDelim + rest, OutgoingDelim);
    FoundAfter("", OutgoingDelim, rest);
    assert "" + OutgoingDelim + rest == OutgoingDelim + rest;
    AbsentPattern(OutgoingDelim + rest, IncomingDelim);
  }
}

=== FILE: diagram_painter.dfy ===
/**
 * The pure part of the diagram painter: which way an edge arrives at its
 * end, the vertices of the arrowheads, finding the one edge into and out of
 * a channel node, the id-to-drawn-elements index, and the label of a
 * request/response channel.  The drawing calls themselves are not modelled;
 * a drawn element is an opaque value of type `E`.
 */
module DiagramPainter {
  import opened Results
  import opened SystemModel
  import opened Geometry
  import opened Seqs
  import opened DiagramModel
  import opened DiagDraw

  /** How far the base of the painter's arrowheads lies behind the tip (`ARROW_H`). */
  const ArrowHeight: real := 10.0

  /** A graph edge after layout: the layout adds the routed sections. */
  datatype LaidOutEdge = LaidOutEdge(
    id: string,
    sources: seq<string>,
    targets: seq<string>,
    kind: EdgeKind,
    sections: seq<Section>)

  datatype PainterError =
    | InvalidIncomingEdgeCount(count: nat)
    | InvalidOutgoingEdgeCount(count: nat)
    | InvalidId
    | InvalidElement
    | MissingSection

  /** The point an edge's first section leaves from on its way to the end: its last bend, or its start. */
  function LastBendOrStart(first: Section): Point {
    if |first.bends| > 0 then first.bends[|first.bends| - 1] else first.start
  }

  /**
   * `_determineEdgeEndDirection`, given the edge's first section: the
   * direction of travel from the last bend point (the start point when
   * there are no bends) to the end point, or none when that segment is not
   * axis-aligned.
   */
  function DetermineEdgeEndDirection(first: Section): (r: Option<Direction>)
    ensures var from := if first.bends == [] then first.start else first.bends[|first.bends| - 1];
      && (r.None? <==> from.x != first.end.x && from.y != first.end.y)
      && (r.Some? ==> OnRayBehind(first.end, from, r.value))
      && (r.Some? && from != first.end ==> !OnRayBehind(first.end, from, Opposite(r.value)))
  {
    EndDirection(LastBendOrStart(first), first.end)
  }

  /** An arrowhead as drawn: its tip, and its base vertices when a direction was found. */
  datatype Head = Head(tip: Point, base: Option<(Point, Point)>)

  /**
   * `_drawArrowHead`: the tip sits at the end of the edge's last section,
   * the base 10 behind it and 10 wide, turned by the first section's end
   * direction.  Without a direction the base vertices stay undefined.
   */
  function DataFlowArrowHead(first: Section, last: Section): (h: Head)
    ensures h.tip == last.end
    ensures h.base.Some? <==> DetermineEdgeEndDirection(first).Some?
    ensures h.base.Some? ==>
      var d := DetermineEdgeEndDirection(first).value;
      && (h.base.value.0.x + h.base.value.1.x) / 2.0 == last.end.x + 10.0 * Back(d).x
      && (h.base.value.0.y + h.base.value.1.y) / 2.0 == last.end.y + 10.0 * Back(d).y
      && h.base.value.0 == Offset(Offset(last.end, Back(d), 10.0), Across(Back(d)), HalfArrowWidth)
  {
    match DetermineEdgeEndDirection(first)
    case None => Head(last.end, None)
    case Some(d) =>
      var t := ArrowHead(last.end, d, ArrowHeight);
      ArrowHeadSymmetric(last.end, d, ArrowHeight);
      Head(last.end, Some((t.p2, t.p3)))
  }

  /**
   * `_drawAsyncArrowhead`: the tip at the end of the first section, one
   * base vertex on the edge axis 10 behind the tip and the other 5 to its
   * side.
   */
  function AsyncArrowHead(first: Section): (h: Head)
    ensures h.tip == first.end
    ensures h.base.Some? <==> DetermineEdgeEndDirection(first).Some?
    ensures h.base.Some? ==>
      var d := DetermineEdgeEndDirection(first).value;
      var axis := Offset(first.end, Back(d), 10.0);
      h.base.value.1 == axis && h.base.value.0 == Offset(axis, Across(Back(d)), HalfArrowWidth)
  {
    var x := first.end.x;
    var y := first.end.y;
    match DetermineEdgeEndDirection(first)
    case None => Head(first.end, None)
    case Some(N) => Head(first.end, Some((Point(x + 5.0, y + ArrowHeight), Point(x, y + ArrowHeight))))
    case Some(E) => Head(first.end, Some((Point(x - ArrowHeight, y + 5.0), Point(x - ArrowHeight, y))))
    case Some(S) => Head(first.end, Some((Point(x - 5.0, y - ArrowHeight), Point(x, y - ArrowHeight))))
    case Some(W) => Head(first.end, Some((Point(x + ArrowHeight, y - 5.0), Point(x + ArrowHeight, y))))
  }

  /**
   * The half arrowhead is the full one with one half cut away along the
   * axis: they share the tip and the first base vertex, and the half
   * arrow's second vertex is the midpoint of the full arrow's base.
   */
  lemma AsyncIsHalfArrow(first: Section)
    ensures var full := DataFlowArrowHead(first, first);
      var half := AsyncArrowHead(first);
      && half.tip == full.tip
      && (half.base.Some? <==> full.base.Some?)
      && (half.base.Some? ==>
           half.base.value.0 == full.base.value.0
           && half.base.value.1 == Point((full.base.value.0.x + full.base.value.1.x) / 2.0,
                                         (full.base.value.0.y + full.base.value.1.y) / 2.0))
  {
  }

  // ----- finding the edges of a node

  function TargetsNode(id: string): LaidOutEdge -> bool {
    (e: LaidOutEdge) => id in e.targets
  }

  function SourcesNode(id: string): LaidOutEdge -> bool {
    (e: LaidOutEdge) => id in e.sources
  }

  /** `_findEdgesByTarget`: the edges that list the node among their targets, in graph order. */
  function FindEdgesByTarget(edges: seq<LaidOutEdge>, id: string): (r: seq<LaidOutEdge>)
    ensures forall e :: e in r <==> e in edges && id in e.targets
    ensures |r| <= |edges|
  {
    Filter(TargetsNode(id), edges)
  }

  /** `_findEdgesBySource`: the edges that list the node among their sources, in graph order. */
  function FindEdgesBySource(edges: seq<LaidOutEdge>, id: string): (r: seq<LaidOutEdge>)
    ensures forall e :: e in r <==> e in edges && id in e.sources
    ensures |r| <= |edges|
  {
    Filter(SourcesNode(id), edges)
  }

  /**
   * `_channelIncomingEdge`: the edge into the channel node, which must be
   * the only edge of the graph that targets it; otherwise it fails with the
   * number of edges found.
   */
  function ChannelIncomingEdge(edges: seq<LaidOutEdge>, channelId: string): (r: Result<LaidOutEdge, PainterError>)
    ensures r.Ok? <==> exists i :: OnlyAt(TargetsNode(channelId), edges, i)
    ensures r.Ok? ==> exists i :: OnlyAt(TargetsNode(channelId), edges, i) && r.value == edges[i]
    ensures r.Err? ==> r.error == InvalidIncomingEdgeCount(|FindEdgesByTarget(edges, channelId)|)
  {
    var found := FindEdgesByTarget(edges, channelId);
    FilterOneIff(TargetsNode(channelId), edges);
    if |found| != 1 then Err(InvalidIncomingEdgeCount(|found|)) else Ok(found[0])
  }

  /** `_channelOutgoingEdge`: the only edge that leaves the channel node, or a failure with the count. */
  function ChannelOutgoingEdge(edges: seq<LaidOutEdge>, channelId: string): (r: Result<LaidOutEdge, PainterError>)
    ensures r.Ok? <==> exists i :: OnlyAt(SourcesNode(channelId), edges, i)
    ensures r.Ok? ==> exists i :: OnlyAt(SourcesNode(channelId), edges, i) && r.value == edges[i]
    ensures r.Err? ==> r.error == InvalidOutgoingEdgeCount(|FindEdgesBySource(edges, channelId)|)
  {
    var found := FindEdgesBySource(edges, channelId);
    FilterOneIff(SourcesNode(channelId), edges);
    if |found| != 1 then Err(InvalidOutgoingEdgeCount(|found|)) else Ok(found[0])
  }

  // ----- the index of drawn elements

  /** The elements indexed under an id; an id never indexed has none. */
  function Registered<E>(index: map<string, seq<E>>, id: string): seq<E> {
    if id in index then index[id] else []
  }

  /**
   * `_rememberSVGElementForID`: an empty id or a missing element fails;
   * otherwise the element is appended to the id's list and every other
   * list is left alone.
   */
  function Remember<E>(index: map<string, seq<E>>, id: string, el: Option<E>): (r: Result<map<string, seq<E>>, PainterError>)
    ensures r.Ok? <==> id != "" && el.Some?
    ensures id == "" ==> r == Err(InvalidId)
    ensures id != "" && el.None? ==> r == Err(InvalidElement)
    ensures r.Ok? ==> Registered(r.value, id) == Registered(index, id) + [el.value]
    ensures r.Ok? ==> forall k :: k != id ==> Registered(r.value, k) == Registered(index, k)
    ensures r.Ok? ==> r.value.Keys == index.Keys + {id}
  {
    if id == "" then Err(InvalidId)
    else if el.None? then Err(InvalidElement)
    else Ok(index[id := Registered(index, id) + [el.value]])
  }

  /** A run of registrations, in order, stopping at the first failure. */
  function RememberAll<E>(index: map<string, seq<E>>, regs: seq<(string, Option<E>)>): Result<map<string, seq<E>>, PainterError>
    decreases |regs|
  {
    if regs == [] then Ok(index)
    else
      var next :- Remember(index, regs[0].0, regs[0].1);
      RememberAll(next, regs[1..])
  }

  /** The elements a run of registrations files under `id`, in order. */
  function FiledUnder<E>(regs: seq<(string, Option<E>)>, id: string): seq<E>
    decreases |regs|
  {
    if regs == [] then []
    else
      var here := if regs[0].0 == id && regs[0].1.Some? then [regs[0].1.value] else [];
      here + FiledUnder(regs[1..], id)
  }

  /** Every registration names an id and an element. */
  predicate Registrable<E>(regs: seq<(string, Option<E>)>) {
    forall i :: 0 <= i < |regs| ==> regs[i].0 != "" && regs[i].1.Some?
  }

  /** A run of registrations succeeds exactly when each names an id and an element. */
  lemma {:induction false} RememberAllSucceeds<E>(index: map<string, seq<E>>, regs: seq<(string, Option<E>)>)
    ensures RememberAll(index, regs).Ok? <==> Registrable(regs)
    decreases |regs|
  {
    if regs != [] {
      var first := Remember(index, regs[0].0, regs[0].1);
      if first.Ok? {
        RememberAllSucceeds(first.value, regs[1..]);
        assert Registrable(regs) <==> Registrable(regs[1..]) by {
          assert forall i :: 1 <= i < |regs| ==> regs[i] == regs[1..][i - 1];
        }
      }
    }
  }

  /**
   * The index is a multimap: after a successful run of registrations every
   * id's list is what it held before followed by the elements filed under
   * it, in order.
   */
  lemma {:induction false} RememberAllCollects<E>(index: map<string, seq<E>>, regs: seq<(string, Option<E>)>, id: string)
    requires RememberAll(index, regs).Ok?
    ensures Registered(RememberAll(index, regs).value, id) == Registered(index, id) + FiledUnder(regs, id)
    decreases |regs|
  {
    if regs != [] {
      var next := Remember(index, regs[0].0, regs[0].1).value;
      assert RememberAll(index, regs) == RememberAll(next, regs[1..]);
      RememberAllCollects(next, regs[1..], id);
      if regs[0].0 == id {
        assert Registered(next, id) == Registered(index, id) + [regs[0].1.value];
        assert FiledUnder(regs, id) == [regs[0].1.value] + FiledUnder(regs[1..], id);
      } else {
        assert Registered(next, id) == Registered(index, id);
        assert FiledUnder(regs, id) == FiledUnder(regs[1..], id);
      }
    }
  }

  /** The id `drawEdge` files an edge's drawn elements under. */
  function DrawKey(edge: LaidOutEdge): string {
    if edge.kind == DataFlowEdge then edge.id else ChannelIdFromEdgeId(edge.id)
  }

  /**
   * `drawEdge`'s indexing: a data-flow edge files its line and then its
   * arrowhead under the edge id; a channel edge files its line under the
   * channel id recovered from the edge id.  An empty key fails.
   */
  function DrawEdge<E>(index: map<string, seq<E>>, edge: LaidOutEdge, line: E, head: E): (r: Result<map<string, seq<E>>, PainterError>)
    ensures edge.kind == DataFlowEdge ==> (r.Ok? <==> edge.id != "")
    ensures edge.kind == DataFlowEdge && r.Ok? ==> Registered(r.value, edge.id) == Registered(index, edge.id) + [line, head]
    ensures edge.kind == ChannelEdge ==> (r.Ok? <==> ChannelIdFromEdgeId(edge.id) != "")
    ensures edge.kind == ChannelEdge && r.Ok? ==>
      Registered(r.value, ChannelIdFromEdgeId(edge.id)) == Registered(index, ChannelIdFromEdgeId(edge.id)) + [line]
    ensures r.Ok? ==> forall k :: k != DrawKey(edge) ==> Registered(r.value, k) == Registered(index, k)
    ensures r.Err? ==> r.error == InvalidId
  {
    match edge.kind
    case DataFlowEdge =>
      var withLine :- Remember(index, edge.id, Some(line));
      Remember(withLine, edge.id, Some(head))
    case ChannelEdge => Remember(index, ChannelIdFromEdgeId(edge.id), Some(line))
  }

  /**
   * Both edges of a channel are filed under the channel's id, when the
   * ids involved are non-empty and free of angle brackets: drawing the
   * incoming edge and then the outgoing one appends both lines to the
   * channel's list.
   */
  lemma ChannelLinesFiledUnderChannel<E>(ids: IdScheme, c: Channel, index: map<string, seq<E>>,
                                         inSections: seq<Section>, outSections: seq<Section>, inLine: E, outLine: E)
    requires c.from != "" && NoAngles(c.from) && NoAngles(c.to)
    requires ids.channelId(c) != "" && NoAngles(ids.channelId(c))
    ensures var inEdge := LaidOutEdge(IncomingChannelEdgeId(ids, c), [c.from], [ids.channelId(c)], ChannelEdge, inSections);
      var outEdge := LaidOutEdge(OutgoingChannelEdgeId(ids, c), [ids.channelId(c)], [c.to], ChannelEdge, outSections);
      var first := DrawEdge(index, inEdge, inLine, inLine);
      && first.Ok?
      && DrawEdge(first.value, outEdge, outLine, outLine).Ok?
      && Registered(DrawEdge(first.value, outEdge, outLine, outLine).value, ids.channelId(c))
         == Registered(index, ids.channelId(c)) + [inLine, outLine]
  {
    IncomingRoundTrip(ids, c);
    OutgoingRoundTrip(ids, c);
  }

  /** The `type` tag the diagram package writes on each graph edge. */
  function EdgeTypeTag(kind: EdgeKind): string {
    match kind
    case ChannelEdge => "channel"
    case DataFlowEdge => "dataflow"
  }

  /** The edge types the system model exports: a data-flow tag, and no channel tag at all. */
  const ExportedDataFlowType: Option<string> := Some("dataflow")
  const ExportedChannelType: Option<string> := None

  /**
   * `drawEdge`'s indexing as written: an edge's tag is compared with the
   * exported edge types, and since no channel type is exported the channel
   * branch is never taken.
   */
  function DrawEdgeAsWritten<E>(index: map<string, seq<E>>, edge: LaidOutEdge, line: E, head: E): (r: Result<map<string, seq<E>>, PainterError>)
    ensures edge.kind == DataFlowEdge ==> r == DrawEdge(index, edge, line, head)
    ensures edge.kind == ChannelEdge ==> r == Ok(index)
  {
    if Some(EdgeTypeTag(edge.kind)) == ExportedDataFlowType then
      var withLine :- Remember(index, edge.id, Some(line));
      Remember(withLine, edge.id, Some(head))
    else if Some(EdgeTypeTag(edge.kind)) == ExportedChannelType then
      Remember(index, ChannelIdFromEdgeId(edge.id), Some(line))
    else Ok(index)
  }

  /**
   * As written, a channel edge's line is never indexed: the index comes
   * back unchanged, while `DrawEdge` files it under the channel id.
   */
  lemma ChannelLinesNeverFiled<E>(ids: IdScheme, c: Channel, index: map<string, seq<E>>, sections: seq<Section>, line: E)
    requires c.from != "" && NoAngles(c.from) && ids.channelId(c) != "" && NoAngles(ids.channelId(c))
    ensures var edge := LaidOutEdge(IncomingChannelEdgeId(ids, c), [c.from], [ids.channelId(c)], ChannelEdge, sections);
      && DrawEdgeAsWritten(index, edge, line, line) == Ok(index)
      && DrawEdge(index, edge, line, line).Ok?
      && Registered(DrawEdge(index, edge, line, line).value, ids.channelId(c))
         == Registered(index, ids.channelId(c)) + [line]
  {
    IncomingRoundTrip(ids, c);
  }

  // ----- the request/response label

  datatype Label = Label(text: string, at: Point)

  /** The label text for a channel running in direction `d`. */
  function Glyph(d: Direction): string {
    match d
    case E => "R\U{25B6}"
    case W => "\U{25C0} R"
    case S => "R\n\U{25BC}"
    case N => "R\n\U{25B2}"
  }

  /**
   * The label of a request/response channel, from the end of its incoming
   * edge to the start of its outgoing edge: an arrow glyph pointing the way
   * the channel runs, raised 20 for a horizontal channel and moved left 15
   * for a vertical one; a plain `R` in place when the two points are equal
   * or not axis-aligned.
   */
  function ReqResLabel(inEnd: Point, outStart: Point, at: Point): (l: Label)
    ensures inEnd != outStart && EndDirection(inEnd, outStart).Some? ==>
      l.text == Glyph(EndDirection(inEnd, outStart).value)
    ensures inEnd == outStart || EndDirection(inEnd, outStart).None? ==> l == Label("R", at)
    ensures inEnd != outStart && inEnd.y == outStart.y ==> l.at == Point(at.x, at.y - 20.0)
    ensures inEnd != outStart && inEnd.x == outStart.x ==> l.at == Point(at.x - 15.0, at.y)
  {
    if inEnd.y == outStart.y && inEnd.x < outStart.x then Label("R\U{25B6}", Point(at.x, at.y - 20.0))
    else if inEnd.y == outStart.y && inEnd.x > outStart.x then Label("\U{25C0} R", Point(at.x, at.y - 20.0))
    else if inEnd.y < outStart.y && inEnd.x == outStart.x then Label("R\n\U{25BC}", Point(at.x - 15.0, at.y))
    else if inEnd.y > outStart.y && inEnd.x == outStart.x then Label("R\n\U{25B2}", Point(at.x - 15.0, at.y))
    else Label("R", at)
  }

  /**
   * `_drawReqResDecoration`: find the channel's one incoming and one
   * outgoing edge, then label the channel by the way it runs between them.
   */
  function ReqResDecoration(edges: seq<LaidOutEdge>, channelId: string, at: Point): (r: Result<Label, PainterError>)
    ensures ChannelIncomingEdge(edges, channelId).Err? ==> r == Err(ChannelIncomingEdge(edges, channelId).error)
    ensures ChannelIncomingEdge(edges, channelId).Ok? && ChannelOutgoingEdge(edges, channelId).Err? ==>
      r == Err(ChannelOutgoingEdge(edges, channelId).error)
    ensures r.Ok? ==>
      var i := ChannelIncomingEdge(edges, channelId).value;
      var o := ChannelOutgoingEdge(edges, channelId).value;
      i.sections != [] && o.sections != [] && r.value == ReqResLabel(i.sections[0].end, o.sections[0].start, at)
  {
    var incoming :- ChannelIncomingEdge(edges, channelId);
    var outgoing :- ChannelOutgoingEdge(edges, channelId);
    if incoming.sections == [] || outgoing.sections == [] then Err(MissingSection)
    else Ok(ReqResLabel(incoming.sections[0].end, outgoing.sections[0].start, at))
  }
}

=== FILE: geometry.dfy ===
/**
 * Points, laid-out edge sections and the four orthogonal directions an
 * arrowhead can take.  Screen coordinates grow rightwards and downwards.
 */
module Geometry {
  import opened Results

  datatype Point = Point(x: real, y: real)

  /** An edge section as the layout returns it; an absent bend list is the empty one. */
  datatype Section = Section(id: string, start: Point, end: Point, bends: seq<Point>)

  /** The direction an edge is heading when it reaches its end point. */
  datatype Direction = N | E | S | W

  /** The unit step that leads back from an arrow tip pointing in direction `d`. */
  function Back(d: Direction): (r: Point)
    ensures r.x * r.x + r.y * r.y == 1.0
    ensures (r.x == 0.0) == (d == N || d == S)
    ensures r.y < 0.0 <==> d == S
    ensures r.x < 0.0 <==> d == E
    ensures (r.y == 0.0) == (d == E || d == W)
  {
    match d
    case N => Point(0.0, 1.0)
    case E => Point(-1.0, 0.0)
    case S => Point(0.0, -1.0)
    case W => Point(1.0, 0.0)
  }

  /** `p + k·v`. */
  function Offset(p: Point, v: Point, k: real): Point {
    Point(p.x + k * v.x, p.y + k * v.y)
  }

  /** `v` turned a quarter turn: the side on which an arrowhead's first base vertex lies. */
  function Across(v: Point): Point {
    Point(v.y, -v.x)
  }

  /**
   * The direction of a segment from `from` to `to`, classified as the
   * painter does it: equal x is vertical (N when it rises, otherwise S, so a
   * zero-length segment counts as S); otherwise equal y is horizontal (W
   * when it goes left, otherwise E); anything else has no direction.
   */
  function EndDirection(from: Point, to: Point): (r: Option<Direction>)
    ensures r.None? <==> from.x != to.x && from.y != to.y
    ensures r.Some? ==> OnRayBehind(to, from, r.value)
    ensures r.Some? && from != to ==> !OnRayBehind(to, from, Opposite(r.value))
  {
    if from.x == to.x then Some(if from.y > to.y then N else S)
    else if from.y == to.y then Some(if from.x > to.x then W else E)
    else None
  }

  /** `from` lies on the ray that leaves `tip` backwards from direction `d`. */
  predicate OnRayBehind(tip: Point, from: Point, d: Direction) {
    var b := Back(d);
    && (from.x - tip.x) * b.y == (from.y - tip.y) * b.x
    && (from.x - tip.x) * b.x + (from.y - tip.y) * b.y >= 0.0
  }

  function Opposite(d: Direction): Direction {
    match d
    case N => S
    case S => N
    case E => W
    case W => E
  }

  /** A filled arrowhead: its tip and the two vertices of its base. */
  datatype Triangle = Triangle(tip: Point, p2: Point, p3: Point)

  /** Half the base width of every arrowhead (`ARROW_W / 2`). */
  const HalfArrowWidth: real := 5.0

  /**
   * The arrowhead vertex table shared by both renderers: the tip at `tip`,
   * the base `height` behind it, the second vertex on the right-hand side
   * of the heading and the third on the left.
   */
  function ArrowHead(tip: Point, d: Direction, height: real): (t: Triangle)
    ensures t.tip == tip
    ensures t.p2 == Offset(Offset(tip, Back(d), height), Across(Back(d)), HalfArrowWidth)
    ensures t.p3 == Offset(Offset(tip, Back(d), height), Across(Back(d)), -HalfArrowWidth)
  {
    var x := tip.x;
    var y := tip.y;
    match d
    case N => Triangle(tip, Point(x + 5.0, y + height), Point(x - 5.0, y + height))
    case E => Triangle(tip, Point(x - height, y + 5.0), Point(x - height, y - 5.0))
    case S => Triangle(tip, Point(x - 5.0, y - height), Point(x + 5.0, y - height))
    case W => Triangle(tip, Point(x + height, y - 5.0), Point(x + height, y + 5.0))
  }

  /** The base of an arrowhead is centred on the edge axis and `2·HalfArrowWidth` wide. */
  lemma ArrowHeadSymmetric(tip: Point, d: Direction, height: real)
    ensures var t := ArrowHead(tip, d, height);
      && (t.p2.x + t.p3.x) / 2.0 == tip.x + height * Back(d).x
      && (t.p2.y + t.p3.y) / 2.0 == tip.y + height * Back(d).y
      && (t.p2.x - t.p3.x) * (t.p2.x - t.p3.x) + (t.p2.y - t.p3.y) * (t.p2.y - t.p3.y)
         == 4.0 * HalfArrowWidth * HalfArrowWidth
  {
  }
}

=== FILE: grammar.dfy ===
/**
 * A hand-written recogniser for the part of the Scenaria grammar that has
 * semantic actions: declarations of actors and stores, write and read data
 * flows, and line comments.
 *
 * The grammar is a PEG.  Its upper-case rules are syntactic: before every
 * token and every rule application inside them, spaces (any character up to
 * and including ' ') are skipped.  Its lower-case rules are lexical and skip
 * nothing.  Each parsing function here takes the remaining input and returns
 * what it recognised together with the input left after it.
 */
module Grammar {
  import opened Results

  /** The keyword table: each keyword rule name and the literal it matches. */
  const Keywords: map<string, string> :=
    map["actor" := "actor", "store" := "store", "as" := "as", "user" := "user"]

  /** The alternatives of the `reserved_word` rule. */
  const ReservedWords: set<string> := {"actor", "as", "store", "user"}

  /** The statements of a program, and comments, as the recogniser yields them. */
  datatype Element =
    | ActorDef(caption: string, id: string)
    | StoreDef(caption: string, id: string)
    | DataFlowWrite(agent: string, store: string)
    | DataFlowRead(agent: string, store: string)
    | Comment(text: string)

  // ----- character classes

  /** The built-in `space` rule: any character from U+0000 to ' '. */
  predicate IsSpace(c: char) { c <= ' ' }

  predicate IsLetter(c: char) { 'a' <= c <= 'z' || 'A' <= c <= 'Z' }

  predicate IsDigit(c: char) { '0' <= c <= '9' }

  predicate IsAlnum(c: char) { IsLetter(c) || IsDigit(c) }

  /** `identStart = "_" | letter` */
  predicate IsIdentStart(c: char) { c == '_' || IsLetter(c) }

  /** `identChar = "_" | alnum` */
  predicate IsIdentChar(c: char) { c == '_' || IsAlnum(c) }

  /** `textCharacter = alnum | space` */
  predicate IsTextChar(c: char) { IsAlnum(c) || IsSpace(c) }

  /** The lookahead `~reserved_word` fails exactly on these inputs. */
  predicate StartsWithReservedWord(s: string) {
    exists w :: w in ReservedWords && w <= s
  }

  /** A word the `ident` rule accepts as a whole. */
  predicate IsIdentifier(id: string) {
    && |id| > 0
    && IsIdentStart(id[0])
    && (forall k :: 1 <= k < |id| ==> IsIdentChar(id[k]))
    && !StartsWithReservedWord(id)
  }

  predicate IsSuffix(r: string, s: string) {
    |r| <= |s| && s[|s| - |r|..] == r
  }

  lemma SuffixTransitive(a: string, b: string, c: string)
    requires IsSuffix(a, b) && IsSuffix(b, c)
    ensures IsSuffix(a, c)
  {
    assert c[|c| - |b|..][|b| - |a|..] == c[|c| - |a|..];
  }

  // ----- lexical helpers

  /** The implicit space skipping of syntactic rules. */
  function SkipSpaces(s: string): (r: string)
    ensures IsSuffix(r, s)
    ensures forall k :: 0 <= k < |s| - |r| ==> IsSpace(s[k])
    ensures r == [] || !IsSpace(r[0])
    decreases |s|
  {
    if s != [] && IsSpace(s[0]) then SkipSpaces(s[1..]) else s
  }

  /** A literal terminal inside a syntactic rule: skip spaces, then match `lit`. */
  function Token(s: string, lit: string): (r: Option<string>)
    ensures r.Some? ==> IsSuffix(r.value, s) && |r.value| + |lit| <= |s|
  {
    var t := SkipSpaces(s);
    if lit <= t then Some(t[|lit|..]) else None
  }

  /** The length of the longest prefix of `t` made of identifier characters. */
  function IdentCharsLength(t: string): (n: nat)
    ensures n <= |t|
    ensures forall k :: 0 <= k < n ==> IsIdentChar(t[k])
    ensures n == |t| || !IsIdentChar(t[n])
    decreases |t|
  {
    if t != [] && IsIdentChar(t[0]) then 1 + IdentCharsLength(t[1..]) else 0
  }

  /**
   * `ident = ~reserved_word full_ident` applied inside a syntactic rule.
   * The lookahead is tried on the input itself, so a word that merely begins
   * with a reserved word is rejected.
   */
  function ParseIdent(s: string): (r: Option<(string, string)>)
    ensures r.Some? ==> IsSuffix(r.value.1, s) && |r.value.1| < |s|
  {
    var t := SkipSpaces(s);
    if t == [] || !IsIdentStart(t[0]) || StartsWithReservedWord(t) then None
    else
      var n := 1 + IdentCharsLength(t[1..]);
      Some((t[..n], t[n..]))
  }

  /**
   * The number of characters `textCharacter*` consumes from `t` inside the
   * syntactic rule `TextLiteral`: spaces are skipped before each character, so
   * only alphanumerics are matched, and spaces after the last one are left.
   */
  function TextCharsLength(t: string): (n: nat)
    ensures n <= |t|
    ensures n > 0 ==> IsAlnum(t[n - 1])
    ensures forall k :: 0 <= k < n ==> IsTextChar(t[k])
    decreases |t|
  {
    var u := SkipSpaces(t);
    if u != [] && IsAlnum(u[0]) then
      var m := |t| - |u| + 1;
      var rest := TextCharsLength(u[1..]);
      TextCharsShift(t, m, rest);
      m + rest
    else 0
  }

  lemma TextCharsShift(t: string, m: nat, rest: nat)
    requires 0 < m <= |t| && rest <= |t| - m
    requires forall k :: 0 <= k < m - 1 ==> IsSpace(t[k])
    requires IsAlnum(t[m - 1])
    requires rest > 0 ==> IsAlnum(t[m..][rest - 1])
    requires forall k :: 0 <= k < rest ==> IsTextChar(t[m..][k])
    ensures m + rest > 0 ==> IsAlnum(t[m + rest - 1])
    ensures forall k :: 0 <= k < m + rest ==> IsTextChar(t[k])
  {
    forall k | 0 <= k < m + rest
      ensures IsTextChar(t[k])
    {
      if k >= m {
        assert t[k] == t[m..][k - m];
      }
    }
  }

  /**
   * `TextLiteral = "'" textCharacter* "'"`.  The captured text runs from the
   * first to the last matched character, so spaces next to the quotes are not
   * part of it.
   */
  function ParseTextLiteral(s: string): (r: Option<(string, string)>)
    ensures r.Some? ==> IsSuffix(r.value.1, s) && |r.value.1| < |s|
  {
    match Token(s, "'")
    case None => None
    case Some(t) =>
      var n := TextCharsLength(t);
      match Token(t[n..], "'")
      case None => None
      case Some(rest) =>
        assert IsSuffix(t[n..], t);
        SuffixTransitive(rest, t[n..], t);
        SuffixTransitive(rest, t, s);
        Some((MatchedText(t, n), rest))
  }

  /** The source text of the first `n` characters of `t`, leading spaces excluded. */
  function MatchedText(t: string, n: nat): string
    requires n <= |t|
  {
    var lead := |t| - |SkipSpaces(t)|;
    if n == 0 || n < lead then "" else t[lead..n]
  }

  /** The number of characters before the first newline of `t`. */
  function LineLength(t: string): (n: nat)
    ensures n <= |t|
    ensures forall k :: 0 <= k < n ==> t[k] != '\n'
    ensures n == |t| || t[n] == '\n'
    decreases |t|
  {
    if t != [] && t[0] != '\n' then 1 + LineLength(t[1..]) else 0
  }

  /** `comment = "//" (~"\n" any)*`, applied inside a syntactic rule. */
  function ParseComment(s: string): (r: Option<(string, string)>)
    ensures r.Some? ==> IsSuffix(r.value.1, s) && |r.value.1| < |s|
  {
    var t := SkipSpaces(s);
    if "//" <= t then
      var body := t[2..];
      var n := LineLength(body);
      Some((body[..n], body[n..]))
    else None
  }

  // ----- statements

  /** `ActorDef = actor TextLiteral as ident` and `StoreDef = store TextLiteral as ident`. */
  function ParseDeclaration(s: string, keyword: string): (r: Option<(string, string, string)>)
    ensures r.Some? ==> IsSuffix(r.value.2, s) && |r.value.2| < |s|
  {
    match Token(s, keyword)
    case None => None
    case Some(afterKeyword) =>
      var r := ParseCaptionAndId(afterKeyword);
      if r.Some? then SuffixTransitive(r.value.2, afterKeyword, s); r else None
  }

  /** The part `TextLiteral as ident` of a declaration. */
  function ParseCaptionAndId(s: string): (r: Option<(string, string, string)>)
    ensures r.Some? ==> IsSuffix(r.value.2, s) && |r.value.2| < |s|
  {
    var caption :- ParseTextLiteral(s);
    var afterAs :- Token(caption.1, "as");
    var id :- ParseIdent(afterAs);
    SuffixTransitive(afterAs, caption.1, s);
    SuffixTransitive(id.1, afterAs, s);
    Some((caption.0, id.0, id.1))
  }

  /** `DataFlowWrite = ident "-->" ident` and `DataFlowRead = ident "<--" ident`. */
  function ParseFlow(s: string, arrow: string): (r: Option<(string, string, string)>)
    ensures r.Some? ==> IsSuffix(r.value.2, s) && |r.value.2| < |s|
  {
    match ParseIdent(s)
    case None => None
    case Some(left) =>
      var r := ParseArrowAndIdent(left.1, arrow);
      if r.Some? then SuffixTransitive(r.value.1, left.1, s); Some((left.0, r.value.0, r.value.1))
      else None
  }

  /** The part `arrow ident` of a data flow. */
  function ParseArrowAndIdent(s: string, arrow: string): (r: Option<(string, string)>)
    ensures r.Some? ==> IsSuffix(r.value.1, s) && |r.value.1| < |s|
  {
    var afterArrow :- Token(s, arrow);
    var right :- ParseIdent(afterArrow);
    SuffixTransitive(right.1, afterArrow, s);
    Some(right)
  }

  /** The implemented alternatives of `Statement`, tried in the grammar's order. */
  function ParseStatement(s: string): (r: Option<(Element, string)>)
    ensures r.Some? ==> IsSuffix(r.value.1, s) && |r.value.1| < |s|
    ensures r.Some? ==> !r.value.0.Comment?
  {
    match ParseDeclaration(s, "actor")
    case Some(d) => Some((ActorDef(d.0, d.1), d.2))
    case None =>
      match ParseDeclaration(s, "store")
      case Some(d) => Some((StoreDef(d.0, d.1), d.2))
      case None =>
        match ParseFlow(s, "-->")
        case Some(f) => Some((DataFlowWrite(f.0, f.1), f.2))
        case None =>
          match ParseFlow(s, "<--")
          case Some(f) => Some((DataFlowRead(f.0, f.1), f.2))
          case None => None
  }

  /** `ProgramElement = SingleStatement | comment` with `SingleStatement = Statement ";"`. */
  function ParseProgramElement(s: string): (r: Option<(Element, string)>)
    ensures r.Some? ==> IsSuffix(r.value.1, s) && |r.value.1| < |s|
  {
    var single :=
      match ParseStatement(s)
      case Some(st) =>
        (match Token(st.1, ";")
         case Some(rest) => Some((st.0, rest))
         case None => None)
      case None => None;
    if single.Some? then single
    else
      match ParseComment(s)
      case Some(c) => Some((Comment(c.0), c.1))
      case None => None
  }

  /** The repetition `(~";" ProgramElement)*`: greedy, it stops at the first failure. */
  function ParseMoreElements(s: string): (r: (seq<Element>, string))
    ensures IsSuffix(r.1, s)
    decreases |s|
  {
    if Token(s, ";").Some? then ([], s)
    else
      match ParseProgramElement(s)
      case None => ([], s)
      case Some(e) =>
        var more := ParseMoreElements(e.1);
        SuffixTransitive(more.1, e.1, s);
        ([e.0] + more.0, more.1)
  }

  /** `ProgramElements = (ProgramElement)? (~";" ProgramElement)*` */
  function ParseProgramElements(s: string): (r: (seq<Element>, string))
    ensures IsSuffix(r.1, s)
  {
    match ParseProgramElement(s)
    case None => ParseMoreElements(s)
    case Some(e) =>
      var more := ParseMoreElements(e.1);
      SuffixTransitive(more.1, e.1, s);
      ([e.0] + more.0, more.1)
  }

  /**
   * A successful match of `Program` against the whole text: after the
   * elements, nothing but spaces may remain.  `None` is a syntax error.
   */
  function ParseProgram(text: string): (r: Option<seq<Element>>)
    ensures r.Some? <==> AllSpaces(ParseProgramElements(text).1)
    ensures r.Some? ==> r.value == ParseProgramElements(text).0
  {
    var (elements, rest) := ParseProgramElements(text);
    SkipToEnd(rest);
    if SkipSpaces(rest) == [] then Some(elements) else None
  }

  /** Every character of `s` is a space. */
  predicate AllSpaces(s: string) {
    forall k :: 0 <= k < |s| ==> IsSpace(s[k])
  }

  /** Skipping spaces consumes the whole text exactly when it holds nothing but spaces. */
  lemma SkipToEnd(s: string)
    ensures SkipSpaces(s) == [] <==> AllSpaces(s)
  {
  }
}

=== FILE: grammar_properties.dfy ===
/**
 * What the Scenaria recogniser accepts: identifiers, reserved words, text
 * literals, comments and statement terminators, and a printer whose output the
 * recogniser reads back as the same elements.
 */
module GrammarProperties {
  import opened Results
  import opened Grammar

  // ----- space skipping

  lemma SkipSpacesIdempotent(s: string)
    ensures SkipSpaces(SkipSpaces(s)) == SkipSpaces(s)
  {
  }

  /** Spaces in front of a text are skipped as a whole. */
  lemma {:induction false} SkipSpacesOverSpaces(a: string, b: string)
    requires AllSpaces(a)
    ensures SkipSpaces(a + b) == SkipSpaces(b)
    decreases |a|
  {
    if a == [] {
      assert a + b == b;
    } else {
      assert (a + b)[0] == a[0];
      assert (a + b)[1..] == a[1..] + b;
      SkipSpacesOverSpaces(a[1..], b);
    }
  }

  /** Skipping stops inside `a` when `a` holds a character other than a space. */
  lemma {:induction false} SkipSpacesStopsEarly(a: string, b: string, k: nat)
    requires k < |a| && !IsSpace(a[k])
    ensures SkipSpaces(a + b) == SkipSpaces(a) + b
    decreases |a|
  {
    assert (a + b)[0] == a[0];
    if IsSpace(a[0]) {
      assert (a + b)[1..] == a[1..] + b;
      assert a[1..][k - 1] == a[k];
      SkipSpacesStopsEarly(a[1..], b, k - 1);
    }
  }

  /** A literal that does not start with a space is matched right at the front. */
  lemma TokenAtFront(lit: string, rest: string)
    requires lit != [] && !IsSpace(lit[0])
    ensures Token(lit + rest, lit) == Some(rest)
  {
    assert (lit + rest)[0] == lit[0];
    assert lit <= lit + rest;
    assert (lit + rest)[|lit|..] == rest;
  }

  // ----- identifiers and reserved words

  /** Every reserved word is spelled with letters only. */
  lemma ReservedWordsAreLetters(w: string, k: int)
    requires w in ReservedWords && 0 <= k < |w|
    ensures IsLetter(w[k]) && IsIdentChar(w[k])
  {
  }

  /** The reserved words are exactly the keyword literals of the keyword table. */
  lemma ReservedWordsAreTheKeywords()
    ensures ReservedWords == Keywords.Values
    ensures forall k :: k in Keywords ==> Keywords[k] == k
  {
    assert Keywords["actor"] == "actor" && Keywords["store"] == "store";
    assert Keywords["as"] == "as" && Keywords["user"] == "user";
  }

  /** A whole identifier followed by a non-identifier character starts with no reserved word. */
  lemma NoReservedPrefix(id: string, rest: string)
    requires IsIdentifier(id)
    requires rest == [] || !IsIdentChar(rest[0])
    ensures !StartsWithReservedWord(id + rest)
  {
    forall w | w in ReservedWords
      ensures !(w <= id + rest)
    {
      if |w| <= |id| {
        assert (id + rest)[..|w|] == id[..|w|];
      } else {
        ReservedWordsAreLetters(w, |id|);
        assert |id + rest| <= |id| || (id + rest)[|id|] == rest[0];
      }
    }
  }

  /**
   * `ident` accepts exactly a maximal run of identifier characters that starts
   * with `_` or a letter and does not begin with a reserved word.
   */
  lemma IdentifierIff(s: string, id: string, rest: string)
    ensures ParseIdent(s) == Some((id, rest)) <==>
      && SkipSpaces(s) == id + rest
      && IsIdentifier(id)
      && (rest == [] || !IsIdentChar(rest[0]))
  {
    if ParseIdent(s) == Some((id, rest)) {
      IdentifierShape(s, id, rest);
    }
    if && SkipSpaces(s) == id + rest
       && IsIdentifier(id)
       && (rest == [] || !IsIdentChar(rest[0]))
    {
      IdentifierAccepted(s, id, rest);
    }
  }

  /** What an accepted identifier looks like. */
  lemma IdentifierShape(s: string, id: string, rest: string)
    requires ParseIdent(s) == Some((id, rest))
    ensures SkipSpaces(s) == id + rest
    ensures IsIdentifier(id)
    ensures rest == [] || !IsIdentChar(rest[0])
  {
    var t := SkipSpaces(s);
    var n := 1 + IdentCharsLength(t[1..]);
    IdentRunShape(t, n, id, rest);
    PrefixNotReserved(id, t);
  }

  lemma IdentRunShape(t: string, n: nat, id: string, rest: string)
    requires t != [] && IsIdentStart(t[0])
    requires n == 1 + IdentCharsLength(t[1..])
    requires id == t[..n] && rest == t[n..]
    ensures t == id + rest && id <= t
    ensures |id| > 0 && IsIdentStart(id[0])
    ensures forall k :: 1 <= k < |id| ==> IsIdentChar(id[k])
    ensures rest == [] || !IsIdentChar(rest[0])
  {
    forall k | 1 <= k < |id|
      ensures IsIdentChar(id[k])
    {
      assert id[k] == t[1..][k - 1];
    }
    if n < |t| {
      assert rest[0] == t[1..][n - 1];
    }
  }

  /** A prefix of a word that starts with no reserved word starts with none either. */
  lemma PrefixNotReserved(p: string, t: string)
    requires p <= t && !StartsWithReservedWord(t)
    ensures !StartsWithReservedWord(p)
  {
    forall w | w in ReservedWords
      ensures w <= p ==> w <= t
    {
    }
  }

  /** An identifier-shaped word that is followed by a non-identifier character is accepted. */
  lemma IdentifierAccepted(s: string, id: string, rest: string)
    requires SkipSpaces(s) == id + rest
    requires IsIdentifier(id)
    requires rest == [] || !IsIdentChar(rest[0])
    ensures ParseIdent(s) == Some((id, rest))
  {
    var t := SkipSpaces(s);
    NoReservedPrefix(id, rest);
    assert t[0] == id[0];
    var n := 1 + IdentCharsLength(t[1..]);
    assert forall k :: 0 <= k < |id| - 1 ==> t[1..][k] == id[k + 1];
    if |id| - 1 < |t[1..]| {
      assert t[1..][|id| - 1] == rest[0];
    }
    IdentRunLength(t[1..], |id| - 1);
    assert n == |id|;
    assert t[..n] == id && t[n..] == rest;
  }

  lemma {:induction false} IdentRunLength(t: string, m: nat)
    requires m <= |t|
    requires forall k :: 0 <= k < m ==> IsIdentChar(t[k])
    requires m == |t| || !IsIdentChar(t[m])
    ensures IdentCharsLength(t) == m
    decreases m
  {
    if m > 0 {
      IdentRunLength(t[1..], m - 1);
    }
  }

  /** Splitting a non-empty sequence into its head and tail loses nothing. */
  lemma ConsSplit<X>(xs: seq<X>)
    requires xs != []
    ensures [xs[0]] + xs[1..] == xs
  {
  }

  /** The lookahead refuses any word that begins with a reserved word, whatever follows it. */
  lemma ReservedPrefixRejected(s: string, w: string)
    requires w in ReservedWords && w <= SkipSpaces(s)
    ensures ParseIdent(s) == None
  {
  }

  /** So `asset` is not an identifier: it begins with `as`. */
  lemma AssetRejected(s: string)
    requires s == "asset"
    ensures ParseIdent(s) == None
  {
    assert SkipSpaces(s) == s;
    ReservedPrefixRejected(s, "as");
  }

  /** An identifier after spaces and before a non-identifier character is read whole. */
  lemma IdentAt(lead: string, id: string, rest: string)
    requires AllSpaces(lead) && IsIdentifier(id)
    requires rest == [] || !IsIdentChar(rest[0])
    ensures ParseIdent(lead + id + rest) == Some((id, rest))
  {
    assert lead + id + rest == lead + (id + rest);
    SkipSpacesOverSpaces(lead, id + rest);
    assert (id + rest)[0] == id[0];
    assert SkipSpaces(id + rest) == id + rest;
    IdentifierIff(lead + id + rest, id, rest);
  }

  // ----- text literals

  /** A caption as the recogniser yields it: text characters with no space at either end. */
  predicate IsCaption(c: string) {
    && (forall k :: 0 <= k < |c| ==> IsTextChar(c[k]))
    && (c == [] || (!IsSpace(c[0]) && !IsSpace(c[|c| - 1])))
  }

  lemma {:induction false} TextCharsOfBody(body: string, q: string)
    requires forall k :: 0 <= k < |body| ==> IsTextChar(body[k])
    requires body == [] || IsAlnum(body[|body| - 1])
    requires SkipSpaces(q) != [] && !IsAlnum(SkipSpaces(q)[0])
    ensures TextCharsLength(body + q) == |body|
    decreases |body|
  {
    var t := body + q;
    if body == [] {
      assert t == q;
      TextCharsStop(q);
    } else {
      var b' := FirstTextChar(body, q);
      TextCharsStep(t, SkipSpaces(t));
      TextCharsOfBody(b', q);
    }
  }

  /**
   * In a non-empty body of text characters ending with an alphanumeric,
   * skipping spaces reaches an alphanumeric; `b'` is what follows it.
   */
  lemma FirstTextChar(body: string, q: string) returns (b': string)
    requires body != [] && IsAlnum(body[|body| - 1])
    requires forall k :: 0 <= k < |body| ==> IsTextChar(body[k])
    ensures var u := SkipSpaces(body + q);
      && u != [] && IsAlnum(u[0])
      && u[1..] == b' + q
      && |b'| == |body| - (|body + q| - |u|) - 1
    ensures forall k :: 0 <= k < |b'| ==> IsTextChar(b'[k])
    ensures b' == [] || IsAlnum(b'[|b'| - 1])
  {
    SkipSpacesStopsEarly(body, q, |body| - 1);
    var sb := SkipSpaces(body);
    SuffixOfBody(sb, body);
    b' := sb[1..];
    assert (sb + q)[1..] == b' + q;
  }

  /** What is left of a body of text characters after skipping spaces. */
  lemma SuffixOfBody(sb: string, body: string)
    requires body != [] && IsAlnum(body[|body| - 1])
    requires forall k :: 0 <= k < |body| ==> IsTextChar(body[k])
    requires sb == SkipSpaces(body)
    ensures sb != [] && IsAlnum(sb[0]) && IsAlnum(sb[|sb| - 1])
    ensures forall k :: 0 <= k < |sb| ==> IsTextChar(sb[k])
  {
    var lead := |body| - |sb|;
    assert sb == body[lead..];
    assert !IsSpace(body[|body| - 1]);
    assert lead < |body|;
    assert sb[0] == body[lead];
    assert sb[|sb| - 1] == body[|body| - 1];
    forall k | 0 <= k < |sb| ensures IsTextChar(sb[k]) {
      assert sb[k] == body[lead + k];
    }
  }

  /** The repetition of text characters stops at once before anything but an alphanumeric. */
  lemma TextCharsStop(t: string)
    requires SkipSpaces(t) == [] || !IsAlnum(SkipSpaces(t)[0])
    ensures TextCharsLength(t) == 0
  {
  }

  /** One turn of the repetition of text characters. */
  lemma TextCharsStep(t: string, u: string)
    requires u == SkipSpaces(t) && u != [] && IsAlnum(u[0])
    ensures TextCharsLength(t) == |t| - |u| + 1 + TextCharsLength(u[1..])
  {
  }

  /** A literal token directly after the skipped spaces is matched. */
  lemma TokenOf(t: string, lit: string, rest: string)
    requires SkipSpaces(t) == lit + rest
    ensures Token(t, lit) == Some(rest)
  {
    assert lit <= lit + rest;
    assert (lit + rest)[|lit|..] == rest;
  }

  /** `ParseTextLiteral` assembled from its three steps. */
  lemma TextLiteralSteps(s: string, t: string, n: nat, rest: string)
    requires Token(s, "'") == Some(t)
    requires TextCharsLength(t) == n
    requires Token(t[n..], "'") == Some(rest)
    ensures ParseTextLiteral(s) == Some((MatchedText(t, n), rest))
  {
  }

  lemma QuoteAfterSpaces(trail: string, rest: string)
    requires AllSpaces(trail)
    ensures SkipSpaces(trail + "'" + rest) == "'" + rest
  {
    assert trail + "'" + rest == trail + ("'" + rest);
    SkipSpacesOverSpaces(trail, "'" + rest);
  }

  /**
   * A literal made of text characters is accepted; its value is the body
   * without the spaces at either end.
   */
  lemma TextLiteralAccepted(lead: string, c: string, trail: string, rest: string)
    requires AllSpaces(lead) && AllSpaces(trail) && IsCaption(c)
    ensures ParseTextLiteral("'" + lead + c + trail + "'" + rest) == Some((c, rest))
  {
    var q := trail + "'" + rest;
    var t := lead + c + q;
    assert "'" + lead + c + trail + "'" + rest == "'" + t;
    QuoteAfterSpaces(trail, rest);
    if c == [] {
      assert t == lead + q;
      EmptyCaptionAccepted(lead, q, rest);
    } else {
      CaptionAccepted(lead, c, q, rest);
    }
  }

  /** `TextLiteralAccepted` for a text given whole. */
  lemma TextLiteralAcceptedAs(s: string, lead: string, c: string, trail: string, rest: string)
    requires AllSpaces(lead) && AllSpaces(trail) && IsCaption(c)
    requires s == "'" + lead + c + trail + "'" + rest
    ensures ParseTextLiteral(s) == Some((c, rest))
  {
    TextLiteralAccepted(lead, c, trail, rest);
  }

  lemma EmptyCaptionAccepted(lead: string, q: string, rest: string)
    requires AllSpaces(lead) && SkipSpaces(q) == "'" + rest
    ensures ParseTextLiteral("'" + (lead + q)) == Some(([], rest))
  {
    var t := lead + q;
    TokenAtFront("'", t);
    EmptyCaptionBody(lead, q, rest);
    TextLiteralSteps("'" + t, t, 0, rest);
  }

  lemma CaptionAccepted(lead: string, c: string, q: string, rest: string)
    requires AllSpaces(lead) && IsCaption(c) && c != []
    requires SkipSpaces(q) == "'" + rest
    ensures ParseTextLiteral("'" + (lead + c + q)) == Some((c, rest))
  {
    var t := lead + c + q;
    CaptionFacts(lead, c, q, rest);
    LiteralFromParts("'" + t, t, |lead| + |c|, c, rest);
  }

  lemma CaptionFacts(lead: string, c: string, q: string, rest: string)
    requires AllSpaces(lead) && IsCaption(c) && c != []
    requires SkipSpaces(q) == "'" + rest
    ensures |lead| + |c| <= |lead + c + q|
    ensures TextCharsLength(lead + c + q) == |lead| + |c|
    ensures Token((lead + c + q)[|lead| + |c|..], "'") == Some(rest)
    ensures MatchedText(lead + c + q, |lead| + |c|) == c
  {
    CaptionBodyLength(lead, c, q);
    CaptionAfterBody(lead, c, q, rest);
    CaptionMatched(lead, c, q);
  }

  lemma LiteralFromParts(s: string, t: string, n: nat, c: string, rest: string)
    requires s == "'" + t && n <= |t|
    requires TextCharsLength(t) == n && Token(t[n..], "'") == Some(rest)
    requires MatchedText(t, n) == c
    ensures ParseTextLiteral(s) == Some((c, rest))
  {
    TokenAtFront("'", t);
    TextLiteralSteps(s, t, n, rest);
  }

  lemma EmptyCaptionBody(lead: string, q: string, rest: string)
    requires AllSpaces(lead) && SkipSpaces(q) == "'" + rest
    ensures TextCharsLength(lead + q) == 0
    ensures Token((lead + q)[0..], "'") == Some(rest)
  {
    var t := lead + q;
    SkipSpacesOverSpaces(lead, q);
    assert t[0..] == t;
    TextCharsStop(t);
    TokenOf(t, "'", rest);
  }

  lemma CaptionBodyLength(lead: string, c: string, q: string)
    requires AllSpaces(lead) && IsCaption(c) && c != []
    requires SkipSpaces(q) != [] && !IsAlnum(SkipSpaces(q)[0])
    ensures TextCharsLength(lead + c + q) == |lead| + |c|
  {
    CaptionBody(lead, c);
    TextCharsOfBody(lead + c, q);
  }

  lemma CaptionAfterBody(lead: string, c: string, q: string, rest: string)
    requires SkipSpaces(q) == "'" + rest
    ensures Token((lead + c + q)[|lead| + |c|..], "'") == Some(rest)
  {
    assert (lead + c + q)[|lead| + |c|..] == q;
    TokenOf(q, "'", rest);
  }

  lemma CaptionMatched(lead: string, c: string, q: string)
    requires AllSpaces(lead) && IsCaption(c) && c != []
    ensures MatchedText(lead + c + q, |lead| + |c|) == c
  {
    LeadOfCaption(lead, c, q);
    assert (lead + c + q)[|lead|..|lead| + |c|] == c;
  }

  lemma CaptionBody(lead: string, c: string)
    requires AllSpaces(lead) && IsCaption(c) && c != []
    ensures forall k :: 0 <= k < |lead + c| ==> IsTextChar((lead + c)[k])
    ensures IsAlnum((lead + c)[|lead + c| - 1])
  {
    forall k | 0 <= k < |lead + c| ensures IsTextChar((lead + c)[k]) {
      if k >= |lead| { assert (lead + c)[k] == c[k - |lead|]; }
    }
    assert (lead + c)[|lead + c| - 1] == c[|c| - 1];
  }

  lemma LeadOfCaption(lead: string, c: string, q: string)
    requires AllSpaces(lead) && IsCaption(c) && c != []
    ensures SkipSpaces(lead + c + q) == c + q
  {
    assert lead + c + q == lead + (c + q);
    SkipSpacesOverSpaces(lead, c + q);
    assert (c + q)[0] == c[0];
  }

  /** A character that is neither a text character nor a quote inside a literal is a syntax error. */
  lemma PunctuationRejected(lead: string, c: string, p: char, rest: string)
    requires AllSpaces(lead) && IsCaption(c)
    requires !IsTextChar(p) && p != '\''
    ensures ParseTextLiteral("'" + lead + c + [p] + rest) == None
  {
    var q := [p] + rest;
    var t := lead + c + q;
    assert "'" + lead + c + [p] + rest == "'" + t;
    TokenAtFront("'", t);
    assert SkipSpaces(q) == q;
    assert Token(q, "'") == None;
    if c == [] {
      assert t == lead + q;
      SkipSpacesOverSpaces(lead, q);
      assert TextCharsLength(t) == 0;
      assert t[0..] == t;
      TextLiteralFailsAtClose("'" + t, t, 0);
    } else {
      CaptionBodyLength(lead, c, q);
      assert t[|lead| + |c|..] == q;
      TextLiteralFailsAtClose("'" + t, t, |lead| + |c|);
    }
  }

  lemma TextLiteralFailsAtClose(s: string, t: string, n: nat)
    requires Token(s, "'") == Some(t)
    requires TextCharsLength(t) == n
    requires Token(t[n..], "'") == None
    ensures ParseTextLiteral(s) == None
  {
  }

  /** Whatever literal is accepted consists of text characters between two quotes. */
  lemma TextLiteralShape(s: string)
    requires ParseTextLiteral(s).Some?
    ensures var (text, rest) := ParseTextLiteral(s).value;
      && (forall k :: 0 <= k < |text| ==> IsTextChar(text[k]))
      && exists body :: && (forall k :: 0 <= k < |body| ==> IsTextChar(body[k]))
                        && SkipSpaces(s) == "'" + body + "'" + rest
  {
    var t := Token(s, "'").value;
    var n := TextCharsLength(t);
    var rest := Token(t[n..], "'").value;
    TextLiteralSteps(s, t, n, rest);
    MatchedTextChars(t, n);
    TokenShape(s, "'", t);
    TokenShape(t[n..], "'", rest);
    var body := LiteralBody(t, n, rest);
    QuotedBody(s, t, body, rest);
  }

  lemma QuotedBody(s: string, t: string, body: string, rest: string)
    requires SkipSpaces(s) == "'" + t
    requires t == body + ("'" + rest)
    ensures SkipSpaces(s) == "'" + body + "'" + rest
  {
  }

  lemma MatchedTextChars(t: string, n: nat)
    requires n <= |t| && n == TextCharsLength(t)
    ensures forall k :: 0 <= k < |MatchedText(t, n)| ==> IsTextChar(MatchedText(t, n)[k])
  {
    var lead := |t| - |SkipSpaces(t)|;
    var text := MatchedText(t, n);
    forall k | 0 <= k < |text| ensures IsTextChar(text[k]) {
      assert text[k] == t[lead + k];
    }
  }

  lemma LiteralBody(t: string, n: nat, rest: string) returns (body: string)
    requires n <= |t| && forall k :: 0 <= k < n ==> IsTextChar(t[k])
    requires SkipSpaces(t[n..]) == "'" + rest
    ensures forall k :: 0 <= k < |body| ==> IsTextChar(body[k])
    ensures t == body + ("'" + rest)
  {
    var u := t[n..];
    var gap := |u| - |SkipSpaces(u)|;
    BodyChars(t, n, gap);
    body := t[..n + gap];
    SuffixAfterSlice(t, n, gap, "'" + rest);
  }

  /** If the suffix of `t[n..]` of length `|t| - n - gap` is `tl`, then `t` is its first `n + gap` characters and `tl`. */
  lemma SuffixAfterSlice(t: string, n: nat, gap: nat, tl: string)
    requires n <= |t| && IsSuffix(tl, t[n..]) && gap == |t[n..]| - |tl|
    ensures t == t[..n + gap] + tl
  {
    assert t[n..][gap..] == t[n + gap..];
  }

  /** A token that matched sits right after the skipped spaces. */
  lemma TokenShape(s: string, lit: string, r: string)
    requires Token(s, lit) == Some(r)
    ensures SkipSpaces(s) == lit + r
  {
    var u := SkipSpaces(s);
    assert u == u[..|lit|] + u[|lit|..];
  }

  lemma BodyChars(t: string, n: nat, gap: nat)
    requires n <= |t|
    requires forall k :: 0 <= k < n ==> IsTextChar(t[k])
    requires gap == |t[n..]| - |SkipSpaces(t[n..])|
    ensures n + gap <= |t|
    ensures forall k :: 0 <= k < n + gap ==> IsTextChar(t[k])
  {
    var u := t[n..];
    forall k | n <= k < n + gap ensures IsSpace(t[k]) {
      assert t[k] == u[k - n];
    }
  }

  /** A comment runs from `//` up to, and not including, the next newline or the end. */
  lemma CommentIff(s: string, text: string, rest: string)
    ensures ParseComment(s) == Some((text, rest)) <==>
      && SkipSpaces(s) == "//" + text + rest
      && (forall k :: 0 <= k < |text| ==> text[k] != '\n')
      && (rest == [] || rest[0] == '\n')
  {
    if ParseComment(s) == Some((text, rest)) {
      CommentShape(s, text, rest);
    }
    if && SkipSpaces(s) == "//" + text + rest
       && (forall k :: 0 <= k < |text| ==> text[k] != '\n')
       && (rest == [] || rest[0] == '\n')
    {
      CommentAccepted(s, text, rest);
    }
  }

  lemma CommentShape(s: string, text: string, rest: string)
    requires ParseComment(s) == Some((text, rest))
    ensures SkipSpaces(s) == "//" + text + rest
    ensures forall k :: 0 <= k < |text| ==> text[k] != '\n'
    ensures rest == [] || rest[0] == '\n'
  {
    var t := SkipSpaces(s);
    var body := t[2..];
    var n := LineLength(body);
    assert "//" <= t && text == body[..n] && rest == body[n..];
    CommentParts(t, body, n);
  }

  lemma CommentParts(t: string, body: string, n: nat)
    requires "//" <= t && body == t[2..] && n <= |body|
    ensures t == "//" + body[..n] + body[n..]
  {
    assert t == t[..2] + body;
    assert body == body[..n] + body[n..];
  }

  lemma CommentAccepted(s: string, text: string, rest: string)
    requires SkipSpaces(s) == "//" + text + rest
    requires forall k :: 0 <= k < |text| ==> text[k] != '\n'
    requires rest == [] || rest[0] == '\n'
    ensures ParseComment(s) == Some((text, rest))
  {
    var t := SkipSpaces(s);
    var body := text + rest;
    Associative("//", text, rest);
    CommentBody(t, body);
    LineOf(body, text, rest);
    CommentSteps(s, t, body, |text|);
  }

  lemma Associative(a: string, b: string, c: string)
    ensures a + b + c == a + (b + c)
  {
  }

  /** `ParseComment` assembled from its steps. */
  lemma CommentSteps(s: string, t: string, body: string, n: nat)
    requires t == SkipSpaces(s) && "//" <= t && t[2..] == body
    requires n <= |body| && LineLength(body) == n
    ensures ParseComment(s) == Some((body[..n], body[n..]))
  {
  }

  lemma CommentBody(t: string, body: string)
    requires t == "//" + body
    ensures "//" <= t && t[2..] == body
  {
  }

  lemma LineOf(body: string, text: string, rest: string)
    requires body == text + rest
    requires forall k :: 0 <= k < |text| ==> text[k] != '\n'
    requires rest == [] || rest[0] == '\n'
    ensures LineLength(body) == |text|
    ensures body[..|text|] == text && body[|text|..] == rest
  {
    assert forall k :: 0 <= k < |text| ==> body[k] == text[k];
    assert |text| == |body| || body[|text|] == rest[0];
    LineRunLength(body, |text|);
  }

  lemma {:induction false} LineRunLength(t: string, m: nat)
    requires m <= |t|
    requires forall k :: 0 <= k < m ==> t[k] != '\n'
    requires m == |t| || t[m] == '\n'
    ensures LineLength(t) == m
    decreases m
  {
    if m > 0 {
      assert forall k :: 0 <= k < m - 1 ==> t[1..][k] == t[k + 1];
      LineRunLength(t[1..], m - 1);
    }
  }

  // ----- printing and reading back

  /** An element the printer below can write so that it reads back unchanged. */
  predicate WellFormed(e: Element) {
    match e
    case ActorDef(caption, id) => IsCaption(caption) && IsIdentifier(id)
    case StoreDef(caption, id) => IsCaption(caption) && IsIdentifier(id)
    case DataFlowWrite(agent, store) => IsIdentifier(agent) && IsIdentifier(store)
    case DataFlowRead(agent, store) => IsIdentifier(agent) && IsIdentifier(store)
    case Comment(text) => forall k :: 0 <= k < |text| ==> text[k] != '\n'
  }

  /** The source text of a statement, without its terminator. */
  function StatementText(e: Element): string
    requires !e.Comment?
  {
    match e
    case ActorDef(caption, id) => "actor '" + caption + "' as " + id
    case StoreDef(caption, id) => "store '" + caption + "' as " + id
    case DataFlowWrite(agent, store) => agent + " --> " + store
    case DataFlowRead(agent, store) => agent + " <-- " + store
  }

  /** The source text of one program element. */
  function RenderElement(e: Element): string {
    if e.Comment? then "//" + e.text else StatementText(e) + ";"
  }

  /** A program text: one element per line. */
  function Render(els: seq<Element>): string {
    if els == [] then "" else RenderElement(els[0]) + ("\n" + Render(els[1..]))
  }

  /** A literal token after spaces is matched. */
  lemma TokenAfterSpaces(lead: string, lit: string, rest: string)
    requires AllSpaces(lead) && lit != [] && !IsSpace(lit[0])
    ensures Token(lead + lit + rest, lit) == Some(rest)
  {
    assert lead + lit + rest == lead + (lit + rest);
    SkipSpacesOverSpaces(lead, lit + rest);
    assert (lit + rest)[0] == lit[0];
    assert SkipSpaces(lit + rest) == lit + rest;
    assert (lit + rest)[|lit|..] == rest;
  }

  /** Spaces in front of a text literal change nothing. */
  lemma TextLiteralAfterSpaces(lead: string, z: string)
    requires AllSpaces(lead)
    ensures ParseTextLiteral(lead + z) == ParseTextLiteral(z)
  {
    SkipSpacesOverSpaces(lead, z);
    assert Token(lead + z, "'") == Token(z, "'");
  }

  lemma DeclarationRoundTrip(kw: string, c: string, id: string, rest: string)
    requires kw == "actor" || kw == "store"
    requires IsCaption(c) && IsIdentifier(id)
    requires rest == [] || !IsIdentChar(rest[0])
    ensures ParseDeclaration(kw + " '" + c + "' as " + id + rest, kw) == Some((c, id, rest))
  {
    var afterAs := " " + id + rest;
    var afterCaption := " " + "as" + afterAs;
    var afterKeyword := " " + "'" + c + "'" + afterCaption;
    DeclarationText(kw, c, id, rest);
    DeclarationFacts(kw, c, id, rest, afterKeyword, afterCaption, afterAs);
    DeclarationSteps(kw + afterKeyword, kw, afterKeyword, c, afterCaption, afterAs, id, rest);
  }

  lemma DeclarationText(kw: string, c: string, id: string, rest: string)
    ensures kw + " '" + c + "' as " + id + rest
         == kw + (" " + "'" + c + "'" + (" " + "as" + (" " + id + rest)))
  {
  }

  lemma DeclarationFacts(kw: string, c: string, id: string, rest: string,
                         afterKeyword: string, afterCaption: string, afterAs: string)
    requires kw == "actor" || kw == "store"
    requires IsCaption(c) && IsIdentifier(id)
    requires rest == [] || !IsIdentChar(rest[0])
    requires afterAs == " " + id + rest
    requires afterCaption == " " + "as" + afterAs
    requires afterKeyword == " " + "'" + c + "'" + afterCaption
    ensures Token(kw + afterKeyword, kw) == Some(afterKeyword)
    ensures ParseTextLiteral(afterKeyword) == Some((c, afterCaption))
    ensures Token(afterCaption, "as") == Some(afterAs)
    ensures ParseIdent(afterAs) == Some((id, rest))
  {
    TokenAtFront(kw, afterKeyword);
    LiteralAt(afterKeyword, " ", c, afterCaption);
    TokenAfterSpaces(" ", "as", afterAs);
    IdentAt(" ", id, rest);
  }

  /** A quoted caption after spaces is read as that caption. */
  lemma LiteralAt(s: string, outer: string, c: string, rest: string)
    requires AllSpaces(outer) && IsCaption(c)
    requires s == outer + "'" + c + "'" + rest
    ensures ParseTextLiteral(s) == Some((c, rest))
  {
    var z := "'" + c + "'" + rest;
    assert s == outer + z;
    TextLiteralAcceptedAs(z, "", c, "", rest);
    TextLiteralAfterSpaces(outer, z);
  }

  /** `ParseDeclaration` assembled from its four steps. */
  lemma DeclarationSteps(s: string, kw: string, afterKeyword: string, c: string,
                         afterCaption: string, afterAs: string, id: string, rest: string)
    requires Token(s, kw) == Some(afterKeyword)
    requires ParseTextLiteral(afterKeyword) == Some((c, afterCaption))
    requires Token(afterCaption, "as") == Some(afterAs)
    requires ParseIdent(afterAs) == Some((id, rest))
    ensures ParseDeclaration(s, kw) == Some((c, id, rest))
  {
  }

  lemma FlowRoundTrip(a: string, arrow: string, st: string, rest: string)
    requires arrow == "-->" || arrow == "<--"
    requires IsIdentifier(a) && IsIdentifier(st)
    requires rest == [] || !IsIdentChar(rest[0])
    ensures ParseFlow(a + " " + arrow + " " + st + rest, arrow) == Some((a, st, rest))
  {
    var afterArrow := " " + st + rest;
    var afterLeft := " " + arrow + afterArrow;
    FlowText(a, arrow, st, rest);
    FlowFacts(a, arrow, st, rest, afterLeft, afterArrow);
    FlowSteps(a + afterLeft, arrow, a, afterLeft, afterArrow, st, rest);
  }

  lemma FlowText(a: string, arrow: string, st: string, rest: string)
    ensures a + " " + arrow + " " + st + rest == a + (" " + arrow + (" " + st + rest))
  {
  }

  lemma FlowFacts(a: string, arrow: string, st: string, rest: string,
                  afterLeft: string, afterArrow: string)
    requires arrow == "-->" || arrow == "<--"
    requires IsIdentifier(a) && IsIdentifier(st)
    requires rest == [] || !IsIdentChar(rest[0])
    requires afterArrow == " " + st + rest
    requires afterLeft == " " + arrow + afterArrow
    ensures ParseIdent(a + afterLeft) == Some((a, afterLeft))
    ensures Token(afterLeft, arrow) == Some(afterArrow)
    ensures ParseIdent(afterArrow) == Some((st, rest))
  {
    IdentAtFront(a, afterLeft);
    TokenAfterSpaces(" ", arrow, afterArrow);
    IdentAt(" ", st, rest);
  }

  /** An identifier at the very front, before a non-identifier character, is read whole. */
  lemma IdentAtFront(id: string, rest: string)
    requires IsIdentifier(id)
    requires rest == [] || !IsIdentChar(rest[0])
    ensures ParseIdent(id + rest) == Some((id, rest))
  {
    assert (id + rest)[0] == id[0];
    assert SkipSpaces(id + rest) == id + rest;
    IdentifierIff(id + rest, id, rest);
  }

  /** `ParseFlow` assembled from its three steps. */
  lemma FlowSteps(s: string, arrow: string, a: string, afterLeft: string,
                  afterArrow: string, st: string, rest: string)
    requires ParseIdent(s) == Some((a, afterLeft))
    requires Token(afterLeft, arrow) == Some(afterArrow)
    requires ParseIdent(afterArrow) == Some((st, rest))
    ensures ParseFlow(s, arrow) == Some((a, st, rest))
  {
  }

  /** A text that starts with an identifier does not start with a declaration keyword. */
  lemma NoDeclarationAtIdent(id: string, rest: string, kw: string)
    requires IsIdentifier(id) && (rest == [] || !IsIdentChar(rest[0]))
    requires kw == "actor" || kw == "store"
    ensures ParseDeclaration(id + rest, kw) == None
  {
    NoReservedPrefix(id, rest);
    assert (id + rest)[0] == id[0];
    assert SkipSpaces(id + rest) == id + rest;
    assert kw in ReservedWords;
    assert Token(id + rest, kw) == None;
  }

  /** A text that starts with `//` is no statement. */
  lemma NoStatementAtSlash(t: string)
    ensures ParseStatement("//" + t) == None
  {
    var s := "//" + t;
    assert s[0] == '/';
    assert SkipSpaces(s) == s;
    assert Token(s, "actor") == None && Token(s, "store") == None;
    assert ParseIdent(s) == None;
  }

  /** The text of a well-formed statement is read back as that statement. */
  lemma StatementRoundTrip(e: Element, rest: string)
    requires WellFormed(e) && !e.Comment?
    requires rest == [] || !IsIdentChar(rest[0])
    ensures ParseStatement(StatementText(e) + rest) == Some((e, rest))
  {
    var s := StatementText(e) + rest;
    match e
    case ActorDef(c, id) => ActorStatement(s, c, id, rest);
    case StoreDef(c, id) => StoreStatement(s, c, id, rest);
    case DataFlowWrite(a, st) => WriteStatement(s, a, st, rest);
    case DataFlowRead(a, st) => ReadStatement(s, a, st, rest);
  }

  lemma ActorStatement(s: string, c: string, id: string, rest: string)
    requires IsCaption(c) && IsIdentifier(id)
    requires rest == [] || !IsIdentChar(rest[0])
    requires s == "actor '" + c + "' as " + id + rest
    ensures ParseStatement(s) == Some((ActorDef(c, id), rest))
  {
    assert s == "actor" + " '" + c + "' as " + id + rest;
    DeclarationRoundTrip("actor", c, id, rest);
  }

  lemma StoreStatement(s: string, c: string, id: string, rest: string)
    requires IsCaption(c) && IsIdentifier(id)
    requires rest == [] || !IsIdentChar(rest[0])
    requires s == "store '" + c + "' as " + id + rest
    ensures ParseStatement(s) == Some((StoreDef(c, id), rest))
  {
    assert s == "store" + " '" + c + "' as " + id + rest;
    assert s[0] == 's';
    DeclarationRoundTrip("store", c, id, rest);
    NotAtFront(s, "actor");
  }

  /** A literal whose first character differs from the text's first character is not matched. */
  lemma NotAtFront(s: string, lit: string)
    requires s != [] && !IsSpace(s[0])
    requires lit != [] && lit[0] != s[0]
    ensures Token(s, lit) == None
    ensures ParseDeclaration(s, lit) == None
  {
    assert SkipSpaces(s) == s;
  }

  lemma WriteStatement(s: string, a: string, st: string, rest: string)
    requires IsIdentifier(a) && IsIdentifier(st)
    requires rest == [] || !IsIdentChar(rest[0])
    requires s == a + " --> " + st + rest
    ensures ParseStatement(s) == Some((DataFlowWrite(a, st), rest))
  {
    var after := " --> " + st + rest;
    WriteText(s, a, st, rest, after);
    NoDeclarationAtIdent(a, after, "actor");
    NoDeclarationAtIdent(a, after, "store");
    FlowRoundTrip(a, "-->", st, rest);
  }

  lemma ReadStatement(s: string, a: string, st: string, rest: string)
    requires IsIdentifier(a) && IsIdentifier(st)
    requires rest == [] || !IsIdentChar(rest[0])
    requires s == a + " <-- " + st + rest
    ensures ParseStatement(s) == Some((DataFlowRead(a, st), rest))
  {
    var after := " <-- " + st + rest;
    ReadText(s, a, st, rest, after);
    NoDeclarationAtIdent(a, after, "actor");
    NoDeclarationAtIdent(a, after, "store");
    NoWriteArrow(s, a, after);
    FlowRoundTrip(a, "<--", st, rest);
  }

  lemma WriteText(s: string, a: string, st: string, rest: string, after: string)
    requires s == a + " --> " + st + rest && after == " --> " + st + rest
    ensures s == a + after
    ensures s == a + " " + "-->" + " " + st + rest
  {
    assert " --> " == " " + "-->" + " ";
  }

  lemma ReadText(s: string, a: string, st: string, rest: string, after: string)
    requires s == a + " <-- " + st + rest && after == " <-- " + st + rest
    ensures s == a + after
    ensures s == a + " " + "<--" + " " + st + rest
  {
    assert " <-- " == " " + "<--" + " ";
  }

  lemma NoWriteArrow(s: string, a: string, after: string)
    requires IsIdentifier(a) && s == a + after
    requires |after| > 1 && after[0] == ' ' && after[1] == '<'
    ensures ParseFlow(s, "-->") == None
  {
    IdentAtFront(a, after);
    NoArrowAfterSpace(after);
    FlowStopsAtArrow(s, a, after, "-->");
  }

  lemma NoArrowAfterSpace(after: string)
    requires |after| > 1 && after[0] == ' ' && after[1] == '<'
    ensures Token(after, "-->") == None
  {
    var u := after[1..];
    assert after == [' '] + u;
    SkipSpacesOverSpaces([' '], u);
    assert SkipSpaces(u) == u;
  }

  /** `ParseFlow` fails when the arrow does not follow the first identifier. */
  lemma FlowStopsAtArrow(s: string, a: string, after: string, arrow: string)
    requires ParseIdent(s) == Some((a, after))
    requires Token(after, arrow) == None
    ensures ParseFlow(s, arrow) == None
  {
  }

  /** A well-formed element's text is read back as that element. */
  lemma ElementRoundTrip(e: Element, rest: string)
    requires WellFormed(e)
    requires rest == [] || rest[0] == '\n'
    ensures ParseProgramElement(RenderElement(e) + rest) == Some((e, rest))
  {
    var s := RenderElement(e) + rest;
    if e.Comment? {
      CommentElement(s, e.text, rest);
    } else {
      StatementElement(s, e, rest);
    }
  }

  lemma CommentElement(s: string, text: string, rest: string)
    requires forall k :: 0 <= k < |text| ==> text[k] != '\n'
    requires rest == [] || rest[0] == '\n'
    requires s == "//" + text + rest
    ensures ParseProgramElement(s) == Some((Comment(text), rest))
  {
    assert s == "//" + (text + rest);
    NoStatementAtSlash(text + rest);
    assert s[0] == '/';
    assert SkipSpaces(s) == s;
    CommentIff(s, text, rest);
  }

  lemma StatementElement(s: string, e: Element, rest: string)
    requires WellFormed(e) && !e.Comment?
    requires s == StatementText(e) + ";" + rest
    ensures ParseProgramElement(s) == Some((e, rest))
  {
    assert s == StatementText(e) + (";" + rest);
    StatementRoundTrip(e, ";" + rest);
    TokenAtFront(";", rest);
  }

  /** Spaces in front of a text change nothing for any of the element parsers. */
  lemma ElementAfterSpaces(s1: string, s2: string)
    requires SkipSpaces(s1) == SkipSpaces(s2)
    ensures ParseProgramElement(s1) == ParseProgramElement(s2)
    ensures Token(s1, ";") == Token(s2, ";")
  {
    StatementAfterSpaces(s1, s2);
    CommentAfterSpaces(s1, s2);
    ElementOfParts(s1, s2);
  }

  lemma CommentAfterSpaces(s1: string, s2: string)
    requires SkipSpaces(s1) == SkipSpaces(s2)
    ensures ParseComment(s1) == ParseComment(s2)
    ensures Token(s1, ";") == Token(s2, ";")
  {
  }

  lemma ElementOfParts(s1: string, s2: string)
    requires ParseStatement(s1) == ParseStatement(s2)
    requires ParseComment(s1) == ParseComment(s2)
    ensures ParseProgramElement(s1) == ParseProgramElement(s2)
  {
  }

  lemma StatementAfterSpaces(s1: string, s2: string)
    requires SkipSpaces(s1) == SkipSpaces(s2)
    ensures ParseStatement(s1) == ParseStatement(s2)
  {
    DeclarationAfterSpaces(s1, s2, "actor");
    DeclarationAfterSpaces(s1, s2, "store");
    FlowAfterSpaces(s1, s2, "-->");
    FlowAfterSpaces(s1, s2, "<--");
  }

  lemma DeclarationAfterSpaces(s1: string, s2: string, kw: string)
    requires SkipSpaces(s1) == SkipSpaces(s2)
    ensures ParseDeclaration(s1, kw) == ParseDeclaration(s2, kw)
  {
    SameTokenAfterSpaces(s1, s2, kw);
  }

  lemma SameTokenAfterSpaces(s1: string, s2: string, lit: string)
    requires SkipSpaces(s1) == SkipSpaces(s2)
    ensures Token(s1, lit) == Token(s2, lit)
  {
  }

  lemma FlowAfterSpaces(s1: string, s2: string, arrow: string)
    requires SkipSpaces(s1) == SkipSpaces(s2)
    ensures ParseFlow(s1, arrow) == ParseFlow(s2, arrow)
  {
    assert ParseIdent(s1) == ParseIdent(s2);
  }

  /** The elements after a newline are read back one by one, up to the final newline. */
  lemma {:induction false} MoreElementsRoundTrip(s: string, els: seq<Element>)
    requires forall i :: 0 <= i < |els| ==> WellFormed(els[i])
    requires s == "\n" + Render(els)
    ensures ParseMoreElements(s) == (els, "\n")
    decreases |els|
  {
    if els == [] {
      FinalNewline(s);
    } else {
      var tail := "\n" + Render(els[1..]);
      MoreElementsRoundTrip(tail, els[1..]);
      MoreElementsCons(s, els, tail);
    }
  }

  lemma FinalNewline(s: string)
    requires s == "\n"
    ensures ParseMoreElements(s) == ([], "\n")
  {
    EndOfText(s);
  }

  lemma MoreElementsCons(s: string, els: seq<Element>, tail: string)
    requires forall i :: 0 <= i < |els| ==> WellFormed(els[i])
    requires els != [] && s == "\n" + Render(els)
    requires tail == "\n" + Render(els[1..])
    requires ParseMoreElements(tail) == (els[1..], "\n")
    ensures ParseMoreElements(s) == (els, "\n")
  {
    var r := HeadLine(s, els, tail);
    MoreElementsFromHead(s, r, els[0], tail, els[1..]);
    ConsSplit(els);
  }

  /** The first line of a rendered program after a newline, read back. */
  lemma HeadLine(s: string, els: seq<Element>, tail: string) returns (r: string)
    requires els != [] && WellFormed(els[0])
    requires s == "\n" + Render(els)
    requires tail == "\n" + Render(els[1..])
    ensures s == "\n" + r
    ensures ParseProgramElement(r) == Some((els[0], tail))
    ensures Token(r, ";") == None
  {
    r := RenderElement(els[0]) + tail;
    ElementRoundTripAs(r, els[0], tail);
    NoTerminatorAtElement(els[0], tail);
  }

  lemma MoreElementsFromHead(s: string, r: string, e: Element, tail: string, more: seq<Element>)
    requires s == "\n" + r
    requires ParseProgramElement(r) == Some((e, tail)) && Token(r, ";") == None
    requires ParseMoreElements(tail) == (more, "\n")
    ensures ParseMoreElements(s) == ([e] + more, "\n")
  {
    NewlineSkipped(s, r);
    ElementAfterSpaces(s, r);
    MoreElementsStep(s, e, tail);
  }

  lemma NewlineSkipped(s: string, r: string)
    requires s == "\n" + r
    ensures SkipSpaces(s) == SkipSpaces(r)
  {
    assert s[0] == '\n' && s[1..] == r;
  }

  /** One turn of the repetition. */
  lemma MoreElementsStep(s: string, e: Element, tail: string)
    requires Token(s, ";") == None
    requires ParseProgramElement(s) == Some((e, tail))
    ensures ParseMoreElements(s) == ([e] + ParseMoreElements(tail).0, ParseMoreElements(tail).1)
  {
  }

  /** A text of spaces holds no element and no terminator. */
  lemma EndOfText(s: string)
    requires AllSpaces(s)
    ensures ParseMoreElements(s) == ([], s)
    ensures ParseProgramElement(s) == None
  {
    assert s == s + [];
    SkipSpacesOverSpaces(s, []);
    NoElementInEmpty();
    ElementAfterSpaces(s, []);
    NoMoreElements(s);
  }

  lemma NoElementInEmpty()
    ensures ParseProgramElement([]) == None
    ensures Token([], ";") == None
  {
  }

  lemma NoMoreElements(s: string)
    requires ParseProgramElement(s) == None && Token(s, ";") == None
    ensures ParseMoreElements(s) == ([], s)
  {
  }

  /** A rendered element does not start with `;`. */
  lemma NoTerminatorAtElement(e: Element, tail: string)
    requires WellFormed(e)
    ensures Token(RenderElement(e) + tail, ";") == None
  {
    var line := RenderElement(e);
    var c := ElementLead(e);
    NoTokenAt(line + tail, c, ";");
  }

  /** The first character of a rendered element: a letter, `_` or `/`. */
  lemma ElementLead(e: Element) returns (c: char)
    requires WellFormed(e)
    ensures RenderElement(e) != [] && RenderElement(e)[0] == c
    ensures c == '/' || IsIdentStart(c)
  {
    match e
    case Comment(_) => c := '/';
    case ActorDef(_, _) => c := 'a';
    case StoreDef(_, _) => c := 's';
    case DataFlowWrite(a, _) => c := a[0];
    case DataFlowRead(a, _) => c := a[0];
  }

  /** A token is not found where a different visible character stands. */
  lemma NoTokenAt(s: string, c: char, lit: string)
    requires s != [] && s[0] == c && c > ' '
    requires lit != [] && lit[0] != c
    ensures Token(s, lit) == None
  {
  }

  /** Printing a program of well-formed elements and reading it back yields the same elements. */
  lemma RenderRoundTrip(els: seq<Element>)
    requires forall i :: 0 <= i < |els| ==> WellFormed(els[i])
    ensures ParseProgram(Render(els)) == Some(els)
  {
    var text := Render(els);
    if els == [] {
      assert text == [];
      EmptyProgram();
    } else {
      var tail := "\n" + Render(els[1..]);
      assert text == RenderElement(els[0]) + tail;
      RenderRoundTripCons(text, els, tail);
    }
  }

  lemma EmptyProgram()
    ensures ParseProgram([]) == Some([])
  {
    EndOfText([]);
  }

  lemma RenderRoundTripCons(text: string, els: seq<Element>, tail: string)
    requires forall i :: 0 <= i < |els| ==> WellFormed(els[i])
    requires els != [] && tail == "\n" + Render(els[1..])
    requires text == RenderElement(els[0]) + tail
    ensures ParseProgram(text) == Some(els)
  {
    ElementRoundTripAs(text, els[0], tail);
    MoreElementsRoundTrip(tail, els[1..]);
    ProgramFromElements(text, els[0], tail, els[1..]);
    ConsSplit(els);
  }

  lemma ElementRoundTripAs(s: string, e: Element, rest: string)
    requires WellFormed(e)
    requires rest == [] || rest[0] == '\n'
    requires s == RenderElement(e) + rest
    ensures ParseProgramElement(s) == Some((e, rest))
  {
    ElementRoundTrip(e, rest);
  }

  lemma ProgramFromElements(text: string, e: Element, tail: string, more: seq<Element>)
    requires ParseProgramElement(text) == Some((e, tail))
    requires ParseMoreElements(tail) == (more, "\n")
    ensures ParseProgram(text) == Some([e] + more)
  {
    ElementsFromSteps(text, e, tail, more);
    ProgramFromRest(text, [e] + more);
  }

  lemma ElementsFromSteps(text: string, e: Element, tail: string, more: seq<Element>)
    requires ParseProgramElement(text) == Some((e, tail))
    requires ParseMoreElements(tail) == (more, "\n")
    ensures ParseProgramElements(text) == ([e] + more, "\n")
  {
  }

  lemma ProgramFromRest(text: string, els: seq<Element>)
    requires ParseProgramElements(text) == (els, "\n")
    ensures ParseProgram(text) == Some(els)
  {
    assert SkipSpaces("\n") == [];
  }

  /** A statement without its terminating `;` is a syntax error. */
  lemma MissingTerminatorRejected(e: Element)
    requires WellFormed(e) && !e.Comment?
    ensures ParseProgram(StatementText(e)) == None
  {
    var s := StatementText(e);
    assert s + [] == s;
    StatementRoundTrip(e, []);
    StatementStart(e);
    assert SkipSpaces(s) == s;
    assert Token([], ";") == None;
    assert ParseComment(s) == None;
    assert ParseProgramElement(s) == None;
    assert Token(s, ";") == None;
  }

  /** A statement's text starts with `_` or a letter. */
  lemma StatementStart(e: Element)
    requires WellFormed(e) && !e.Comment?
    ensures StatementText(e) != [] && IsIdentStart(StatementText(e)[0])
  {
    match e
    case DataFlowWrite(a, _) => assert StatementText(e)[0] == a[0];
    case DataFlowRead(a, _) => assert StatementText(e)[0] == a[0];
    case _ =>
  }
}

=== FILE: ir.dfy ===
/**
 * The intermediate representation classes: comments, text literals, actor
 * and store declarations, data flows between them, and blocks of
 * statements.  JavaScript's "falsy" constructor arguments become `None`
 * (an absent value) or the empty string.
 */
module IR {
  import opened Results
  import opened Seqs

  /** `Comment`: its text, `""` when built from a falsy value. */
  datatype Comment = Comment(text: string)

  /** `TextLiteral`: its text, `""` when built from a falsy value. */
  datatype TextLiteral = TextLiteral(text: string)

  /** The actor or store object a data flow points to. */
  datatype Ref = Ref(id: string, caption: string)

  /**
   * The objects a block can hold.  The IR does not define data-flow classes;
   * the canonical conversion reads `agent.id` and `store.id` off them, which
   * is what `Write` and `Read` carry.  Any other statement kind is `Other`.
   */
  datatype Statement =
    | CommentStatement(comment: Comment)
    | ActorStatement(id: string, caption: string)
    | StoreStatement(id: string, caption: string)
    | Write(agent: Ref, store: Ref)
    | Read(agent: Ref, store: Ref)
    | Other(kind: string)

  /** `Block`, and `Program`, which adds nothing to it. */
  datatype Block = Block(contents: seq<Statement>)

  /** `txt || ""` for a string argument: absent and empty both give the empty text. */
  function TextOrEmpty(txt: Option<string>): (r: string)
    ensures r == "" <==> txt.None? || txt.value == ""
    ensures txt.Some? ==> r == txt.value
  {
    match txt
    case None => ""
    case Some(s) => s
  }

  function NewComment(txt: Option<string>): (c: Comment)
    ensures c.text == "" <==> txt.None? || txt.value == ""
    ensures txt.Some? ==> c.text == txt.value
  {
    Comment(TextOrEmpty(txt))
  }

  function NewTextLiteral(txt: Option<string>): (l: TextLiteral)
    ensures l.text == "" <==> txt.None? || txt.value == ""
    ensures txt.Some? ==> l.text == txt.value
  {
    TextLiteral(TextOrEmpty(txt))
  }

  /** `new Block(stmts)` and `new Program(stmts)`: no statements means an empty list. */
  function NewBlock(stmts: Option<seq<Statement>>): (b: Block)
    ensures stmts.None? ==> b.contents == []
    ensures stmts.Some? ==> b.contents == stmts.value
  {
    Block(if stmts.Some? then stmts.value else [])
  }

  predicate IsNotComment(s: Statement) { !s.CommentStatement? }

  /** The `statements` getter: the block's contents without its comments, in order. */
  function Statements(b: Block): (r: seq<Statement>)
    ensures forall i :: 0 <= i < |r| ==> !r[i].CommentStatement?
    ensures forall s :: s in r <==> s in b.contents && !s.CommentStatement?
    ensures |r| <= |b.contents|
  {
    Filter(IsNotComment, b.contents)
  }

  /** The statements of two blocks' contents joined are each block's statements joined. */
  lemma StatementsConcat(a: seq<Statement>, b: seq<Statement>)
    ensures Statements(Block(a + b)) == Statements(Block(a)) + Statements(Block(b))
  {
    FilterConcat(IsNotComment, a, b);
  }

  /** A block made of another block's statements has the same statements. */
  lemma StatementsIdempotent(b: Block)
    ensures Statements(Block(Statements(b))) == Statements(b)
  {
    FilterIdempotent(IsNotComment, b.contents);
  }

  /** A block without comments hands back its contents unchanged. */
  lemma StatementsWithoutComments(b: Block)
    requires forall i :: 0 <= i < |b.contents| ==> !b.contents[i].CommentStatement?
    ensures Statements(b) == b.contents
  {
    FilterAll(IsNotComment, b.contents);
  }

  /** A comment placed anywhere among the contents is invisible to the getter. */
  lemma CommentInvisible(before: seq<Statement>, c: Comment, after: seq<Statement>)
    ensures Statements(Block(before + [CommentStatement(c)] + after)) == Statements(Block(before + after))
  {
    StatementsConcat(before + [CommentStatement(c)], after);
    StatementsConcat(before, [CommentStatement(c)]);
    StatementsConcat(before, after);
    FilterSingleton(IsNotComment, CommentStatement(c));
  }
}

=== FILE: js_objects.dfy ===
/**
 * JavaScript objects and JSON values as the state codec sees them: an
 * object is its own keys in insertion order together with the value of
 * each, and reading a key it does not have gives `undefined`.
 */
module JsObjects {
  import opened Results

  /** An object: its own keys in insertion order, and their values. */
  datatype Obj<V> = Obj(keys: seq<string>, fields: map<string, V>)

  /** The keys listed are exactly the keys that carry values. */
  ghost predicate Valid<V>(o: Obj<V>) {
    forall k :: k in o.fields <==> k in o.keys
  }

  function Empty<V>(): (r: Obj<V>)
    ensures Valid(r) && r.fields == map[]
  {
    Obj([], map[])
  }

  /**
   * `o[k] = v`: an existing key keeps its place in the key order and takes
   * the new value; a new key goes to the end.
   */
  function Put<V>(o: Obj<V>, k: string, v: V): (r: Obj<V>)
    ensures r.fields == o.fields[k := v]
    ensures Valid(o) ==> Valid(r)
    ensures k in o.fields ==> r.keys == o.keys
    ensures k !in o.fields ==> r.keys == o.keys + [k]
  {
    if k in o.fields then Obj(o.keys, o.fields[k := v]) else Obj(o.keys + [k], o.fields[k := v])
  }

  /** A JSON value, with JavaScript's `undefined` for an absent property. */
  datatype Json =
    | JUndefined
    | JNull
    | JBool(b: bool)
    | JNum(n: real)
    | JStr(s: string)
    | JArr(items: seq<Json>)
    | JObj(obj: Obj<Json>)

  /** JavaScript truthiness (a NaN number is not modelled). */
  predicate Truthy(j: Json) {
    match j
    case JUndefined => false
    case JNull => false
    case JBool(b) => b
    case JNum(n) => n != 0.0
    case JStr(s) => s != ""
    case JArr(_) => true
    case JObj(_) => true
  }

  /** `o[k]`: the value of an own property, `undefined` when there is none. */
  function Field(o: Obj<Json>, k: string): (r: Json)
    ensures k !in o.fields ==> r == JUndefined
    ensures k in o.fields ==> r == o.fields[k]
  {
    if k in o.fields then o.fields[k] else JUndefined
  }

  /** Reading a key after `o[k] = v`. */
  lemma FieldPut(o: Obj<Json>, k: string, v: Json, k2: string)
    ensures Field(Put(o, k, v), k2) == if k2 == k then v else Field(o, k2)
  {
  }
}

=== FILE: lang.dfy ===
/**
 * The semantic pass of the language front end: the parser closure's two
 * symbol tables, the evaluation of each recognised element, and the
 * assembly of the system model from the evaluated elements.
 *
 * A parser created by `createParser` keeps its tables between calls, so
 * parsing here takes the tables in and hands the updated tables back,
 * whether the parse succeeds or throws.
 */
module Lang {
  import opened Results
  import opened SystemModel
  import opened Grammar
  import opened Seqs

  /** The errors the parser throws. */
  datatype LangError =
    | SyntaxError
    | InvalidWriteFlow(agent: string, store: string)
    | InvalidReadFlow(agent: string, store: string)

  /** The closure-held tables `agentsParsed` and `storesParsed`, keyed by id. */
  datatype SymbolTables = SymbolTables(agents: map<string, Actor>, stores: map<string, Actor>)

  /** The tables of a freshly created parser. */
  const NoSymbols := SymbolTables(map[], map[])

  /** What an element evaluates to: an actor entry, a data-flow entry, or a comment's text. */
  datatype Value = ActorValue(actor: Actor) | FlowValue(flow: DataFlow) | TextValue(text: string)

  predicate IsFlowElement(e: Element) {
    e.DataFlowWrite? || e.DataFlowRead?
  }

  /** `isValidDataFlow`: the agent is in the agent table as an agent and the store in the store table as a store. */
  predicate IsValidDataFlow(t: SymbolTables, agentId: string, storeId: string) {
    && agentId in t.agents && t.agents[agentId].kind == Agent
    && storeId in t.stores && t.stores[storeId].kind == Store
  }

  /** Every table entry is filed under its own id and has its table's type. */
  predicate WellTyped(t: SymbolTables) {
    && (forall id :: id in t.agents ==> t.agents[id] == Actor(Agent, id, t.agents[id].caption))
    && (forall id :: id in t.stores ==> t.stores[id] == Actor(Store, id, t.stores[id].caption))
  }

  /** The table update a declaration performs; other elements leave the tables alone. */
  function Declare(t: SymbolTables, e: Element): (r: SymbolTables)
    ensures WellTyped(t) ==> WellTyped(r)
    ensures t.agents.Keys <= r.agents.Keys && t.stores.Keys <= r.stores.Keys
  {
    match e
    case ActorDef(caption, id) => t.(agents := t.agents[id := Actor(Agent, id, caption)])
    case StoreDef(caption, id) => t.(stores := t.stores[id := Actor(Store, id, caption)])
    case _ => t
  }

  /** The error a data flow throws when its endpoints are not declared. */
  function FlowError(e: Element): LangError
    requires IsFlowElement(e)
  {
    if e.DataFlowWrite? then InvalidWriteFlow(e.agent, e.store) else InvalidReadFlow(e.agent, e.store)
  }

  /** The semantic action of one element, given the tables as they stand when it is reached. */
  function EvalElement(t: SymbolTables, e: Element): (r: (Result<Value, LangError>, SymbolTables))
    ensures r.1 == Declare(t, e)
    ensures r.0.Err? <==> IsFlowElement(e) && !IsValidDataFlow(t, e.agent, e.store)
    ensures r.0.Err? ==> r.0.error == FlowError(e)
    ensures e.DataFlowWrite? && r.0.Ok? ==> r.0.value == FlowValue(DataFlow(Write, e.agent, e.store))
    ensures e.DataFlowRead? && r.0.Ok? ==> r.0.value == FlowValue(DataFlow(Read, e.store, e.agent))
    ensures e.ActorDef? ==> r.0 == Ok(ActorValue(Actor(Agent, e.id, e.caption)))
    ensures e.StoreDef? ==> r.0 == Ok(ActorValue(Actor(Store, e.id, e.caption)))
    ensures e.Comment? ==> r.0 == Ok(TextValue(e.text))
  {
    match e
    case ActorDef(caption, id) => (Ok(ActorValue(Actor(Agent, id, caption))), Declare(t, e))
    case StoreDef(caption, id) => (Ok(ActorValue(Actor(Store, id, caption))), Declare(t, e))
    case DataFlowWrite(a, s) =>
      if IsValidDataFlow(t, a, s) then (Ok(FlowValue(DataFlow(Write, a, s))), t)
      else (Err(InvalidWriteFlow(a, s)), t)
    case DataFlowRead(a, s) =>
      if IsValidDataFlow(t, a, s) then (Ok(FlowValue(DataFlow(Read, s, a))), t)
      else (Err(InvalidReadFlow(a, s)), t)
    case Comment(text) => (Ok(TextValue(text)), t)
  }

  /** The tables after the declarations among `els` have been met, in order. */
  function DeclareAll(t: SymbolTables, els: seq<Element>): (r: SymbolTables)
    ensures WellTyped(t) ==> WellTyped(r)
    ensures t.agents.Keys <= r.agents.Keys && t.stores.Keys <= r.stores.Keys
    decreases |els|
  {
    if els == [] then t else DeclareAll(Declare(t, els[0]), els[1..])
  }

  /**
   * `ProgramElements` evaluated left to right: each element sees the tables
   * as the elements before it left them, and the first error stops the pass.
   * The tables are returned in both cases, because the closure keeps them.
   */
  function EvalElements(t: SymbolTables, els: seq<Element>): (r: (Result<seq<Value>, LangError>, SymbolTables))
    ensures r.0.Ok? ==> |r.0.value| == |els| && r.1 == DeclareAll(t, els)
    ensures t.agents.Keys <= r.1.agents.Keys && t.stores.Keys <= r.1.stores.Keys
    decreases |els|
  {
    if els == [] then (Ok([]), t)
    else
      var (first, t1) := EvalElement(t, els[0]);
      match first
      case Err(e) => (Err(e), t1)
      case Ok(v) =>
        var (rest, t2) := EvalElements(t1, els[1..]);
        match rest
        case Err(e) => (Err(e), t2)
        case Ok(vs) => (Ok([v] + vs), t2)
  }

  predicate IsActorValue(v: Value) { v.ActorValue? }

  predicate IsFlowValue(v: Value) { v.FlowValue? }

  /** The actor entries among the kept values. */
  function ActorsIn(vs: seq<Value>): (r: seq<Actor>)
    requires forall i :: 0 <= i < |vs| ==> vs[i].ActorValue?
    ensures |r| == |vs|
    ensures forall a :: a in r <==> ActorValue(a) in vs
  {
    var r := seq(|vs|, i requires 0 <= i < |vs| => vs[i].actor);
    assert forall i :: 0 <= i < |vs| ==> vs[i] == ActorValue(r[i]);
    r
  }

  /** The data-flow entries among the kept values. */
  function FlowsIn(vs: seq<Value>): (r: seq<DataFlow>)
    requires forall i :: 0 <= i < |vs| ==> vs[i].FlowValue?
    ensures |r| == |vs|
    ensures forall f :: f in r <==> FlowValue(f) in vs
  {
    var r := seq(|vs|, i requires 0 <= i < |vs| => vs[i].flow);
    assert forall i :: 0 <= i < |vs| ==> vs[i] == FlowValue(r[i]);
    r
  }

  /**
   * The `Program` action: the actors are the evaluated elements whose type is
   * an actor type, the data flows those whose type is a data-flow type, both
   * in source order.  Comment texts have no type and fall out of both.
   */
  function ProgramOf(values: seq<Value>): (m: Model)
    ensures m.name == "" && m.channels == [] && m.scenarios == []
    ensures forall a :: a in m.actors <==> ActorValue(a) in values
    ensures forall f :: f in m.dataFlows <==> FlowValue(f) in values
    ensures |m.actors| + |m.dataFlows| <= |values|
  {
    var actors := Filter(IsActorValue, values);
    var flows := Filter(IsFlowValue, values);
    ProgramOfCounts(values, actors, flows);
    Model("", ActorsIn(actors), [], FlowsIn(flows), [])
  }

  lemma {:induction false} ProgramOfCounts(values: seq<Value>, actors: seq<Value>, flows: seq<Value>)
    requires actors == Filter(IsActorValue, values) && flows == Filter(IsFlowValue, values)
    ensures |actors| + |flows| <= |values|
    decreases |values|
  {
    if values != [] {
      ProgramOfCounts(values[1..], Filter(IsActorValue, values[1..]), Filter(IsFlowValue, values[1..]));
    }
  }

  /**
   * The function `createParser` returns, applied to one program text with
   * the tables its earlier calls left behind.  A text the grammar rejects
   * fails before any semantic action runs.
   */
  function Parse(t: SymbolTables, text: string): (r: (Result<Model, LangError>, SymbolTables))
    ensures ParseProgram(text).None? ==> r == (Err(SyntaxError), t)
    ensures t.agents.Keys <= r.1.agents.Keys && t.stores.Keys <= r.1.stores.Keys
  {
    match ParseProgram(text)
    case None => (Err(SyntaxError), t)
    case Some(els) =>
      var (values, t1) := EvalElements(t, els);
      match values
      case Err(e) => (Err(e), t1)
      case Ok(vs) => (Ok(ProgramOf(vs)), t1)
  }
}

=== FILE: lang_properties.dfy ===
/**
 * What the semantic pass promises: when a program's data flows are
 * accepted, what the evaluated elements are, where a failure stops, how
 * redeclaration and parser reuse behave, and how the model keeps source
 * order.
 */
module LangProperties {
  import opened Results
  import opened SystemModel
  import opened Grammar
  import opened Seqs
  import opened Lang

  // ----- declarations, independently of the tables

  /** `id` is in the agent table to begin with or an actor declaration among `prior` names it. */
  predicate AgentKnown(t: SymbolTables, prior: seq<Element>, id: string) {
    id in t.agents || exists j :: 0 <= j < |prior| && prior[j].ActorDef? && prior[j].id == id
  }

  /** `id` is in the store table to begin with or a store declaration among `prior` names it. */
  predicate StoreKnown(t: SymbolTables, prior: seq<Element>, id: string) {
    id in t.stores || exists j :: 0 <= j < |prior| && prior[j].StoreDef? && prior[j].id == id
  }

  /** Every data flow names an agent and a store declared before it (or already in the tables). */
  predicate FlowsResolve(t: SymbolTables, els: seq<Element>) {
    forall i :: 0 <= i < |els| && IsFlowElement(els[i]) ==>
      AgentKnown(t, els[..i], els[i].agent) && StoreKnown(t, els[..i], els[i].store)
  }

  /** Every data flow is valid against the tables the elements before it left behind. */
  predicate FlowsValid(t: SymbolTables, els: seq<Element>) {
    forall i :: 0 <= i < |els| && IsFlowElement(els[i]) ==>
      IsValidDataFlow(DeclareAll(t, els[..i]), els[i].agent, els[i].store)
  }

  /** An element's value, independently of any table. */
  function ValueOf(e: Element): Value {
    match e
    case ActorDef(caption, id) => ActorValue(Actor(Agent, id, caption))
    case StoreDef(caption, id) => ActorValue(Actor(Store, id, caption))
    case DataFlowWrite(a, s) => FlowValue(DataFlow(Write, a, s))
    case DataFlowRead(a, s) => FlowValue(DataFlow(Read, s, a))
    case Comment(text) => TextValue(text)
  }

  /** The elements' values, in order. */
  function ValuesOf(els: seq<Element>): (r: seq<Value>)
    ensures |r| == |els| && forall i :: 0 <= i < |els| ==> r[i] == ValueOf(els[i])
  {
    seq(|els|, i requires 0 <= i < |els| => ValueOf(els[i]))
  }

  // ----- the tables after a run of declarations

  /** The ids in the tables after `prior` are exactly the ones known from the start or declared in `prior`. */
  lemma {:induction false} DeclaredKeys(t: SymbolTables, prior: seq<Element>, id: string)
    ensures id in DeclareAll(t, prior).agents <==> AgentKnown(t, prior, id)
    ensures id in DeclareAll(t, prior).stores <==> StoreKnown(t, prior, id)
    decreases |prior|
  {
    if prior != [] {
      var t1 := Declare(t, prior[0]);
      DeclaredKeys(t1, prior[1..], id);
      KnownAfterHead(t, prior, id);
    }
  }

  lemma KnownAfterHead(t: SymbolTables, prior: seq<Element>, id: string)
    requires prior != []
    ensures AgentKnown(t, prior, id) <==> AgentKnown(Declare(t, prior[0]), prior[1..], id)
    ensures StoreKnown(t, prior, id) <==> StoreKnown(Declare(t, prior[0]), prior[1..], id)
  {
    var t1 := Declare(t, prior[0]);
    if AgentKnown(t, prior, id) && id !in t.agents && !(prior[0].ActorDef? && prior[0].id == id) {
      var j :| 0 <= j < |prior| && prior[j].ActorDef? && prior[j].id == id;
      assert prior[1..][j - 1] == prior[j];
    }
    if AgentKnown(t1, prior[1..], id) && id !in t1.agents {
      var j :| 0 <= j < |prior[1..]| && prior[1..][j].ActorDef? && prior[1..][j].id == id;
      assert prior[j + 1] == prior[1..][j];
    }
    if StoreKnown(t, prior, id) && id !in t.stores && !(prior[0].StoreDef? && prior[0].id == id) {
      var j :| 0 <= j < |prior| && prior[j].StoreDef? && prior[j].id == id;
      assert prior[1..][j - 1] == prior[j];
    }
    if StoreKnown(t1, prior[1..], id) && id !in t1.stores {
      var j :| 0 <= j < |prior[1..]| && prior[1..][j].StoreDef? && prior[1..][j].id == id;
      assert prior[j + 1] == prior[1..][j];
    }
  }

  /** With well-typed tables, a flow is valid exactly when both of its endpoints are known. */
  lemma ValidIffKnown(t: SymbolTables, prior: seq<Element>, a: string, s: string)
    requires WellTyped(t)
    ensures IsValidDataFlow(DeclareAll(t, prior), a, s) <==> AgentKnown(t, prior, a) && StoreKnown(t, prior, s)
  {
    DeclaredKeys(t, prior, a);
    DeclaredKeys(t, prior, s);
  }

  /** The last declaration of an id decides its table entry. */
  lemma {:induction false} LastDeclarationWins(t: SymbolTables, before: seq<Element>, caption: string, id: string, after: seq<Element>)
    requires forall j :: 0 <= j < |after| ==> !(after[j].ActorDef? && after[j].id == id)
    ensures id in DeclareAll(t, before + [ActorDef(caption, id)] + after).agents
    ensures DeclareAll(t, before + [ActorDef(caption, id)] + after).agents[id] == Actor(Agent, id, caption)
    decreases |before|
  {
    var els := before + [ActorDef(caption, id)] + after;
    if before == [] {
      assert els[0] == ActorDef(caption, id) && els[1..] == after;
      KeepsAgent(Declare(t, els[0]), after, id);
    } else {
      assert els[0] == before[0];
      assert els[1..] == before[1..] + [ActorDef(caption, id)] + after;
      LastDeclarationWins(Declare(t, before[0]), before[1..], caption, id, after);
    }
  }

  lemma {:induction false} KeepsAgent(t: SymbolTables, els: seq<Element>, id: string)
    requires id in t.agents
    requires forall j :: 0 <= j < |els| ==> !(els[j].ActorDef? && els[j].id == id)
    ensures id in DeclareAll(t, els).agents && DeclareAll(t, els).agents[id] == t.agents[id]
    decreases |els|
  {
    if els != [] {
      assert forall j :: 0 <= j < |els[1..]| ==> els[1..][j] == els[j + 1];
      KeepsAgent(Declare(t, els[0]), els[1..], id);
    }
  }

  // ----- when evaluation succeeds

  lemma FlowsValidStep(t: SymbolTables, els: seq<Element>)
    requires els != []
    ensures FlowsValid(t, els) <==>
      && (IsFlowElement(els[0]) ==> IsValidDataFlow(t, els[0].agent, els[0].store))
      && FlowsValid(Declare(t, els[0]), els[1..])
  {
    var t1 := Declare(t, els[0]);
    assert els[..0] == [];
    forall i | 0 <= i < |els| - 1
      ensures DeclareAll(t, els[..i + 1]) == DeclareAll(t1, els[1..][..i])
    {
      assert els[..i + 1][0] == els[0];
      assert els[..i + 1][1..] == els[1..][..i];
    }
    if FlowsValid(t, els) {
      forall i | 0 <= i < |els[1..]| && IsFlowElement(els[1..][i])
        ensures IsValidDataFlow(DeclareAll(t1, els[1..][..i]), els[1..][i].agent, els[1..][i].store)
      {
        assert els[1..][i] == els[i + 1];
      }
    }
    if && (IsFlowElement(els[0]) ==> IsValidDataFlow(t, els[0].agent, els[0].store))
       && FlowsValid(t1, els[1..])
    {
      forall i | 0 <= i < |els| && IsFlowElement(els[i])
        ensures IsValidDataFlow(DeclareAll(t, els[..i]), els[i].agent, els[i].store)
      {
        if i > 0 {
          assert els[1..][i - 1] == els[i];
        }
      }
    }
  }

  /** Evaluation succeeds exactly when every flow is valid against the tables in force where it stands. */
  lemma {:induction false} EvalOkIffValid(t: SymbolTables, els: seq<Element>)
    ensures EvalElements(t, els).0.Ok? <==> FlowsValid(t, els)
    decreases |els|
  {
    if els != [] {
      FlowsValidStep(t, els);
      EvalOkIffValid(Declare(t, els[0]), els[1..]);
    }
  }

  lemma FlowsValidIffResolve(t: SymbolTables, els: seq<Element>)
    requires WellTyped(t)
    ensures FlowsValid(t, els) <==> FlowsResolve(t, els)
  {
    forall i | 0 <= i < |els| && IsFlowElement(els[i])
      ensures IsValidDataFlow(DeclareAll(t, els[..i]), els[i].agent, els[i].store)
        <==> AgentKnown(t, els[..i], els[i].agent) && StoreKnown(t, els[..i], els[i].store)
    {
      ValidIffKnown(t, els[..i], els[i].agent, els[i].store);
    }
  }

  /**
   * A program evaluates without error exactly when every data flow names an
   * agent and a store declared earlier in the text (or by an earlier call of
   * the same parser).
   */
  lemma EvalSucceedsIff(t: SymbolTables, els: seq<Element>)
    requires WellTyped(t)
    ensures EvalElements(t, els).0.Ok? <==> FlowsResolve(t, els)
  {
    EvalOkIffValid(t, els);
    FlowsValidIffResolve(t, els);
  }

  /** On success every element contributes its own value, in order. */
  lemma {:induction false} EvalValues(t: SymbolTables, els: seq<Element>)
    requires EvalElements(t, els).0.Ok?
    ensures forall i :: 0 <= i < |els| ==> EvalElements(t, els).0.value[i] == ValueOf(els[i])
    decreases |els|
  {
    if els != [] {
      EvalValues(Declare(t, els[0]), els[1..]);
    }
  }

  // ----- where evaluation stops

  /**
   * A failure is the error of the first flow whose endpoints are not
   * declared; the tables keep every declaration before it.
   */
  lemma {:induction false} EvalFailure(t: SymbolTables, els: seq<Element>) returns (k: nat)
    requires EvalElements(t, els).0.Err?
    ensures k < |els| && IsFlowElement(els[k])
    ensures FlowsValid(t, els[..k])
    ensures !IsValidDataFlow(DeclareAll(t, els[..k]), els[k].agent, els[k].store)
    ensures EvalElements(t, els).0.error == FlowError(els[k])
    ensures EvalElements(t, els).1 == DeclareAll(t, els[..k])
    decreases |els|
  {
    var t1 := Declare(t, els[0]);
    if EvalElement(t, els[0]).0.Err? {
      k := 0;
      assert els[..0] == [];
    } else {
      var k1 := EvalFailure(t1, els[1..]);
      k := k1 + 1;
      FailureShift(t, els, k1);
    }
  }

  lemma FailureShift(t: SymbolTables, els: seq<Element>, k1: nat)
    requires els != [] && k1 < |els| - 1
    requires IsFlowElement(els[0]) ==> IsValidDataFlow(t, els[0].agent, els[0].store)
    requires FlowsValid(Declare(t, els[0]), els[1..][..k1])
    ensures FlowsValid(t, els[..k1 + 1])
    ensures DeclareAll(t, els[..k1 + 1]) == DeclareAll(Declare(t, els[0]), els[1..][..k1])
    ensures els[k1 + 1] == els[1..][k1]
  {
    var p := els[..k1 + 1];
    assert p[0] == els[0] && p[1..] == els[1..][..k1];
    FlowsValidStep(t, p);
  }

  /** A data flow before the declarations it names fails, even though they follow. */
  lemma ForwardReferenceFails(agent: string, store: string, agentCaption: string, storeCaption: string)
    ensures EvalElements(NoSymbols, [DataFlowWrite(agent, store), ActorDef(agentCaption, agent), StoreDef(storeCaption, store)]).0
      == Err(InvalidWriteFlow(agent, store))
  {
  }

  /** The same flow after the declarations is accepted. */
  lemma DeclaredFlowAccepted(agent: string, store: string, agentCaption: string, storeCaption: string)
    ensures EvalElements(NoSymbols, [ActorDef(agentCaption, agent), StoreDef(storeCaption, store), DataFlowRead(agent, store)]).0
      == Ok([ActorValue(Actor(Agent, agent, agentCaption)), ActorValue(Actor(Store, store, storeCaption)),
             FlowValue(DataFlow(Read, store, agent))])
  {
    var els := [ActorDef(agentCaption, agent), StoreDef(storeCaption, store), DataFlowRead(agent, store)];
    var t1 := Declare(NoSymbols, els[0]);
    var t2 := Declare(t1, els[1]);
    assert IsValidDataFlow(t2, agent, store);
    var v0 := ActorValue(Actor(Agent, agent, agentCaption));
    var v1 := ActorValue(Actor(Store, store, storeCaption));
    var v2 := FlowValue(DataFlow(Read, store, agent));
    assert els[1..] == [els[1], els[2]] && els[1..][1..] == [els[2]] && [els[2]][1..] == [];
    EvalHead(t2, [els[2]], v2, t2);
    EvalHead(t1, els[1..], v1, t2);
    EvalHead(NoSymbols, els, v0, t1);
    assert [v0] + ([v1] + ([v2] + [])) == [v0, v1, v2];
  }

  // ----- reusing a parser

  /** The outcome of evaluating more elements after a successful run that produced `done`. */
  function Continue(done: seq<Value>, r: (Result<seq<Value>, LangError>, SymbolTables)): (Result<seq<Value>, LangError>, SymbolTables) {
    (if r.0.Ok? then Ok(done + r.0.value) else r.0, r.1)
  }

  /**
   * Evaluating two element lists one after the other with the same tables is
   * evaluating their concatenation: a second program run through the same
   * parser sees the first one's declarations.
   */
  lemma {:induction false} EvalConcat(t: SymbolTables, a: seq<Element>, b: seq<Element>)
    requires EvalElements(t, a).0.Ok?
    ensures EvalElements(t, a + b) == Continue(EvalElements(t, a).0.value, EvalElements(EvalElements(t, a).1, b))
    decreases |a|
  {
    if a == [] {
      assert a + b == b;
      assert EvalElements(t, a).0.value == [];
      var r := EvalElements(t, b);
      if r.0.Ok? {
        assert [] + r.0.value == r.0.value;
      }
    } else {
      var t1 := Declare(t, a[0]);
      var v := EvalElement(t, a[0]).0.value;
      assert (a + b)[0] == a[0] && (a + b)[1..] == a[1..] + b;
      EvalConcat(t1, a[1..], b);
      ConcatStep(t, a, b, v, t1);
    }
  }

  lemma ConcatStep(t: SymbolTables, a: seq<Element>, b: seq<Element>, v: Value, t1: SymbolTables)
    requires a != [] && EvalElements(t, a).0.Ok?
    requires EvalElement(t, a[0]) == (Ok(v), t1)
    requires (a + b)[0] == a[0] && (a + b)[1..] == a[1..] + b
    requires EvalElements(t1, a[1..] + b) == Continue(EvalElements(t1, a[1..]).0.value, EvalElements(EvalElements(t1, a[1..]).1, b))
    ensures EvalElements(t, a + b) == Continue(EvalElements(t, a).0.value, EvalElements(EvalElements(t, a).1, b))
  {
    var ra := EvalElements(t1, a[1..]);
    var rb := EvalElements(ra.1, b);
    EvalHead(t, a, v, t1);
    EvalHead(t, a + b, v, t1);
    ContinueTwice([v], ra.0.value, rb);
  }

  /** Evaluation of a list whose first element succeeds continues with the rest. */
  lemma EvalHead(t: SymbolTables, els: seq<Element>, v: Value, t1: SymbolTables)
    requires els != [] && EvalElement(t, els[0]) == (Ok(v), t1)
    ensures EvalElements(t, els) == Continue([v], EvalElements(t1, els[1..]))
  {
  }

  lemma ContinueTwice(x: seq<Value>, y: seq<Value>, r: (Result<seq<Value>, LangError>, SymbolTables))
    ensures Continue(x, Continue(y, r)) == Continue(x + y, r)
  {
    if r.0.Ok? {
      assert x + (y + r.0.value) == (x + y) + r.0.value;
    }
  }

  // ----- assembling the model

  /** Model assembly keeps source order: the model of a concatenation is the two models joined. */
  lemma ProgramOfConcat(a: seq<Value>, b: seq<Value>)
    ensures ProgramOf(a + b).actors == ProgramOf(a).actors + ProgramOf(b).actors
    ensures ProgramOf(a + b).dataFlows == ProgramOf(a).dataFlows + ProgramOf(b).dataFlows
  {
    FilterConcat(IsActorValue, a, b);
    FilterConcat(IsFlowValue, a, b);
    ActorsInConcat(Filter(IsActorValue, a), Filter(IsActorValue, b));
    FlowsInConcat(Filter(IsFlowValue, a), Filter(IsFlowValue, b));
  }

  lemma ActorsInConcat(x: seq<Value>, y: seq<Value>)
    requires forall i :: 0 <= i < |x| ==> x[i].ActorValue?
    requires forall i :: 0 <= i < |y| ==> y[i].ActorValue?
    ensures ActorsIn(x + y) == ActorsIn(x) + ActorsIn(y)
  {
    var l := ActorsIn(x + y);
    var r := ActorsIn(x) + ActorsIn(y);
    assert |l| == |r|;
    forall i | 0 <= i < |l| ensures l[i] == r[i] {
      if i < |x| {
        assert l[i] == (x + y)[i].actor == x[i].actor == ActorsIn(x)[i];
      } else {
        assert l[i] == (x + y)[i].actor == y[i - |x|].actor == ActorsIn(y)[i - |x|];
      }
    }
  }

  lemma FlowsInConcat(x: seq<Value>, y: seq<Value>)
    requires forall i :: 0 <= i < |x| ==> x[i].FlowValue?
    requires forall i :: 0 <= i < |y| ==> y[i].FlowValue?
    ensures FlowsIn(x + y) == FlowsIn(x) + FlowsIn(y)
  {
    var l := FlowsIn(x + y);
    var r := FlowsIn(x) + FlowsIn(y);
    assert |l| == |r|;
    forall i | 0 <= i < |l| ensures l[i] == r[i] {
      if i < |x| {
        assert l[i] == (x + y)[i].flow == x[i].flow == FlowsIn(x)[i];
      } else {
        assert l[i] == (x + y)[i].flow == y[i - |x|].flow == FlowsIn(y)[i - |x|];
      }
    }
  }

  /** A comment contributes nothing to the model. */
  lemma CommentDropped(text: string, vs: seq<Value>)
    ensures ProgramOf([TextValue(text)] + vs) == ProgramOf(vs)
  {
    ProgramOfConcat([TextValue(text)], vs);
    FilterSingleton(IsActorValue, TextValue(text));
    FilterSingleton(IsFlowValue, TextValue(text));
  }

  /** An actor declaration adds its entry to the model's actors, in place. */
  lemma ActorKept(a: Actor, vs: seq<Value>)
    ensures ProgramOf([ActorValue(a)] + vs).actors == [a] + ProgramOf(vs).actors
    ensures ProgramOf([ActorValue(a)] + vs).dataFlows == ProgramOf(vs).dataFlows
  {
    ProgramOfConcat([ActorValue(a)], vs);
    SingleActorModel(a);
  }

  lemma SingleActorModel(a: Actor)
    ensures ProgramOf([ActorValue(a)]).actors == [a]
    ensures ProgramOf([ActorValue(a)]).dataFlows == []
  {
    FilterSingleton(IsActorValue, ActorValue(a));
    FilterSingleton(IsFlowValue, ActorValue(a));
    assert ActorsIn([ActorValue(a)])[0] == a;
  }

  /** A data flow adds its entry to the model's data flows, in place. */
  lemma FlowKept(f: DataFlow, vs: seq<Value>)
    ensures ProgramOf([FlowValue(f)] + vs).dataFlows == [f] + ProgramOf(vs).dataFlows
    ensures ProgramOf([FlowValue(f)] + vs).actors == ProgramOf(vs).actors
  {
    ProgramOfConcat([FlowValue(f)], vs);
    SingleFlowModel(f);
  }

  lemma SingleFlowModel(f: DataFlow)
    ensures ProgramOf([FlowValue(f)]).dataFlows == [f]
    ensures ProgramOf([FlowValue(f)]).actors == []
  {
    FilterSingleton(IsActorValue, FlowValue(f));
    FilterSingleton(IsFlowValue, FlowValue(f));
    assert FlowsIn([FlowValue(f)])[0] == f;
  }

  /** A successful parse yields the model of the recognised elements' values. */
  lemma ParseSucceeds(t: SymbolTables, text: string)
    requires WellTyped(t)
    requires ParseProgram(text).Some? && FlowsResolve(t, ParseProgram(text).value)
    ensures Parse(t, text).0 == Ok(ProgramOf(ValuesOf(ParseProgram(text).value)))
    ensures Parse(t, text).1 == DeclareAll(t, ParseProgram(text).value)
    ensures forall a :: a in Parse(t, text).0.value.actors <==>
      exists i :: 0 <= i < |ParseProgram(text).value| && ValueOf(ParseProgram(text).value[i]) == ActorValue(a)
  {
    var els := ParseProgram(text).value;
    EvalSucceedsIff(t, els);
    EvalValues(t, els);
    var vs := EvalElements(t, els).0.value;
    assert vs == ValuesOf(els);
    forall a | ActorValue(a) in vs
      ensures exists i :: 0 <= i < |els| && ValueOf(els[i]) == ActorValue(a)
    {
      var i :| 0 <= i < |vs| && vs[i] == ActorValue(a);
    }
  }

  /**
   * A program text that matches the grammar but has a flow whose agent or
   * store is not declared before it fails with that first flow's error; the
   * tables keep every declaration before the flow.
   */
  lemma ParseFails(t: SymbolTables, text: string) returns (k: nat)
    requires WellTyped(t)
    requires ParseProgram(text).Some? && !FlowsResolve(t, ParseProgram(text).value)
    ensures var els := ParseProgram(text).value;
      && k < |els| && IsFlowElement(els[k])
      && FlowsValid(t, els[..k])
      && !IsValidDataFlow(DeclareAll(t, els[..k]), els[k].agent, els[k].store)
      && Parse(t, text) == (Err(FlowError(els[k])), DeclareAll(t, els[..k]))
  {
    var els := ParseProgram(text).value;
    EvalSucceedsIff(t, els);
    k := EvalFailure(t, els);
  }
}

=== FILE: legacy_diag_draw.dfy ===
/**
 * The older, single-file renderer: its own channel id, underscore-joined
 * edge ids, the arrowhead direction read off the last section alone, and a
 * larger arrowhead.  Node sizes and the edge list's shape are those of the
 * diagram package.
 */
module LegacyDiagDraw {
  import opened Results
  import opened SystemModel
  import opened Geometry
  import opened DiagramModel
  import opened DiagDraw

  /** `channelID`: the two endpoint ids joined by a dash. */
  function LegacyChannelId(c: Channel): (r: string)
    ensures '-' in r
    ensures c.from <= r && r[|c.from|..] == "-" + c.to
  {
    assert (c.from + "-" + c.to)[|c.from|] == '-';
    c.from + "-" + c.to
  }

  /** The renderer's ids: `channelID` for channels and `from_to` for data flows. */
  const LegacyIds := IdScheme(LegacyChannelId, (t: FlowType, from: string, to: string) => from + "_" + to)

  /** The edge names of the renderer: `from_channelID`, `channelID_to` and `from_to`. */
  const LegacyNaming := EdgeNaming(
    LegacyIds,
    (c: Channel) => c.from + "_" + LegacyChannelId(c),
    (c: Channel) => LegacyChannelId(c) + "_" + c.to,
    (f: DataFlow) => f.from + "_" + f.to)

  /** The graph record of the renderer's `layoutModel`. */
  function LegacyLayout(m: Model): (g: LayoutGraph)
    ensures g.id != "" && (m.name != "" ==> g.id == m.name)
    ensures m.name == "" ==> g.id == "graph"
    ensures g.children == GraphNodesFor(LegacyIds, m)
    ensures |g.children| == |m.actors| + |m.channels|
    ensures forall i :: 0 <= i < |m.actors| ==>
      g.children[i].id == m.actors[i].id && g.children[i].height == 50
      && g.children[i].width == 10 * |m.actors[i].caption| + 40
    ensures forall k :: 0 <= k < |m.channels| ==>
      var c := m.channels[k];
      g.children[|m.actors| + k].id == c.from + "-" + c.to
      && g.children[|m.actors| + k].width == 20 && g.children[|m.actors| + k].height == 20
    ensures g.edges == EdgesFor(LegacyNaming, m)
    ensures forall e :: 2 * |m.channels| <= e < |g.edges| ==>
      var f := m.dataFlows[e - 2 * |m.channels|];
      g.edges[e] == GraphEdge(f.from + "_" + f.to, [f.from], [f.to], DataFlowEdge)
  {
    LayoutGraph(if m.name != "" then m.name else "graph", GraphNodesFor(LegacyIds, m), EdgesFor(LegacyNaming, m))
  }

  /** The `k`-th channel's two edges in the renderer's layout. */
  lemma LegacyChannelEdges(m: Model, k: nat)
    requires k < |m.channels|
    ensures var c := m.channels[k];
      var cid := c.from + "-" + c.to;
      && EdgesFor(LegacyNaming, m)[2 * k] == GraphEdge(c.from + "_" + cid, [c.from], [cid], ChannelEdge)
      && EdgesFor(LegacyNaming, m)[2 * k + 1] == GraphEdge(cid + "_" + c.to, [cid], [c.to], ChannelEdge)
  {
    EdgesForChannel(LegacyNaming, m, k);
    LegacyNamedEdges(m.channels[k]);
  }

  lemma LegacyNamedEdges(c: Channel)
    ensures var cid := c.from + "-" + c.to;
      && IncomingEdge(LegacyNaming, c) == GraphEdge(c.from + "_" + cid, [c.from], [cid], ChannelEdge)
      && OutgoingEdge(LegacyNaming, c) == GraphEdge(cid + "_" + c.to, [cid], [c.to], ChannelEdge)
  {
  }

  /** The renderer draws a graph child as an actor when its id has no dash. */
  function LegacyIsActor(id: string): (r: bool)
    ensures r <==> '-' !in id
  {
    IndexOfChar(id, '-');
    IndexOf(id, "-") < 0
  }

  /** The renderer's test differs from the diagram package's only on the empty id. */
  lemma ActorTestsAgree(id: string)
    ensures LegacyIsActor(id) == (GraphNodeRepresentsAnActor(id) || id == "")
  {
  }

  /**
   * Channel nodes are always told apart from actor nodes, because every
   * channel id carries a dash; actor nodes are recognised when their ids
   * carry none.
   */
  lemma LegacyNodeKindsRecognised(m: Model)
    requires forall i :: 0 <= i < |m.actors| ==> '-' !in m.actors[i].id
    ensures var g := LegacyLayout(m);
      forall i :: 0 <= i < |g.children| ==> (LegacyIsActor(g.children[i].id) <==> i < |m.actors|)
  {
    var g := LegacyLayout(m);
    forall i | |m.actors| <= i < |g.children|
      ensures !LegacyIsActor(g.children[i].id)
    {
      var c := m.channels[i - |m.actors|];
      assert g.children[i].id == LegacyChannelId(c);
    }
  }

  /**
   * `arrowHeadDirectionFrom`: a section that runs left is W, up is N, down
   * is S and right is E; a diagonal or zero-length section falls back to N.
   * Only the section's start and end points are looked at.
   */
  function ArrowHeadDirectionFrom(sec: Section): (r: Direction)
    ensures r != N ==> sec.start != sec.end && OnRayBehind(sec.end, sec.start, r)
    ensures sec.start.x == sec.end.x && sec.start.y > sec.end.y ==> r == N
    ensures (sec.start.x != sec.end.x && sec.start.y != sec.end.y) || sec.start == sec.end ==> r == N
  {
    var x1 := sec.start.x;
    var y1 := sec.start.y;
    var x2 := sec.end.x;
    var y2 := sec.end.y;
    if x2 < x1 && y2 == y1 then W
    else if x2 == x1 && y2 < y1 then N
    else if x2 == x1 && y2 > y1 then S
    else if x2 > x1 && y2 == y1 then E
    else N
  }

  /**
   * On an axis-aligned, non-degenerate section the renderer's direction is
   * the one the diagram package computes from the same two points.
   */
  lemma DirectionsAgree(sec: Section)
    requires sec.start != sec.end && (sec.start.x == sec.end.x || sec.start.y == sec.end.y)
    ensures EndDirection(sec.start, sec.end) == Some(ArrowHeadDirectionFrom(sec))
  {
  }

  /** The two classifications part ways on a zero-length section: N here, S in the diagram package. */
  lemma ZeroLengthSectionsDisagree(sec: Section)
    requires sec.start == sec.end
    ensures ArrowHeadDirectionFrom(sec) == N && EndDirection(sec.start, sec.end) == Some(S)
  {
  }

  /** The arrowhead base lies `ARROW_H = 15` behind the tip. */
  const LegacyArrowHeight: real := 15.0

  /** `drawArrowHead`: the tip at the given point, the base 15 behind it and 10 wide. */
  function LegacyArrowHead(tip: Point, d: Direction): (t: Triangle)
    ensures t.tip == tip
    ensures (t.p2.x + t.p3.x) / 2.0 == tip.x + 15.0 * Back(d).x
    ensures (t.p2.y + t.p3.y) / 2.0 == tip.y + 15.0 * Back(d).y
    ensures t.p2 == Offset(Offset(tip, Back(d), 15.0), Across(Back(d)), HalfArrowWidth)
  {
    ArrowHeadSymmetric(tip, d, LegacyArrowHeight);
    ArrowHead(tip, d, LegacyArrowHeight)
  }

  /**
   * The head of a data-flow edge: drawn at the end of the edge's last
   * section and turned by that section alone.  An edge without sections
   * fails.
   */
  function DataFlowHead(sections: seq<Section>): (r: Option<Triangle>)
    ensures r.None? <==> sections == []
    ensures r.Some? ==> r.value.tip == sections[|sections| - 1].end
  {
    if sections == [] then None
    else
      var last := sections[|sections| - 1];
      Some(LegacyArrowHead(last.end, ArrowHeadDirectionFrom(last)))
  }
}

=== FILE: results.dfy ===
/** Failure-compatible wrappers used for the source's `undefined` values and thrown errors. */
module Results {

  /** A value that may be absent (`undefined` in the source). */
  datatype Option<+T> = None | Some(value: T) {

    predicate IsFailure() {
      None?
    }

    function PropagateFailure<U>(): Option<U>
      requires None?
    {
      None
    }

    function Extract(): T
      requires Some?
    {
      value
    }
  }

  /** The outcome of an operation that throws in the source. */
  datatype Result<+T, +E> = Ok(value: T) | Err(error: E) {

    predicate IsFailure() {
      Err?
    }

    function PropagateFailure<U>(): Result<U, E>
      requires Err?
    {
      Err(error)
    }

    function Extract(): T
      requires Ok?
    {
      value
    }
  }

  /**
   * `xs.map(f)` where `f` may throw: the results in order, or the failure
   * of the first element that fails.
   */
  function MapAll<A, B, E>(f: A -> Result<B, E>, xs: seq<A>): (r: Result<seq<B>, E>)
    ensures r.Ok? <==> forall i :: 0 <= i < |xs| ==> f(xs[i]).Ok?
    ensures r.Ok? ==> |r.value| == |xs| && forall i :: 0 <= i < |xs| ==> f(xs[i]) == Ok(r.value[i])
    ensures r.Err? ==> exists i :: 0 <= i < |xs| && f(xs[i]) == Err(r.error) && forall j :: 0 <= j < i ==> f(xs[j]).Ok?
    decreases |xs|
  {
    if xs == [] then Ok([])
    else
      var first :- f(xs[0]);
      var rest :- MapAll(f, xs[1..]);
      assert forall i :: 1 <= i < |xs| ==> xs[i] == xs[1..][i - 1];
      Ok([first] + rest)
  }
}

=== FILE: scenario.dfy ===
/**
 * Stepping through a scenario one step at a time.  The executer keeps the
 * index of the step last shown; the stepper moves it forwards or backwards,
 * erasing the previous step before showing the next.  The calls made on the
 * diagram controller and the user-message callback are recorded, in order,
 * as a trace of events.
 */
module Scenario {
  import opened Results

  /** The request and response highlight colours. */
  const RequestColor: string := "#8B008B"
  const ResponseColor: string := "#A9A9A9"

  /** A scenario step; an absent message is the empty string. */
  datatype Step = Step(stepType: string, channel: string, message: string)

  datatype ScenarioDef = ScenarioDef(steps: seq<Step>)

  /** A call made while showing or hiding a step. */
  datatype Event =
    | UserMessage(text: string)
    | Highlight(channel: string, color: string)
    | DeHighlight(channel: string)
    | ShowMessage(channel: string, message: string)
    | RemoveMessage(channel: string)

  datatype ScenarioError =
    | InvalidController
    | InvalidScenario
    | InvalidScenarioIndex(index: int)
    | StepNotFound(index: int)

  // ----- the executer

  /** The executer: the index of the step last shown, `-1` before any. */
  datatype Executer = Executer(lastStepIndex: int)

  /** The executer's constructor: it needs a diagram controller and starts before the first step. */
  function NewExecuter(hasController: bool): (r: Result<Executer, ScenarioError>)
    ensures r.Ok? <==> hasController
    ensures !hasController ==> r == Err(InvalidController)
    ensures r.Ok? ==> r.value.lastStepIndex == -1
  {
    if !hasController then Err(InvalidController) else Ok(Executer(-1))
  }

  /** The highlight colour of a step type: only requests and responses are highlighted. */
  function HighlightColor(stepType: string): (r: Option<string>)
    ensures r.Some? <==> stepType == "req" || stepType == "res"
    ensures stepType == "req" ==> r == Some(RequestColor)
    ensures stepType == "res" ==> r == Some(ResponseColor)
  {
    match stepType
    case "req" => Some(RequestColor)
    case "res" => Some(ResponseColor)
    case _ => None
  }

  /** `_renderStep`: the highlight, if any, then the message box, if the step has a message. */
  function Render(step: Step): (r: seq<Event>)
    ensures forall i :: 0 <= i < |r| ==> (r[i].Highlight? || r[i].ShowMessage?) && r[i].channel == step.channel
    ensures (exists c :: Highlight(step.channel, c) in r) <==> HighlightColor(step.stepType).Some?
    ensures ShowMessage(step.channel, step.message) in r <==> step.message != ""
    ensures |r| <= 2
    ensures |r| == (if HighlightColor(step.stepType).Some? then 1 else 0) + (if step.message != "" then 1 else 0)
    ensures HighlightColor(step.stepType).Some? ==>
      |r| > 0 && r[0] == Highlight(step.channel, HighlightColor(step.stepType).value)
    ensures step.message != "" ==> |r| > 0 && r[|r| - 1] == ShowMessage(step.channel, step.message)
  {
    var highlight := match HighlightColor(step.stepType)
      case Some(color) => [Highlight(step.channel, color)]
      case None => [];
    var message := if step.message != "" then [ShowMessage(step.channel, step.message)] else [];
    assert HighlightColor(step.stepType).Some? ==> Highlight(step.channel, HighlightColor(step.stepType).value) in highlight + message;
    highlight + message
  }

  /** `_unRenderStep`: the channel is de-highlighted, then its message removed. */
  function Unrender(step: Step): (r: seq<Event>)
    ensures r == [DeHighlight(step.channel), RemoveMessage(step.channel)]
  {
    [DeHighlight(step.channel), RemoveMessage(step.channel)]
  }

  /** The text sent to the user for a step: its message, or `--` when it has none. */
  function MessageText(step: Step): (r: string)
    ensures r != ""
    ensures step.message != "" ==> r == step.message
    ensures step.message == "" ==> r == "--"
  {
    if step.message != "" then step.message else "--"
  }

  /** `allSteps[index]` names a step. */
  predicate HasStep(steps: seq<Step>, index: int) {
    0 <= index < |steps|
  }

  /**
   * `_runStep`: a missing step fails before anything is shown; otherwise the
   * user is told the step's message and the step is rendered.
   */
  function RunStep(steps: seq<Step>, index: int): (r: Result<seq<Event>, ScenarioError>)
    ensures r.Ok? <==> HasStep(steps, index)
    ensures r.Err? ==> r.error == StepNotFound(index)
    ensures r.Ok? ==> |r.value| >= 1 && r.value[0] == UserMessage(MessageText(steps[index]))
    ensures r.Ok? ==> r.value[1..] == Render(steps[index])
  {
    if !HasStep(steps, index) then Err(StepNotFound(index))
    else Ok([UserMessage(MessageText(steps[index]))] + Render(steps[index]))
  }

  // ----- the stepper

  /** The stepper: the scenario's index, its steps and the index of the step last shown. */
  datatype Stepper = Stepper(scenarioIndex: int, steps: seq<Step>, lastStepIndex: int)

  /** The cursor names a step or sits before the first. */
  predicate Inv(s: Stepper) {
    -1 <= s.lastStepIndex < |s.steps|
  }

  /**
   * The stepper's constructor: the controller is checked first, then the
   * scenario, then the index, which must be truthy and not negative, so `0`
   * is refused.
   */
  function NewStepper(scenarioIndex: int, scenario: Option<ScenarioDef>, hasController: bool): (r: Result<Stepper, ScenarioError>)
    ensures !hasController ==> r == Err(InvalidController)
    ensures hasController && scenario.None? ==> r == Err(InvalidScenario)
    ensures hasController && scenario.Some? && scenarioIndex <= 0 ==> r == Err(InvalidScenarioIndex(scenarioIndex))
    ensures r.Ok? <==> hasController && scenario.Some? && scenarioIndex > 0
    ensures r.Ok? ==> Inv(r.value) && r.value.lastStepIndex == -1
    ensures r.Ok? ==> r.value.steps == scenario.value.steps && r.value.scenarioIndex == scenarioIndex
  {
    var e :- NewExecuter(hasController);
    if scenario.None? then Err(InvalidScenario)
    else if scenarioIndex == 0 || scenarioIndex < 0 then Err(InvalidScenarioIndex(scenarioIndex))
    else Ok(Stepper(scenarioIndex, scenario.value.steps, e.lastStepIndex))
  }

  /** The result of a move: the stepper after it, the calls made, and the error it ended with, if any. */
  datatype Outcome = Outcome(stepper: Stepper, trace: seq<Event>, error: Option<ScenarioError>)

  /** `erasePreviousStep`: the step last shown is hidden, if the cursor names one. */
  function ErasePrevious(s: Stepper): (r: seq<Event>)
    ensures HasStep(s.steps, s.lastStepIndex) ==> r == Unrender(s.steps[s.lastStepIndex])
    ensures !HasStep(s.steps, s.lastStepIndex) ==> r == []
  {
    if HasStep(s.steps, s.lastStepIndex) then Unrender(s.steps[s.lastStepIndex]) else []
  }

  /**
   * `_run`: the previous step is erased, then the target is run.  A failed
   * run leaves the cursor where it was, but the erasure has happened.
   */
  function Run(s: Stepper, target: int): (r: Outcome)
    ensures ErasePrevious(s) <= r.trace
    ensures r.error.None? <==> HasStep(s.steps, target)
    ensures r.error.Some? ==> r.error.value == StepNotFound(target) && r.stepper == s && r.trace == ErasePrevious(s)
    ensures r.error.None? ==> r.stepper == s.(lastStepIndex := target)
    ensures r.error.None? ==> r.trace == ErasePrevious(s) + RunStep(s.steps, target).value
    ensures r.stepper.steps == s.steps && r.stepper.scenarioIndex == s.scenarioIndex
  {
    var erased := ErasePrevious(s);
    match RunStep(s.steps, target)
    case Err(e) => Outcome(s, erased, Some(e))
    case Ok(shown) => Outcome(s.(lastStepIndex := target), erased + shown, None)
  }

  /** The step `nextStep` runs: the one after the cursor, but never past the last. */
  function NextTarget(s: Stepper): (r: int)
    ensures r <= |s.steps| - 1
    ensures s.lastStepIndex < |s.steps| - 1 ==> r == s.lastStepIndex + 1
    ensures s.lastStepIndex >= |s.steps| - 1 ==> r == |s.steps| - 1
  {
    if s.lastStepIndex >= |s.steps| - 1 then |s.steps| - 1 else s.lastStepIndex + 1
  }

  /** The step `prevStep` runs: the one before the cursor, but the first stays the first. */
  function PrevTarget(s: Stepper): (r: int)
    ensures s.lastStepIndex == 0 ==> r == 0
    ensures s.lastStepIndex != 0 ==> r == s.lastStepIndex - 1
  {
    if s.lastStepIndex == 0 then 0 else s.lastStepIndex - 1
  }

  /** Where `nextStep` leaves the cursor: on the next step, or unmoved when there are no steps. */
  function NextCursor(s: Stepper): (r: Stepper)
    requires Inv(s)
    ensures Inv(r) && r.steps == s.steps && r.scenarioIndex == s.scenarioIndex
  {
    if |s.steps| > 0 then s.(lastStepIndex := NextTarget(s)) else s
  }

  /** Where `prevStep` leaves the cursor: on the previous step, or unmoved before the first. */
  function PrevCursor(s: Stepper): (r: Stepper)
    requires Inv(s)
    ensures Inv(r) && r.steps == s.steps && r.scenarioIndex == s.scenarioIndex
  {
    if s.lastStepIndex >= 0 then s.(lastStepIndex := PrevTarget(s)) else s
  }

  /** `nextStep`: runs the step after the cursor; it fails only when the scenario has no steps. */
  function NextStep(s: Stepper): (r: Outcome)
    requires Inv(s)
    ensures r.error.None? <==> |s.steps| > 0
    ensures r.stepper == NextCursor(s)
    ensures |s.steps| == 0 ==> r.error == Some(StepNotFound(-1)) && r.trace == []
    ensures |s.steps| > 0 ==> r.trace == ErasePrevious(s) + RunStep(s.steps, NextTarget(s)).value
  {
    Run(s, NextTarget(s))
  }

  /** `prevStep`: runs the step before the cursor; it fails only before the first step. */
  function PrevStep(s: Stepper): (r: Outcome)
    requires Inv(s)
    ensures r.error.None? <==> s.lastStepIndex >= 0
    ensures s.lastStepIndex == -1 ==> r.error == Some(StepNotFound(-2)) && r.trace == []
    ensures s.lastStepIndex >= 0 ==> r.trace == ErasePrevious(s) + RunStep(s.steps, PrevTarget(s)).value
    ensures r.stepper == PrevCursor(s)
  {
    Run(s, PrevTarget(s))
  }

  /** `nextStep` then `prevStep` comes back to a step that is not the last. */
  lemma NextThenPrev(s: Stepper)
    requires Inv(s) && 0 <= s.lastStepIndex < |s.steps| - 1
    ensures var n := NextStep(s);
      n.error.None? && PrevStep(n.stepper).error.None? && PrevStep(n.stepper).stepper == s
  {
  }

  /** `prevStep` then `nextStep` comes back to a step that is not the first. */
  lemma PrevThenNext(s: Stepper)
    requires Inv(s) && s.lastStepIndex >= 1
    ensures var p := PrevStep(s);
      p.error.None? && NextStep(p.stepper).error.None? && NextStep(p.stepper).stepper == s
  {
  }

  /** The cursor after `n` calls of `nextStep`, errors included. */
  function Forward(s: Stepper, n: nat): (r: Stepper)
    requires Inv(s)
    ensures Inv(r) && r.steps == s.steps
    decreases n
  {
    if n == 0 then s else Forward(NextCursor(s), n - 1)
  }

  function Min(a: int, b: int): int {
    if a < b then a else b
  }

  /**
   * From a fresh stepper, `n` calls of `nextStep` show the steps in order
   * and then stay on the last: the cursor ends at `min(n, |steps|) - 1`.
   */
  lemma ForwardFromStart(s: Stepper, n: nat)
    requires Inv(s) && s.lastStepIndex == -1
    ensures Forward(s, n).lastStepIndex == Min(n, |s.steps|) - 1
  {
    if |s.steps| == 0 {
      ForwardEmpty(s, n);
    } else if n <= |s.steps| - 1 {
      ForwardWithin(s, n);
    } else {
      ForwardClamped(s, n);
    }
  }

  /** Below the last step, each call of `nextStep` moves the cursor one step on. */
  lemma {:induction false} ForwardWithin(s: Stepper, n: nat)
    requires Inv(s) && s.lastStepIndex + n <= |s.steps| - 1
    ensures Forward(s, n).lastStepIndex == s.lastStepIndex + n
    decreases n
  {
    if n > 0 {
      ForwardWithin(NextCursor(s), n - 1);
    }
  }

  /** Once enough calls have been made, the cursor rests on the last step. */
  lemma {:induction false} ForwardClamped(s: Stepper, n: nat)
    requires Inv(s) && |s.steps| > 0 && s.lastStepIndex + n >= |s.steps| - 1
    ensures Forward(s, n).lastStepIndex == |s.steps| - 1
    decreases n
  {
    if n > 0 {
      ForwardClamped(NextCursor(s), n - 1);
    }
  }

  /** Without steps, `nextStep` always fails and the cursor stays where it is. */
  lemma {:induction false} ForwardEmpty(s: Stepper, n: nat)
    requires Inv(s) && |s.steps| == 0
    ensures Forward(s, n) == s
    decreases n
  {
    if n > 0 {
      ForwardEmpty(NextCursor(s), n - 1);
    }
  }
}

=== FILE: seqs.dfy ===
/** Order-preserving filtering of sequences, the model of JavaScript's `Array.prototype.filter`. */
module Seqs {

  /** The elements of `s` that satisfy `p`, in their original order. */
  function Filter<T(!new)>(p: T -> bool, s: seq<T>): (r: seq<T>)
    ensures |r| <= |s|
    ensures forall i :: 0 <= i < |r| ==> p(r[i])
    ensures forall x :: x in r <==> x in s && p(x)
    decreases |s|
  {
    if s == [] then []
    else if p(s[0]) then [s[0]] + Filter(p, s[1..])
    else Filter(p, s[1..])
  }

  /** Filtering a concatenation filters each part: the kept elements stay in order. */
  lemma {:induction false} FilterConcat<T(!new)>(p: T -> bool, a: seq<T>, b: seq<T>)
    ensures Filter(p, a + b) == Filter(p, a) + Filter(p, b)
    decreases |a|
  {
    if a == [] {
      assert a + b == b;
    } else {
      assert (a + b)[0] == a[0];
      assert (a + b)[1..] == a[1..] + b;
      FilterConcat(p, a[1..], b);
    }
  }

  /** A single element is kept exactly when it passes the test. */
  lemma FilterSingleton<T(!new)>(p: T -> bool, x: T)
    ensures Filter(p, [x]) == if p(x) then [x] else []
  {
    assert [x][1..] == [];
  }

  /** A sequence whose every element passes the test is kept whole. */
  lemma {:induction false} FilterAll<T(!new)>(p: T -> bool, s: seq<T>)
    requires forall i :: 0 <= i < |s| ==> p(s[i])
    ensures Filter(p, s) == s
    decreases |s|
  {
    if s != [] {
      FilterAll(p, s[1..]);
    }
  }

  /** A sequence none of whose elements passes the test filters to nothing. */
  lemma {:induction false} FilterNone<T(!new)>(p: T -> bool, s: seq<T>)
    requires forall i :: 0 <= i < |s| ==> !p(s[i])
    ensures Filter(p, s) == []
    decreases |s|
  {
    if s != [] {
      FilterNone(p, s[1..]);
    }
  }

  /** Filtering twice with the same test is filtering once. */
  lemma FilterIdempotent<T(!new)>(p: T -> bool, s: seq<T>)
    ensures Filter(p, Filter(p, s)) == Filter(p, s)
  {
    FilterAll(p, Filter(p, s));
  }

  /** Position `i` holds the one and only element of `s` that satisfies `p`. */
  predicate OnlyAt<T>(p: T -> bool, s: seq<T>, i: int) {
    && 0 <= i < |s| && p(s[i])
    && forall j :: 0 <= j < |s| && p(s[j]) ==> j == i
  }

  /** When exactly one element passes the test, the filter keeps just that element. */
  lemma {:induction false} FilterOnlyAt<T(!new)>(p: T -> bool, s: seq<T>, i: int)
    requires OnlyAt(p, s, i)
    ensures Filter(p, s) == [s[i]]
    decreases |s|
  {
    if i == 0 {
      forall j | 0 <= j < |s[1..]|
        ensures !p(s[1..][j])
      {
        assert s[1..][j] == s[j + 1];
      }
      FilterNone(p, s[1..]);
    } else {
      assert !p(s[0]);
      forall j | 0 <= j < |s[1..]| && p(s[1..][j])
        ensures j == i - 1
      {
        assert s[1..][j] == s[j + 1];
      }
      FilterOnlyAt(p, s[1..], i - 1);
    }
  }

  /** A filter that keeps exactly one element keeps the only element that passes the test. */
  lemma {:induction false} FilterSingle<T(!new)>(p: T -> bool, s: seq<T>) returns (i: int)
    requires |Filter(p, s)| == 1
    ensures OnlyAt(p, s, i) && Filter(p, s) == [s[i]]
    decreases |s|
  {
    if p(s[0]) {
      i := 0;
    } else {
      var k := FilterSingle(p, s[1..]);
      i := k + 1;
      forall j | 0 <= j < |s| && p(s[j])
        ensures j == i
      {
        assert s[1..][j - 1] == s[j];
      }
    }
    FilterOnlyAt(p, s, i);
  }

  /** A filter keeps exactly one element just when exactly one element passes the test. */
  lemma FilterOneIff<T(!new)>(p: T -> bool, s: seq<T>)
    ensures |Filter(p, s)| == 1 <==> exists i :: OnlyAt(p, s, i)
    ensures |Filter(p, s)| == 1 ==> exists i :: OnlyAt(p, s, i) && Filter(p, s) == [s[i]]
  {
    if |Filter(p, s)| == 1 {
      var i := FilterSingle(p, s);
    }
    if exists i :: OnlyAt(p, s, i) {
      var i :| OnlyAt(p, s, i);
      FilterOnlyAt(p, s, i);
    }
  }
}

=== FILE: state.dfy ===
/**
 * The application state codec: the table of short names for the graph's
 * property names and its reverse, the renaming of a laid-out graph into
 * short names and back, and the state record of code and graph.  JSON text,
 * zlib and base64 are not modelled; the two text codecs are parameters.
 */
module State {
  import opened Results
  import opened JsObjects

  datatype StateError =
    | CannotReverseKey(short: string)
    | UnrecognizedKey(short: string)
    | NotAnArray
    | NotAnObject
    | MissingGraph
    | InvalidGraph
    | InvalidCode
    | InvalidString
    | InvalidEncoding

  // ----- the key tables

  /** The property names of `COMPRESSED_KEYS` before the annotation keys are added, in order. */
  const BaseKeyOrder: seq<string> :=
    ["children", "type", "id", "width", "height", "x", "y", "caption", "fillColor", "lineColor",
     "edges", "sources", "targets", "sections", "startPoint", "ednPoint", "bendPoints"]

  /** The same names as a set; the end point of a section is listed under the misspelt `ednPoint`. */
  const BaseKeyNames: set<string> :=
    {"children", "type", "id", "width", "height", "x", "y", "caption", "fillColor", "lineColor",
     "edges", "sources", "targets", "sections", "startPoint", "ednPoint", "bendPoints"}

  /** The short name of a base property name. */
  function BaseShortName(k: string): string {
    match k
    case "children" => "c"
    case "type" => "t"
    case "id" => "i"
    case "width" => "w"
    case "height" => "h"
    case "x" => "x"
    case "y" => "y"
    case "caption" => "ca"
    case "fillColor" => "fc"
    case "lineColor" => "lc"
    case "edges" => "e"
    case "sources" => "s"
    case "targets" => "ts"
    case "sections" => "se"
    case "startPoint" => "sp"
    case "ednPoint" => "ep"
    case "bendPoints" => "bp"
    case _ => ""
  }

  /** The base property name of a base short name. */
  function BaseLongName(s: string): string {
    match s
    case "c" => "children"
    case "t" => "type"
    case "i" => "id"
    case "w" => "width"
    case "h" => "height"
    case "x" => "x"
    case "y" => "y"
    case "ca" => "caption"
    case "fc" => "fillColor"
    case "lc" => "lineColor"
    case "e" => "edges"
    case "s" => "sources"
    case "ts" => "targets"
    case "se" => "sections"
    case "sp" => "startPoint"
    case "ep" => "ednPoint"
    case "bp" => "bendPoints"
    case _ => ""
  }

  /** `COMPRESSED_KEYS` before the annotation keys are added. */
  const BaseKeys: Obj<string> := Obj(BaseKeyOrder, map k | k in BaseKeyNames :: BaseShortName(k))

  /** A key table: valid, injective, and with no empty key and no empty short name. */
  ghost predicate GoodTable(t: Obj<string>) {
    && Valid(t)
    && Injective(t)
    && "" !in t.fields
    && forall k :: k in t.fields ==> t.fields[k] != ""
  }

  /** Distinct keys have distinct short names. */
  ghost predicate Injective(t: Obj<string>) {
    forall a, b :: a in t.fields && b in t.fields && a != b ==> t.fields[a] != t.fields[b]
  }

  lemma BaseKeysValid()
    ensures Valid(BaseKeys)
  {
  }

  /** `BaseLongName` undoes `BaseShortName` on the base property names. */
  lemma BaseNamesInverse(k: string)
    requires k in BaseKeyNames
    ensures BaseLongName(BaseShortName(k)) == k && BaseShortName(k) != ""
  {
  }

  /** The base table is a good one: its short names are non-empty and, having an inverse, distinct. */
  lemma BaseKeysGood()
    ensures GoodTable(BaseKeys)
  {
    BaseKeysValid();
    forall k | k in BaseKeyNames
      ensures BaseLongName(BaseShortName(k)) == k && BaseShortName(k) != ""
    {
      BaseNamesInverse(k);
    }
  }

  /** `base` with each of `annotations` added, in order, as its own short name. */
  function AddAnnotations(base: Obj<string>, annotations: seq<string>): (t: Obj<string>)
    ensures Valid(base) ==> Valid(t)
    ensures forall k :: k in t.fields <==> k in base.fields || k in annotations
    ensures forall k :: k in annotations ==> t.fields[k] == k
    ensures forall k :: k in base.fields && k !in annotations ==> t.fields[k] == base.fields[k]
    decreases |annotations|
  {
    if annotations == [] then base
    else
      var a := annotations[|annotations| - 1];
      var prefix := annotations[..|annotations| - 1];
      assert forall k :: k in annotations <==> k in prefix || k == a;
      Put(AddAnnotations(base, prefix), a, a)
  }

  /** `COMPRESSED_KEYS`: the base table with every annotation key added as its own short name. */
  function CompressedKeys(annotations: seq<string>): (t: Obj<string>)
    ensures forall k :: k in t.fields <==> k in BaseKeys.fields || k in annotations
    ensures forall k :: k in annotations ==> t.fields[k] == k
    ensures forall k :: k in BaseKeys.fields && k !in annotations ==> t.fields[k] == BaseKeys.fields[k]
  {
    AddAnnotations(BaseKeys, annotations)
  }

  /** `COMPRESSED_KEYS[k]` used as a property name: a key missing from the table reads as `"undefined"`. */
  function ShortKey(t: Obj<string>, k: string): string {
    if k in t.fields then t.fields[k] else "undefined"
  }

  /** The position of the first key, at or after `i`, whose short name is `v`; `|t.keys|` when there is none. */
  function FirstKeyIndex(t: Obj<string>, v: string, i: nat): (r: nat)
    requires i <= |t.keys|
    ensures i <= r <= |t.keys|
    ensures r < |t.keys| ==> t.keys[r] in t.fields && t.fields[t.keys[r]] == v
    ensures forall j :: i <= j < r ==> !(t.keys[j] in t.fields && t.fields[t.keys[j]] == v)
    decreases |t.keys| - i
  {
    if i == |t.keys| then i
    else if t.keys[i] in t.fields && t.fields[t.keys[i]] == v then i
    else FirstKeyIndex(t, v, i + 1)
  }

  /** Every entry of `rev` names a key of `t` whose short name is the entry's own key. */
  ghost predicate Reverses(t: Obj<string>, rev: Obj<string>) {
    forall v :: v in rev.fields ==> rev.fields[v] in t.fields && t.fields[rev.fields[v]] == v
  }

  /**
   * `UNCOMPRESSED_KEYS`, built from the first `n` entries of the table in
   * order: each short name is mapped to the first key that has it, and a
   * short name whose first key is empty stops the build.
   */
  function UncompressedUpTo(t: Obj<string>, n: nat): (r: Result<Obj<string>, StateError>)
    requires n <= |t.keys|
    ensures r.Ok? ==> Valid(r.value) && Reverses(t, r.value)
    ensures r.Ok? ==> forall j :: 0 <= j < n && t.keys[j] in t.fields ==> t.fields[t.keys[j]] in r.value.fields
    ensures "" !in t.fields ==> r.Ok?
    decreases n
  {
    if n == 0 then Ok(Empty())
    else
      var prev :- UncompressedUpTo(t, n - 1);
      var k0 := t.keys[n - 1];
      if k0 !in t.fields then Ok(prev)
      else
        var v := t.fields[k0];
        var i := FirstKeyIndex(t, v, 0);
        var k := if i < |t.keys| then t.keys[i] else "";
        if k == "" then Err(CannotReverseKey(v)) else Ok(Put(prev, v, k))
  }

  /**
   * `UNCOMPRESSED_KEYS`: every short name mapped back to a key that has it,
   * which is the only such key when the table is injective.
   */
  function UncompressedKeys(t: Obj<string>): (r: Result<Obj<string>, StateError>)
    ensures r.Ok? ==> Valid(r.value) && Reverses(t, r.value)
    ensures Valid(t) && r.Ok? ==> forall k :: k in t.fields ==> t.fields[k] in r.value.fields
    ensures "" !in t.fields ==> r.Ok?
  {
    UncompressedUpTo(t, |t.keys|)
  }

  /** On an injective table the reverse table inverts the forward one. */
  lemma ReverseOfShortName(t: Obj<string>, rev: Obj<string>, k: string)
    requires Valid(t) && Injective(t) && UncompressedKeys(t) == Ok(rev) && k in t.fields
    ensures t.fields[k] in rev.fields && rev.fields[t.fields[k]] == k
  {
  }

  /**
   * An empty annotation key is its own short name and no other key has the
   * empty short name, so the reverse table cannot map it back.
   */
  lemma EmptyKeyCannotBeReversed(base: Obj<string>, annotations: seq<string>)
    requires GoodTable(base)
    ensures UncompressedKeys(AddAnnotations(base, annotations)).Ok? <==> "" !in annotations
  {
    var t := AddAnnotations(base, annotations);
    if "" in annotations {
      assert t.fields[""] == "";
      assert "" in t.keys;
      var j :| 0 <= j < |t.keys| && t.keys[j] == "";
      EmptyShortNameStops(t, |t.keys|, j);
    }
  }

  lemma {:induction false} EmptyShortNameStops(t: Obj<string>, n: nat, j: nat)
    requires n <= |t.keys| && j < n && t.keys[j] == "" && "" in t.fields && t.fields[""] == ""
    requires forall k :: k in t.fields && t.fields[k] == "" ==> k == ""
    ensures UncompressedUpTo(t, n).Err?
    decreases n
  {
    if j < n - 1 {
      EmptyShortNameStops(t, n - 1, j);
    } else {
      var i := FirstKeyIndex(t, "", 0);
      assert i <= j;
    }
  }

  /** A key that is neither a property name of `base` nor one of its short names. */
  ghost predicate FreshFor(base: Obj<string>, a: string) {
    a != "" && a !in base.fields && forall k :: k in base.fields ==> base.fields[k] != a
  }

  /** Adding fresh annotation keys to a good table gives a good table. */
  lemma FreshAnnotationsGood(base: Obj<string>, annotations: seq<string>)
    requires GoodTable(base)
    requires forall i :: 0 <= i < |annotations| ==> FreshFor(base, annotations[i])
    ensures GoodTable(AddAnnotations(base, annotations))
  {
    var t := AddAnnotations(base, annotations);
    forall a, b | a in t.fields && b in t.fields && a != b
      ensures t.fields[a] != t.fields[b]
    {
      if a in annotations && b !in annotations {
        assert t.fields[b] == base.fields[b];
      } else if b in annotations && a !in annotations {
        assert t.fields[a] == base.fields[a];
      }
    }
  }

  /** The two tables, as loaded once. */
  datatype KeyCodec = KeyCodec(compressed: Obj<string>, uncompressed: Obj<string>)

  /** Loading the tables: the reverse table is built from the forward one, and its failure is the load's. */
  function LoadKeys(annotations: seq<string>): (r: Result<KeyCodec, StateError>)
    ensures r.Ok? <==> "" !in annotations
    ensures r.Ok? ==> r.value.compressed == CompressedKeys(annotations)
    ensures r.Ok? ==> Reverses(r.value.compressed, r.value.uncompressed)
  {
    BaseKeysGood();
    EmptyKeyCannotBeReversed(BaseKeys, annotations);
    var t := CompressedKeys(annotations);
    var rev :- UncompressedKeys(t);
    Ok(KeyCodec(t, rev))
  }

  /** A pair of tables the codec can round-trip through. */
  ghost predicate GoodCodec(codec: KeyCodec) {
    GoodTable(codec.compressed) && UncompressedKeys(codec.compressed) == Ok(codec.uncompressed)
  }

  /** Annotation keys that are fresh for the base table load into a good pair of tables. */
  lemma FreshAnnotationsLoad(annotations: seq<string>)
    requires forall i :: 0 <= i < |annotations| ==> FreshFor(BaseKeys, annotations[i])
    ensures LoadKeys(annotations).Ok? && GoodCodec(LoadKeys(annotations).value)
  {
    BaseKeysGood();
    FreshAnnotationsGood(BaseKeys, annotations);
  }

  // ----- graphs

  /** An edge of the laid-out graph: its own properties and its routed sections. */
  datatype Edge = Edge(fields: Obj<Json>, sections: seq<Obj<Json>>)

  datatype Graph = Graph(children: seq<Obj<Json>>, edges: seq<Edge>)

  /**
   * The renaming of the first `n` properties of a graph child: a property
   * whose name has a non-empty short name is copied under it; any other
   * property is dropped.
   */
  function CompressChildUpTo(t: Obj<string>, child: Obj<Json>, n: nat): Obj<Json>
    requires n <= |child.keys|
    decreases n
  {
    if n == 0 then Empty()
    else
      var prev := CompressChildUpTo(t, child, n - 1);
      var k := child.keys[n - 1];
      if k in t.fields && t.fields[k] != "" then Put(prev, t.fields[k], Field(child, k)) else prev
  }

  function CompressChild(t: Obj<string>, child: Obj<Json>): Obj<Json> {
    CompressChildUpTo(t, child, |child.keys|)
  }

  /** Under an injective table, a property's short name holds the property's value after renaming. */
  lemma {:induction false} CompressChildField(t: Obj<string>, child: Obj<Json>, n: nat, k: string)
    requires n <= |child.keys| && Injective(t) && k in t.fields && t.fields[k] != ""
    ensures Field(CompressChildUpTo(t, child, n), t.fields[k]) == if k in child.keys[..n] then Field(child, k) else JUndefined
    decreases n
  {
    if n > 0 {
      var prev := CompressChildUpTo(t, child, n - 1);
      var k' := child.keys[n - 1];
      CompressChildField(t, child, n - 1, k);
      PrefixStep(child.keys, n, k);
      if k' in t.fields && t.fields[k'] != "" {
        FieldPut(prev, t.fields[k'], Field(child, k'), t.fields[k]);
      }
    }
  }

  /**
   * The reverse renaming of a compressed child over the first `n` entries
   * of the reverse table: every long name is given the value found under
   * its short name, `undefined` included; an entry with an empty long name
   * fails.
   */
  function DecompressChildUpTo(rev: Obj<string>, c: Obj<Json>, n: nat): (r: Result<Obj<Json>, StateError>)
    requires n <= |rev.keys|
    ensures r.Ok? <==> AllNamed(rev, n)
    decreases n
  {
    if n == 0 then Ok(Empty())
    else
      var prev :- DecompressChildUpTo(rev, c, n - 1);
      var ck := rev.keys[n - 1];
      var uck := if ck in rev.fields then rev.fields[ck] else "";
      if uck == "" then Err(UnrecognizedKey(ck)) else Ok(Put(prev, uck, Field(c, ck)))
  }

  /** Each of the first `n` entries of the reverse table has a non-empty long name. */
  ghost predicate AllNamed(rev: Obj<string>, n: nat)
    requires n <= |rev.keys|
  {
    forall j :: 0 <= j < n ==> rev.keys[j] in rev.fields && rev.fields[rev.keys[j]] != ""
  }

  /** The long name of each of the first `n` entries of the reverse table is a property of `d`. */
  ghost predicate WritesAll(rev: Obj<string>, n: nat, d: Obj<Json>)
    requires n <= |rev.keys|
  {
    forall j :: 0 <= j < n ==> rev.keys[j] in rev.fields && rev.fields[rev.keys[j]] in d.fields
  }

  function DecompressChild(rev: Obj<string>, c: Obj<Json>): (r: Result<Obj<Json>, StateError>)
    ensures r.Ok? <==> forall j :: 0 <= j < |rev.keys| ==> rev.keys[j] in rev.fields && rev.fields[rev.keys[j]] != ""
    ensures r.Ok? ==> Valid(r.value)
    ensures r.Ok? ==> forall j :: 0 <= j < |rev.keys| ==> rev.keys[j] in rev.fields && rev.fields[rev.keys[j]] in r.value.fields
    ensures r.Ok? ==> r.value.fields.Keys <= rev.fields.Values
  {
    var r := DecompressChildUpTo(rev, c, |rev.keys|);
    if r.Ok? then
      DecompressChildValid(rev, c, |rev.keys|);
      DecompressChildWritesAll(rev, c, |rev.keys|);
      DecompressChildLongNames(rev, c, |rev.keys|);
      r
    else r
  }

  /** The reverse renaming lists exactly the properties it writes. */
  lemma {:induction false} DecompressChildValid(rev: Obj<string>, c: Obj<Json>, n: nat)
    requires n <= |rev.keys| && AllNamed(rev, n)
    ensures DecompressChildUpTo(rev, c, n).Ok? && Valid(DecompressChildUpTo(rev, c, n).value)
    decreases n
  {
    if n > 0 {
      DecompressChildStep(rev, c, n);
      DecompressChildValid(rev, c, n - 1);
    }
  }

  /** The reverse renaming writes long names only. */
  lemma {:induction false} DecompressChildLongNames(rev: Obj<string>, c: Obj<Json>, n: nat)
    requires n <= |rev.keys| && AllNamed(rev, n)
    ensures DecompressChildUpTo(rev, c, n).Ok? && DecompressChildUpTo(rev, c, n).value.fields.Keys <= rev.fields.Values
    decreases n
  {
    if n > 0 {
      DecompressChildStep(rev, c, n);
      DecompressChildLongNames(rev, c, n - 1);
    }
  }

  /** The reverse renaming writes the long name of every entry it walks. */
  lemma {:induction false} DecompressChildWritesAll(rev: Obj<string>, c: Obj<Json>, n: nat)
    requires n <= |rev.keys| && AllNamed(rev, n)
    ensures DecompressChildUpTo(rev, c, n).Ok? && WritesAll(rev, n, DecompressChildUpTo(rev, c, n).value)
    decreases n
  {
    if n > 0 {
      DecompressChildStep(rev, c, n);
      DecompressChildWritesAll(rev, c, n - 1);
    }
  }

  /** One step of the reverse renaming, unfolded. */
  lemma DecompressChildStep(rev: Obj<string>, c: Obj<Json>, n: nat)
    requires 0 < n <= |rev.keys| && DecompressChildUpTo(rev, c, n).Ok?
    ensures var ck := rev.keys[n - 1];
      && DecompressChildUpTo(rev, c, n - 1).Ok?
      && ck in rev.fields
      && DecompressChildUpTo(rev, c, n).value
         == Put(DecompressChildUpTo(rev, c, n - 1).value, rev.fields[ck], Field(c, ck))
  {
  }

  /** Distinct short names of the reverse table have distinct long names. */
  ghost predicate LongNamesDistinct(rev: Obj<string>) {
    forall a, b :: a in rev.fields && b in rev.fields && a != b ==> rev.fields[a] != rev.fields[b]
  }

  /** A reverse table of some table has distinct long names, since the table maps them back. */
  lemma ReversesDistinct(t: Obj<string>, rev: Obj<string>)
    requires Reverses(t, rev)
    ensures LongNamesDistinct(rev)
  {
    forall a, b | a in rev.fields && b in rev.fields && a != b
      ensures rev.fields[a] != rev.fields[b]
    {
      assert t.fields[rev.fields[a]] == a && t.fields[rev.fields[b]] == b;
    }
  }

  lemma PrefixStep(keys: seq<string>, n: nat, s: string)
    requires 0 < n <= |keys|
    ensures s in keys[..n] <==> s in keys[..n - 1] || s == keys[n - 1]
  {
    assert keys[..n] == keys[..n - 1] + [keys[n - 1]];
  }

  /** A long name gets the value of its short name, when long names are distinct. */
  lemma {:induction false} DecompressChildField(rev: Obj<string>, c: Obj<Json>, n: nat, s: string)
    requires n <= |rev.keys| && AllNamed(rev, n)
    requires LongNamesDistinct(rev) && s in rev.fields
    ensures DecompressChildUpTo(rev, c, n).Ok?
    ensures Field(DecompressChildUpTo(rev, c, n).value, rev.fields[s]) == if s in rev.keys[..n] then Field(c, s) else JUndefined
    decreases n
  {
    if n > 0 {
      var ck := rev.keys[n - 1];
      DecompressChildStep(rev, c, n);
      var prev := DecompressChildUpTo(rev, c, n - 1).value;
      DecompressChildField(rev, c, n - 1, s);
      FieldPut(prev, rev.fields[ck], Field(c, ck), rev.fields[s]);
      PrefixStep(rev.keys, n, s);
    }
  }

  /**
   * What decompression gives back for a compressed child: every property
   * the table names, with its original value or `undefined`, and nothing
   * else.
   */
  ghost predicate ChildRestored(t: Obj<string>, orig: Obj<Json>, restored: Obj<Json>) {
    && (forall k :: k in restored.fields <==> k in t.fields)
    && (forall k :: k in t.fields ==> Field(restored, k) == Field(orig, k))
  }

  /** Compressing and then decompressing a child keeps exactly the properties the table names. */
  lemma ChildRoundTrip(codec: KeyCodec, child: Obj<Json>)
    requires GoodCodec(codec) && Valid(child)
    ensures var d := DecompressChild(codec.uncompressed, CompressChild(codec.compressed, child));
      d.Ok? && ChildRestored(codec.compressed, child, d.value)
  {
    var t, rev := codec.compressed, codec.uncompressed;
    var cc := CompressChild(t, child);
    DecompressChildSucceeds(t, rev, cc);
    var d := DecompressChild(rev, cc).value;
    forall k | k in d.fields
      ensures k in t.fields
    {
      assert k in rev.fields.Values;
      var v :| v in rev.fields && rev.fields[v] == k;
    }
    forall k | k in t.fields
      ensures k in d.fields && Field(d, k) == Field(child, k)
    {
      ReverseOfShortName(t, rev, k);
      ChildFieldRoundTrip(t, rev, child, k);
    }
  }

  /** The reverse renaming fails only on an empty long name, which a table without empty keys never has. */
  lemma DecompressChildSucceeds(t: Obj<string>, rev: Obj<string>, c: Obj<Json>)
    requires Valid(rev) && Reverses(t, rev) && "" !in t.fields
    ensures DecompressChild(rev, c).Ok?
  {
    forall j | 0 <= j < |rev.keys|
      ensures rev.keys[j] in rev.fields && rev.fields[rev.keys[j]] != ""
    {
      assert rev.keys[j] in rev.fields;
      assert rev.fields[rev.keys[j]] in t.fields;
    }
  }

  /** One property through compression and decompression. */
  lemma ChildFieldRoundTrip(t: Obj<string>, rev: Obj<string>, child: Obj<Json>, k: string)
    requires Injective(t) && Valid(rev) && Reverses(t, rev) && Valid(child)
    requires k in t.fields && t.fields[k] != "" && t.fields[k] in rev.fields && rev.fields[t.fields[k]] == k
    requires DecompressChild(rev, CompressChild(t, child)).Ok?
    ensures var d := DecompressChild(rev, CompressChild(t, child)).value;
      k in d.fields && Field(d, k) == Field(child, k)
  {
    var cc := CompressChild(t, child);
    var s := t.fields[k];
    assert rev.keys[..|rev.keys|] == rev.keys;
    ReversesDistinct(t, rev);
    DecompressChildField(rev, cc, |rev.keys|, s);
    CompressedChildValue(t, child, k);
  }

  /** A property the table names sits under its short name in the compressed child. */
  lemma CompressedChildValue(t: Obj<string>, child: Obj<Json>, k: string)
    requires Injective(t) && Valid(child) && k in t.fields && t.fields[k] != ""
    ensures Field(CompressChild(t, child), t.fields[k]) == Field(child, k)
  {
    CompressChildField(t, child, |child.keys|, k);
    assert child.keys[..|child.keys|] == child.keys;
  }

  // ----- sections and edges

  /**
   * `dst[to(p)] = src[from(p)]` for each name `p` of `props` in order: the
   * shape of every renaming of sections and edges.
   */
  function Rename(dst: Obj<Json>, src: Obj<Json>, props: seq<string>, to: string -> string, from: string -> string): Obj<Json>
    decreases |props|
  {
    if props == [] then dst
    else Rename(Put(dst, to(props[0]), Field(src, from(props[0]))), src, props[1..], to, from)
  }

  predicate Distinct(names: seq<string>) {
    forall a, b :: 0 <= a < b < |names| ==> names[a] != names[b]
  }

  /** `to` sends distinct names of `props` to distinct keys. */
  predicate InjectiveOn(to: string -> string, props: seq<string>) {
    forall a, b :: 0 <= a < |props| && 0 <= b < |props| && props[a] != props[b] ==> to(props[a]) != to(props[b])
  }

  /** A renamed property's new key holds the value read from its old key. */
  lemma {:induction false} RenameField(dst: Obj<Json>, src: Obj<Json>, props: seq<string>, to: string -> string, from: string -> string, i: nat)
    requires i < |props| && InjectiveOn(to, props) && Distinct(props)
    ensures Field(Rename(dst, src, props, to, from), to(props[i])) == Field(src, from(props[i]))
    decreases |props|
  {
    var next := Put(dst, to(props[0]), Field(src, from(props[0])));
    var rest := props[1..];
    assert forall a :: 0 <= a < |rest| ==> rest[a] == props[a + 1];
    if i == 0 {
      RenameKeeps(next, src, rest, to, from, to(props[0]));
    } else {
      assert rest[i - 1] == props[i];
      RenameField(next, src, rest, to, from, i - 1);
    }
  }

  /** A key that no renamed name is sent to keeps its value. */
  lemma {:induction false} RenameKeeps(dst: Obj<Json>, src: Obj<Json>, props: seq<string>, to: string -> string, from: string -> string, k: string)
    requires forall i :: 0 <= i < |props| ==> to(props[i]) != k
    ensures Field(Rename(dst, src, props, to, from), k) == Field(dst, k)
    decreases |props|
  {
    if props != [] {
      assert forall i :: 0 <= i < |props| - 1 ==> props[1..][i] == props[i + 1];
      RenameKeeps(Put(dst, to(props[0]), Field(src, from(props[0]))), src, props[1..], to, from, k);
    }
  }

  /** A property name to its short name under `t`. */
  function ToShort(t: Obj<string>): string -> string {
    p => ShortKey(t, p)
  }

  /** A property name to itself. */
  function Same(): string -> string {
    p => p
  }

  /** The section properties the codec carries, in the order it writes them. */
  const SectionProps: seq<string> := ["id", "startPoint", "endPoint", "bendPoints"]

  /** The same four names as a set. */
  const SectionPropNames: set<string> := {"id", "startPoint", "endPoint", "bendPoints"}

  /** The edge properties the codec writes when compressing, before the sections. */
  const EdgeCompressOrder: seq<string> := ["sources", "targets", "type", "id"]

  /** The edge properties the codec writes when decompressing, before the sections. */
  const EdgeProps: seq<string> := ["id", "sources", "targets", "type"]

  /** A compressed section: its four properties under their short names (`endPoint` under `"undefined"`). */
  function CompressSection(t: Obj<string>, sec: Obj<Json>): Obj<Json> {
    Rename(Empty(), sec, SectionProps, ToShort(t), Same())
  }

  /** A decompressed section: its four properties read back from their short names. */
  function DecompressSection(t: Obj<string>, c: Obj<Json>): Obj<Json> {
    Rename(Empty(), c, SectionProps, Same(), ToShort(t))
  }

  /** The decompressed section has the four carried properties with their original values, and no others. */
  ghost predicate SectionRestored(orig: Obj<Json>, restored: Obj<Json>) {
    forall k :: Field(restored, k) == if k in SectionPropNames then Field(orig, k) else JUndefined
  }

  /** Compression keeps a section's four carried properties under their short names, and nothing else. */
  lemma CompressSectionKeeps(t: Obj<string>, sec: Obj<Json>, k: string)
    requires InjectiveOn(ToShort(t), SectionProps)
    ensures forall i :: 0 <= i < |SectionProps| ==>
      Field(CompressSection(t, sec), ShortKey(t, SectionProps[i])) == Field(sec, SectionProps[i])
    ensures (forall i :: 0 <= i < |SectionProps| ==> ShortKey(t, SectionProps[i]) != k) ==>
      Field(CompressSection(t, sec), k) == JUndefined
  {
    forall i | 0 <= i < |SectionProps|
      ensures Field(CompressSection(t, sec), ShortKey(t, SectionProps[i])) == Field(sec, SectionProps[i])
    {
      RenameField(Empty(), sec, SectionProps, ToShort(t), Same(), i);
    }
    if forall i :: 0 <= i < |SectionProps| ==> ShortKey(t, SectionProps[i]) != k {
      RenameKeeps(Empty(), sec, SectionProps, ToShort(t), Same(), k);
    }
  }

  lemma SectionPropsDistinct()
    ensures Distinct(SectionProps) && InjectiveOn(Same(), SectionProps)
  {
  }

  /** One carried section property through compression and decompression. */
  lemma SectionPropRoundTrip(t: Obj<string>, sec: Obj<Json>, i: nat)
    requires i < |SectionProps| && InjectiveOn(ToShort(t), SectionProps)
    ensures Field(DecompressSection(t, CompressSection(t, sec)), SectionProps[i]) == Field(sec, SectionProps[i])
  {
    SectionPropsDistinct();
    RenameField(Empty(), CompressSection(t, sec), SectionProps, Same(), ToShort(t), i);
    RenameField(Empty(), sec, SectionProps, ToShort(t), Same(), i);
  }

  /** A section survives the round trip when its four short names are distinct. */
  lemma SectionRoundTrip(t: Obj<string>, sec: Obj<Json>)
    requires InjectiveOn(ToShort(t), SectionProps)
    ensures SectionRestored(sec, DecompressSection(t, CompressSection(t, sec)))
  {
    forall k {
      SectionFieldRoundTrip(t, sec, k);
    }
  }

  /** One property name through compression and decompression. */
  lemma SectionFieldRoundTrip(t: Obj<string>, sec: Obj<Json>, k: string)
    requires InjectiveOn(ToShort(t), SectionProps)
    ensures Field(DecompressSection(t, CompressSection(t, sec)), k) == if k in SectionPropNames then Field(sec, k) else JUndefined
  {
    if k == "id" {
      SectionPropRoundTrip(t, sec, 0);
    } else if k == "startPoint" {
      SectionPropRoundTrip(t, sec, 1);
    } else if k == "endPoint" {
      SectionPropRoundTrip(t, sec, 2);
    } else if k == "bendPoints" {
      SectionPropRoundTrip(t, sec, 3);
    } else {
      SectionOtherDropped(t, sec, k);
    }
  }

  /** A property other than the four carried ones does not come back. */
  lemma SectionOtherDropped(t: Obj<string>, sec: Obj<Json>, k: string)
    requires k !in SectionPropNames
    ensures Field(DecompressSection(t, CompressSection(t, sec)), k) == JUndefined
  {
    assert forall i :: 0 <= i < |SectionProps| ==> Same()(SectionProps[i]) != k;
    RenameKeeps(Empty(), CompressSection(t, sec), SectionProps, Same(), ToShort(t), k);
  }

  /** The four edge properties as a set. */
  const EdgePropNames: set<string> := {"id", "sources", "targets", "type"}

  /**
   * Reading a parsed value as an object: `null` and `undefined` have no
   * properties to read and fail; any other non-object is read as an object
   * without properties.
   */
  function AsObject(j: Json): (r: Result<Obj<Json>, StateError>)
    ensures r.Err? <==> j.JNull? || j.JUndefined?
    ensures j.JObj? ==> r == Ok(j.obj)
    ensures r.Ok? && !j.JObj? ==> r.value.fields == map[]
  {
    match j
    case JNull => Err(NotAnObject)
    case JUndefined => Err(NotAnObject)
    case JObj(o) => Ok(o)
    case _ => Ok(Empty())
  }

  /** `value.map(f)`: only an array can be mapped over; the first failure of `f` is the failure. */
  function MapArray<B>(f: Json -> Result<B, StateError>, j: Json): (r: Result<seq<B>, StateError>)
    ensures !j.JArr? ==> r == Err(NotAnArray)
    ensures j.JArr? ==> r == MapAll(f, j.items)
  {
    if j.JArr? then MapAll(f, j.items) else Err(NotAnArray)
  }

  /**
   * A compressed edge: `sources`, `targets`, `type` and `id` under their
   * short names, then the compressed sections under the short name of
   * `sections`.
   */
  function CompressEdge(t: Obj<string>, e: Edge): Obj<Json> {
    Put(Rename(Empty(), e.fields, EdgeCompressOrder, ToShort(t), Same()), ShortKey(t, "sections"), JArr(CompressSections(t, e.sections)))
  }

  /** `sections.map(...)` over the section compressor. */
  function CompressSections(t: Obj<string>, secs: seq<Obj<Json>>): (r: seq<Json>)
    ensures |r| == |secs| && forall i :: 0 <= i < |secs| ==> r[i] == JObj(CompressSection(t, secs[i]))
  {
    seq(|secs|, i requires 0 <= i < |secs| => JObj(CompressSection(t, secs[i])))
  }

  /** Every compressed section decodes, and to its restored self. */
  lemma SectionsRoundTrip(t: Obj<string>, secs: seq<Obj<Json>>)
    requires InjectiveOn(ToShort(t), SectionProps)
    ensures var r := MapAll(SectionDecoder(t), CompressSections(t, secs));
      r.Ok? && SectionsBack(secs, r.value)
  {
    var cs := CompressSections(t, secs);
    forall i | 0 <= i < |cs|
      ensures SectionDecoder(t)(cs[i]) == Ok(DecompressSection(t, CompressSection(t, secs[i])))
    {
      SectionDecoderOf(t, secs[i]);
    }
    var r := MapAll(SectionDecoder(t), cs);
    assert r.Ok? && |r.value| == |secs|;
    forall i | 0 <= i < |secs|
      ensures SectionRestored(secs[i], r.value[i])
    {
      assert SectionDecoder(t)(cs[i]) == Ok(r.value[i]);
      SectionRoundTrip(t, secs[i]);
    }
  }

  lemma SectionDecoderOf(t: Obj<string>, sec: Obj<Json>)
    ensures SectionDecoder(t)(JObj(CompressSection(t, sec))) == Ok(DecompressSection(t, CompressSection(t, sec)))
  {
  }

  /** A section read back from a parsed value. */
  function DecodeSection(t: Obj<string>, j: Json): (r: Result<Obj<Json>, StateError>)
    ensures r.Err? <==> j.JNull? || j.JUndefined?
    ensures j.JObj? ==> r == Ok(DecompressSection(t, j.obj))
  {
    var c :- AsObject(j);
    Ok(DecompressSection(t, c))
  }

  function SectionDecoder(t: Obj<string>): Json -> Result<Obj<Json>, StateError> {
    j => DecodeSection(t, j)
  }

  /** An edge's four properties read back from a compressed edge. */
  function DecompressEdgeFields(t: Obj<string>, c: Obj<Json>): Obj<Json> {
    Rename(Empty(), c, EdgeProps, Same(), ToShort(t))
  }

  /**
   * An edge read back from a parsed value: its four properties, then its
   * sections, which must be an array.
   */
  function DecodeEdge(t: Obj<string>, j: Json): (r: Result<Edge, StateError>)
    ensures j.JNull? || j.JUndefined? ==> r == Err(NotAnObject)
    ensures j.JObj? && !Field(j.obj, ShortKey(t, "sections")).JArr? ==> r == Err(NotAnArray)
    ensures r.Ok? ==> j.JObj?
    ensures r.Ok? ==> r.value.fields == DecompressEdgeFields(t, j.obj)
    ensures r.Ok? ==> MapArray(SectionDecoder(t), Field(j.obj, ShortKey(t, "sections"))) == Ok(r.value.sections)
  {
    var c :- AsObject(j);
    var secs :- MapArray(SectionDecoder(t), Field(c, ShortKey(t, "sections")));
    Ok(Edge(DecompressEdgeFields(t, c), secs))
  }

  /** The short names the edge codec writes are distinct from each other. */
  ghost predicate EdgeKeysDistinct(t: Obj<string>) {
    && InjectiveOn(ToShort(t), EdgeCompressOrder)
    && InjectiveOn(ToShort(t), SectionProps)
    && forall i :: 0 <= i < |EdgeCompressOrder| ==> ShortKey(t, EdgeCompressOrder[i]) != ShortKey(t, "sections")
  }

  /** What decompression gives back for a compressed edge: the four properties and the restored sections. */
  ghost predicate EdgeRestored(orig: Edge, restored: Edge) {
    EdgeFieldsBack(orig.fields, restored.fields) && SectionsBack(orig.sections, restored.sections)
  }

  /** The four edge properties with their original values, and no others. */
  ghost predicate EdgeFieldsBack(orig: Obj<Json>, restored: Obj<Json>) {
    forall k :: Field(restored, k) == if k in EdgePropNames then Field(orig, k) else JUndefined
  }

  /** As many sections as before, each restored. */
  ghost predicate SectionsBack(orig: seq<Obj<Json>>, restored: seq<Obj<Json>>) {
    |restored| == |orig| && forall i :: 0 <= i < |orig| ==> SectionRestored(orig[i], restored[i])
  }

  lemma EdgeOrdersDistinct()
    ensures Distinct(EdgeCompressOrder) && Distinct(EdgeProps) && InjectiveOn(Same(), EdgeProps)
  {
  }

  /** The `i`-th edge property, which the compressor writes `j`-th, through compression and decompression. */
  lemma EdgePropRoundTrip(t: Obj<string>, e: Edge, i: nat, j: nat)
    requires i < |EdgeProps| && j < |EdgeCompressOrder| && EdgeProps[i] == EdgeCompressOrder[j]
    requires EdgeKeysDistinct(t)
    ensures Field(DecompressEdgeFields(t, CompressEdge(t, e)), EdgeProps[i]) == Field(e.fields, EdgeProps[i])
  {
    EdgeOrdersDistinct();
    var f := Rename(Empty(), e.fields, EdgeCompressOrder, ToShort(t), Same());
    var c := CompressEdge(t, e);
    var sk := ShortKey(t, EdgeProps[i]);
    RenameField(Empty(), c, EdgeProps, Same(), ToShort(t), i);
    FieldPut(f, ShortKey(t, "sections"), Field(c, ShortKey(t, "sections")), sk);
    RenameField(Empty(), e.fields, EdgeCompressOrder, ToShort(t), Same(), j);
  }

  /** A property other than the four edge properties does not come back. */
  lemma EdgeOtherDropped(t: Obj<string>, e: Edge, k: string)
    requires k !in EdgePropNames
    ensures Field(DecompressEdgeFields(t, CompressEdge(t, e)), k) == JUndefined
  {
    assert forall i :: 0 <= i < |EdgeProps| ==> Same()(EdgeProps[i]) != k;
    RenameKeeps(Empty(), CompressEdge(t, e), EdgeProps, Same(), ToShort(t), k);
  }

  /** One property name of an edge through compression and decompression. */
  lemma EdgeFieldRoundTrip(t: Obj<string>, e: Edge, k: string)
    requires EdgeKeysDistinct(t)
    ensures Field(DecompressEdgeFields(t, CompressEdge(t, e)), k) == if k in EdgePropNames then Field(e.fields, k) else JUndefined
  {
    if k == "id" {
      EdgePropRoundTrip(t, e, 0, 3);
    } else if k == "sources" {
      EdgePropRoundTrip(t, e, 1, 0);
    } else if k == "targets" {
      EdgePropRoundTrip(t, e, 2, 1);
    } else if k == "type" {
      EdgePropRoundTrip(t, e, 3, 2);
    } else {
      EdgeOtherDropped(t, e, k);
    }
  }

  /** An edge survives the round trip when the short names the edge codec writes are distinct. */
  lemma EdgeRoundTrip(t: Obj<string>, e: Edge)
    requires EdgeKeysDistinct(t)
    ensures var d := DecodeEdge(t, JObj(CompressEdge(t, e)));
      d.Ok? && EdgeRestored(e, d.value)
  {
    var c := CompressEdge(t, e);
    var cs := CompressSections(t, e.sections);
    assert Field(c, ShortKey(t, "sections")) == JArr(cs);
    SectionsRoundTrip(t, e.sections);
    var secs := MapAll(SectionDecoder(t), cs).value;
    DecodeEdgeOf(t, c, secs);
    EdgeFieldsRestored(t, e);
  }

  /** Decoding an object whose sections decode. */
  lemma DecodeEdgeOf(t: Obj<string>, c: Obj<Json>, secs: seq<Obj<Json>>)
    requires Field(c, ShortKey(t, "sections")).JArr?
    requires MapAll(SectionDecoder(t), Field(c, ShortKey(t, "sections")).items) == Ok(secs)
    ensures DecodeEdge(t, JObj(c)) == Ok(Edge(DecompressEdgeFields(t, c), secs))
  {
  }

  /** The four edge properties come back, and no others. */
  lemma EdgeFieldsRestored(t: Obj<string>, e: Edge)
    requires EdgeKeysDistinct(t)
    ensures EdgeFieldsBack(e.fields, DecompressEdgeFields(t, CompressEdge(t, e)))
  {
    forall k {
      EdgeFieldRoundTrip(t, e, k);
    }
  }

  // ----- whole graphs

  /** `graph.children.map(...)` over the child compressor. */
  function CompressChildren(t: Obj<string>, children: seq<Obj<Json>>): (r: seq<Json>)
    ensures |r| == |children| && forall i :: 0 <= i < |children| ==> r[i] == JObj(CompressChild(t, children[i]))
  {
    seq(|children|, i requires 0 <= i < |children| => JObj(CompressChild(t, children[i])))
  }

  /** `graph.edges.map(...)` over the edge compressor. */
  function CompressEdges(t: Obj<string>, edges: seq<Edge>): (r: seq<Json>)
    ensures |r| == |edges| && forall i :: 0 <= i < |edges| ==> r[i] == JObj(CompressEdge(t, edges[i]))
  {
    seq(|edges|, i requires 0 <= i < |edges| => JObj(CompressEdge(t, edges[i])))
  }

  /** `compressGraph`: the compressed children and edges under the short names of `children` and `edges`. */
  function CompressGraph(t: Obj<string>, g: Graph): (r: Obj<Json>)
    ensures ShortKey(t, "children") != ShortKey(t, "edges") ==>
      Field(r, ShortKey(t, "children")) == JArr(CompressChildren(t, g.children))
    ensures Field(r, ShortKey(t, "edges")) == JArr(CompressEdges(t, g.edges))
  {
    var withChildren := Put(Empty(), ShortKey(t, "children"), JArr(CompressChildren(t, g.children)));
    Put(withChildren, ShortKey(t, "edges"), JArr(CompressEdges(t, g.edges)))
  }

  /**
   * A child read back from a parsed value.  The reverse table is walked
   * before the value is read, so an unrecognised first entry fails first
   * and a reverse table without entries reads nothing at all.
   */
  function DecodeChild(rev: Obj<string>, j: Json): (r: Result<Obj<Json>, StateError>)
    ensures rev.keys == [] ==> r == Ok(Empty())
    ensures rev.keys != [] && (j.JNull? || j.JUndefined?) ==> r.Err?
    ensures j.JObj? ==> (r.Ok? <==> DecompressChild(rev, j.obj).Ok?)
    ensures j.JObj? && r.Ok? ==> r == DecompressChild(rev, j.obj)
  {
    if rev.keys == [] then Ok(Empty())
    else
      var first := rev.keys[0];
      if first !in rev.fields || rev.fields[first] == "" then Err(UnrecognizedKey(first))
      else
        var c :- AsObject(j);
        DecompressChild(rev, c)
  }

  function ChildDecoder(rev: Obj<string>): Json -> Result<Obj<Json>, StateError> {
    j => DecodeChild(rev, j)
  }

  function EdgeDecoder(t: Obj<string>): Json -> Result<Edge, StateError> {
    j => DecodeEdge(t, j)
  }

  /** `decompressGraph`: the children, then the edges, each of which must be an array. */
  function DecompressGraph(codec: KeyCodec, c: Obj<Json>): (r: Result<Graph, StateError>)
    ensures !Field(c, ShortKey(codec.compressed, "children")).JArr? ==> r == Err(NotAnArray)
    ensures r.Ok? <==>
      && MapArray(ChildDecoder(codec.uncompressed), Field(c, ShortKey(codec.compressed, "children"))).Ok?
      && MapArray(EdgeDecoder(codec.compressed), Field(c, ShortKey(codec.compressed, "edges"))).Ok?
    ensures r.Ok? ==>
      && MapArray(ChildDecoder(codec.uncompressed), Field(c, ShortKey(codec.compressed, "children"))) == Ok(r.value.children)
      && MapArray(EdgeDecoder(codec.compressed), Field(c, ShortKey(codec.compressed, "edges"))) == Ok(r.value.edges)
  {
    var t := codec.compressed;
    var children :- MapArray(ChildDecoder(codec.uncompressed), Field(c, ShortKey(t, "children")));
    var edges :- MapArray(EdgeDecoder(t), Field(c, ShortKey(t, "edges")));
    Ok(Graph(children, edges))
  }

  /** As many children as before, each restored. */
  ghost predicate ChildrenBack(t: Obj<string>, orig: seq<Obj<Json>>, restored: seq<Obj<Json>>) {
    |restored| == |orig| && forall i :: 0 <= i < |orig| ==> ChildRestored(t, orig[i], restored[i])
  }

  /** As many edges as before, each restored. */
  ghost predicate EdgesBack(orig: seq<Edge>, restored: seq<Edge>) {
    |restored| == |orig| && forall i :: 0 <= i < |orig| ==> EdgeRestored(orig[i], restored[i])
  }

  ghost predicate GraphRestored(t: Obj<string>, orig: Graph, restored: Graph) {
    ChildrenBack(t, orig.children, restored.children) && EdgesBack(orig.edges, restored.edges)
  }

  /** The short names the graph codec writes are distinct where they share an object. */
  ghost predicate GraphKeysDistinct(t: Obj<string>) {
    ShortKey(t, "children") != ShortKey(t, "edges") && EdgeKeysDistinct(t)
  }

  lemma ChildDecoderOf(codec: KeyCodec, child: Obj<Json>)
    requires GoodCodec(codec) && Valid(child)
    ensures var d := ChildDecoder(codec.uncompressed)(JObj(CompressChild(codec.compressed, child)));
      d.Ok? && ChildRestored(codec.compressed, child, d.value)
  {
    ChildRoundTrip(codec, child);
  }

  /** Every compressed child decodes, and to its restored self. */
  lemma ChildrenRoundTrip(codec: KeyCodec, children: seq<Obj<Json>>)
    requires GoodCodec(codec) && forall i :: 0 <= i < |children| ==> Valid(children[i])
    ensures var r := MapAll(ChildDecoder(codec.uncompressed), CompressChildren(codec.compressed, children));
      r.Ok? && ChildrenBack(codec.compressed, children, r.value)
  {
    var cs := CompressChildren(codec.compressed, children);
    forall i | 0 <= i < |cs|
      ensures ChildDecoder(codec.uncompressed)(cs[i]).Ok?
    {
      ChildDecoderOf(codec, children[i]);
    }
    var r := MapAll(ChildDecoder(codec.uncompressed), cs);
    assert r.Ok? && |r.value| == |children|;
    forall i | 0 <= i < |children|
      ensures ChildRestored(codec.compressed, children[i], r.value[i])
    {
      assert ChildDecoder(codec.uncompressed)(cs[i]) == Ok(r.value[i]);
      ChildDecoderOf(codec, children[i]);
    }
  }

  /** Every compressed edge decodes, and to its restored self. */
  lemma EdgesRoundTrip(t: Obj<string>, edges: seq<Edge>)
    requires EdgeKeysDistinct(t)
    ensures var r := MapAll(EdgeDecoder(t), CompressEdges(t, edges));
      r.Ok? && EdgesBack(edges, r.value)
  {
    var cs := CompressEdges(t, edges);
    forall i | 0 <= i < |cs|
      ensures EdgeDecoder(t)(cs[i]).Ok?
    {
      EdgeRoundTrip(t, edges[i]);
    }
    var r := MapAll(EdgeDecoder(t), cs);
    assert r.Ok? && |r.value| == |edges|;
    forall i | 0 <= i < |edges|
      ensures EdgeRestored(edges[i], r.value[i])
    {
      assert EdgeDecoder(t)(cs[i]) == Ok(r.value[i]);
      EdgeRoundTrip(t, edges[i]);
    }
  }

  /**
   * A graph survives compression and decompression: every child keeps the
   * properties the table names, every edge its four properties and its
   * sections.
   */
  lemma GraphRoundTrip(codec: KeyCodec, g: Graph)
    requires GoodCodec(codec) && GraphKeysDistinct(codec.compressed)
    requires forall i :: 0 <= i < |g.children| ==> Valid(g.children[i])
    ensures var d := DecompressGraph(codec, CompressGraph(codec.compressed, g));
      d.Ok? && GraphRestored(codec.compressed, g, d.value)
  {
    ChildrenRoundTrip(codec, g.children);
    EdgesRoundTrip(codec.compressed, g.edges);
  }

  /** Fresh annotation keys leave the short names of the base property names as they are. */
  lemma FreshKeepsBaseShortName(annotations: seq<string>, k: string)
    requires forall i :: 0 <= i < |annotations| ==> FreshFor(BaseKeys, annotations[i])
    requires k in BaseKeyNames
    ensures k in CompressedKeys(annotations).fields && CompressedKeys(annotations).fields[k] == BaseShortName(k)
  {
    assert k in BaseKeys.fields;
    assert k !in annotations;
  }

  /** The section codec's short names are distinct when they are the base ones. */
  lemma SectionShortKeysDistinct(t: Obj<string>)
    requires ShortKey(t, "id") == "i" && ShortKey(t, "startPoint") == "sp" && ShortKey(t, "bendPoints") == "bp"
    requires ShortKey(t, "endPoint") == "undefined" || ShortKey(t, "endPoint") == "endPoint"
    ensures InjectiveOn(ToShort(t), SectionProps)
  {
    assert SectionProps == ["id", "startPoint", "endPoint", "bendPoints"];
  }

  /** The edge codec's short names are distinct when they are the base ones. */
  lemma EdgeShortKeysDistinct(t: Obj<string>)
    requires ShortKey(t, "sources") == "s" && ShortKey(t, "targets") == "ts" && ShortKey(t, "type") == "t"
    requires ShortKey(t, "id") == "i" && ShortKey(t, "sections") == "se"
    ensures InjectiveOn(ToShort(t), EdgeCompressOrder)
    ensures forall i :: 0 <= i < |EdgeCompressOrder| ==> ShortKey(t, EdgeCompressOrder[i]) != ShortKey(t, "sections")
  {
    assert EdgeCompressOrder == ["sources", "targets", "type", "id"];
  }

  /**
   * Under fresh annotation keys the graph codec's short names are `c` and
   * `e`; `s`, `ts`, `t`, `i` and `se`; and `i`, `sp`, `bp` and, as `endPoint`
   * is not in the table, `"undefined"` (or `endPoint` itself when it is an
   * annotation key): distinct where they share an object.
   */
  lemma FreshKeysDistinct(annotations: seq<string>)
    requires forall i :: 0 <= i < |annotations| ==> FreshFor(BaseKeys, annotations[i])
    ensures GraphKeysDistinct(CompressedKeys(annotations))
  {
    FreshShortKeys(annotations);
    FreshEndPoint(annotations);
    KeysDistinctOf(CompressedKeys(annotations));
  }

  /** A table that keeps the base short names and maps `endPoint`, if at all, to itself. */
  lemma KeysDistinctOf(t: Obj<string>)
    requires forall k :: k in BaseKeyNames ==> k in t.fields && t.fields[k] == BaseShortName(k)
    requires "endPoint" in t.fields ==> t.fields["endPoint"] == "endPoint"
    ensures GraphKeysDistinct(t)
  {
    BaseShortKeysOf(t);
    SectionShortKeysDistinct(t);
    EdgeShortKeysDistinct(t);
  }

  lemma FreshShortKeys(annotations: seq<string>)
    requires forall i :: 0 <= i < |annotations| ==> FreshFor(BaseKeys, annotations[i])
    ensures var t := CompressedKeys(annotations);
      forall k :: k in BaseKeyNames ==> k in t.fields && t.fields[k] == BaseShortName(k)
  {
    var t := CompressedKeys(annotations);
    forall k | k in BaseKeyNames
      ensures k in t.fields && t.fields[k] == BaseShortName(k)
    {
      FreshKeepsBaseShortName(annotations, k);
    }
  }

  /** `endPoint` is not a base property name, so only an annotation key can put it in the table. */
  lemma FreshEndPoint(annotations: seq<string>)
    ensures var t := CompressedKeys(annotations);
      "endPoint" in t.fields ==> t.fields["endPoint"] == "endPoint"
  {
    EndPointNotBase();
  }

  lemma EndPointNotBase()
    ensures "endPoint" !in BaseKeyNames && "endPoint" !in BaseKeys.fields
  {
  }

  lemma BaseShortKeysOf(t: Obj<string>)
    requires forall k :: k in BaseKeyNames ==> k in t.fields && t.fields[k] == BaseShortName(k)
    ensures && ShortKey(t, "children") == "c" && ShortKey(t, "edges") == "e"
      && ShortKey(t, "sources") == "s" && ShortKey(t, "targets") == "ts" && ShortKey(t, "type") == "t"
      && ShortKey(t, "id") == "i" && ShortKey(t, "sections") == "se"
      && ShortKey(t, "startPoint") == "sp" && ShortKey(t, "bendPoints") == "bp"
  {
  }

  // ----- the state record

  /** `encodeState`: the code under `c` and the compressed graph under `g`. */
  function EncodeState(t: Obj<string>, g: Graph, code: Json): (r: Json)
    ensures r.JObj? && Field(r.obj, "c") == code && Field(r.obj, "g") == JObj(CompressGraph(t, g))
  {
    JObj(Put(Put(Empty(), "c", code), "g", JObj(CompressGraph(t, g))))
  }

  /** A decoded state record: the code as it was parsed and the decompressed graph. */
  datatype Decoded = Decoded(code: Json, graph: Graph)

  /**
   * `decodeState` on the parsed record: a record without a truthy `g`
   * fails, and otherwise `g` is decompressed in place.
   */
  function DecodeState(codec: KeyCodec, j: Json): (r: Result<Decoded, StateError>)
    ensures j.JNull? || j.JUndefined? ==> r == Err(NotAnObject)
    ensures j.JObj? && !Truthy(Field(j.obj, "g")) ==> r == Err(MissingGraph)
    ensures r.Ok? ==> j.JObj? && Truthy(Field(j.obj, "g")) && r.value.code == Field(j.obj, "c")
    ensures r.Ok? ==> Field(j.obj, "g").JObj? && DecompressGraph(codec, Field(j.obj, "g").obj) == Ok(r.value.graph)
  {
    var state :- AsObject(j);
    var g := Field(state, "g");
    if !Truthy(g) then Err(MissingGraph)
    else
      // a truthy `g` is never `null`; one that is not an object has no properties
      var compressed := if g.JObj? then g.obj else Empty();
      var graph :- DecompressGraph(codec, compressed);
      Ok(Decoded(Field(state, "c"), graph))
  }

  /** The application state: a graph and the code it was drawn from. */
  datatype AppState = AppState(graph: Graph, code: Json)

  /** `new State(graph, code)`: both must be present, and the code truthy. */
  function NewState(graph: Option<Graph>, code: Json): (r: Result<AppState, StateError>)
    ensures graph.None? ==> r == Err(InvalidGraph)
    ensures graph.Some? && !Truthy(code) ==> r == Err(InvalidCode)
    ensures r.Ok? <==> graph.Some? && Truthy(code)
    ensures r.Ok? ==> r.value.graph == graph.value && r.value.code == code
  {
    if graph.None? then Err(InvalidGraph)
    else if !Truthy(code) then Err(InvalidCode)
    else Ok(AppState(graph.value, code))
  }

  /**
   * `State.encode`: the state record through `deflate`, which stands for
   * JSON text, zlib's deflate and base64 together.
   */
  function Encode(t: Obj<string>, g: Graph, code: Json, deflate: Json -> string): (r: string)
    ensures r == deflate(EncodeState(t, g, code))
  {
    deflate(EncodeState(t, g, code))
  }

  /**
   * `State.fromBase64`: an empty string fails; otherwise `inflate` (base64,
   * zlib's inflate and JSON parsing together, `None` where any of them
   * fails) gives the record, which is decoded and made into a state.
   */
  function FromBase64(codec: KeyCodec, str: string, inflate: string -> Option<Json>): (r: Result<AppState, StateError>)
    ensures str == "" ==> r == Err(InvalidString)
    ensures str != "" && inflate(str).None? ==> r == Err(InvalidEncoding)
    ensures r.Ok? ==> inflate(str).Some? && Truthy(r.value.code)
    ensures r.Ok? ==> DecodeState(codec, inflate(str).value) == Ok(Decoded(r.value.code, r.value.graph))
  {
    if str == "" then Err(InvalidString)
    else
      match inflate(str)
      case None => Err(InvalidEncoding)
      case Some(j) =>
        var d :- DecodeState(codec, j);
        NewState(Some(d.graph), d.code)
  }

  /** Decoding an encoded record gives back the code and the restored graph. */
  lemma DecodeEncode(codec: KeyCodec, g: Graph, code: Json)
    requires GoodCodec(codec) && GraphKeysDistinct(codec.compressed)
    requires forall i :: 0 <= i < |g.children| ==> Valid(g.children[i])
    ensures var d := DecodeState(codec, EncodeState(codec.compressed, g, code));
      d.Ok? && d.value.code == code && GraphRestored(codec.compressed, g, d.value.graph)
  {
    var cg := CompressGraph(codec.compressed, g);
    GraphRoundTrip(codec, g);
    var restored := DecompressGraph(codec, cg).value;
    DecodeStateOf(codec, EncodeState(codec.compressed, g, code).obj, cg, restored);
  }

  /** Decoding a record whose `g` is an object that decompresses. */
  lemma DecodeStateOf(codec: KeyCodec, state: Obj<Json>, cg: Obj<Json>, graph: Graph)
    requires Field(state, "g") == JObj(cg) && DecompressGraph(codec, cg) == Ok(graph)
    ensures DecodeState(codec, JObj(state)) == Ok(Decoded(Field(state, "c"), graph))
  {
  }

  /**
   * A state survives `encode` and `fromBase64` when its code is truthy,
   * the text codecs invert each other on the record and the encoded string
   * is not empty.
   */
  lemma StateRoundTrip(codec: KeyCodec, g: Graph, code: Json, deflate: Json -> string, inflate: string -> Option<Json>)
    requires GoodCodec(codec) && GraphKeysDistinct(codec.compressed)
    requires forall i :: 0 <= i < |g.children| ==> Valid(g.children[i])
    requires Truthy(code)
    requires inflate(Encode(codec.compressed, g, code, deflate)) == Some(EncodeState(codec.compressed, g, code))
    requires Encode(codec.compressed, g, code, deflate) != ""
    ensures var r := FromBase64(codec, Encode(codec.compressed, g, code, deflate), inflate);
      r.Ok? && r.value.code == code && GraphRestored(codec.compressed, g, r.value.graph)
  {
    var str := Encode(codec.compressed, g, code, deflate);
    var record := EncodeState(codec.compressed, g, code);
    DecodeEncode(codec, g, code);
    var d := DecodeState(codec, record).value;
    FromBase64Of(codec, str, inflate, record, d);
  }

  /** `fromBase64` on a string that inflates to a record that decodes. */
  lemma FromBase64Of(codec: KeyCodec, str: string, inflate: string -> Option<Json>, record: Json, d: Decoded)
    requires str != "" && inflate(str) == Some(record) && DecodeState(codec, record) == Ok(d) && Truthy(d.code)
    ensures FromBase64(codec, str, inflate) == Ok(AppState(d.graph, d.code))
  {
  }
}

=== FILE: system_model.dfy ===
/**
 * The shapes of the model objects exchanged between the language front end,
 * the diagram code and the scenario player.  The kinds the snapshot names
 * without defining (data-flow kinds, channel kinds, the channel and flow id
 * functions) are enumerations or parameters here.
 */
module SystemModel {

  datatype ActorType = Agent | Store

  /** An actor entry of the model: `{type, id, caption}`. */
  datatype Actor = Actor(kind: ActorType, id: string, caption: string)

  datatype FlowType = Read | Write

  /** A data-flow entry of the model: `{type, from, to}`. */
  datatype DataFlow = DataFlow(kind: FlowType, from: string, to: string)

  datatype ChannelType = ReqRes | Async

  /** A channel entry of the model; its endpoints are actor ids. */
  datatype Channel = Channel(kind: ChannelType, from: string, to: string, text: string)

  /** The kind of a scenario step: `"req"`, `"res"` or any other type name. */
  datatype StepType = Request | Response | OtherStep(name: string)

  /** A scenario step; an empty message stands for an absent one. */
  datatype Step = Step(kind: StepType, channel: string, message: string)

  datatype Scenario = Scenario(name: string, steps: seq<Step>)

  /** The system model object `{name, actors, channels, data_flows, scenarios}`. */
  datatype Model = Model(
    name: string,
    actors: seq<Actor>,
    channels: seq<Channel>,
    dataFlows: seq<DataFlow>,
    scenarios: seq<Scenario>)

  /**
   * The id functions `channelID(channel)` and `flowID(type, from, to)`, which
   * the diagram code imports from a module that does not define them.
   */
  datatype IdScheme = IdScheme(
    channelId: Channel -> string,
    flowId: (FlowType, string, string) -> string)
}
